=== FILE: README.md ===
# fb-auto-web bookkeeping, in Dafny

This project models the bookkeeping of fb-auto-web, a small Express service. The service
keeps, per user account, stored Facebook sessions (cookie strings with an activity flag,
a last-use time and an expiry). It fans an action (a like, a reaction, a follow, a comment)
out over those sessions and writes one history record per attempt. It answers history,
statistics, settings and analytics queries over that history. The browser that performs
the actions is not modelled: it is an uninterpreted parameter. Everything around it is
modelled: the account record's list operations, the cookie parser, the target-id
extractor, the executor's error paths, the dispatch loop and the query controllers. Time
is an integer number of milliseconds passed in as a parameter.

Modules, following the source:

- `Common`: `Option`/`Result` and the sequence operations the source uses. These are
  `filter`, a counting helper, the stable descending `sort` with `slice` (`SortDesc`,
  `JsSlice`, `TopK`), and `find` followed by a field update (`FirstIndex`, `UpdateFirst`).
- `Text`: the JavaScript string operations the source calls (`trim`, `split`,
  `toLowerCase`, `includes`) on strings as sequences of characters.
- `Account`: the user record of `models/User.js`. It covers id masking, adding,
  deactivating, touching and cleaning up sessions, and appending history with its
  counters and its hundred-record cap.
- `Cookies`: `parseCookies` of `services/fbService.js`.
- `Encoding`: UTF-8 and padded base64 (section 4 of RFC 4648). These are what
  `Buffer.from(url).toString('base64')` computes.
- `TargetId`: `extractTargetId`. Its five regular expressions are written as string
  predicates with leftmost-match semantics, and base64 is the fallback.
- `Executor`: `performAction` of the service. It covers the dispatch on the lower-cased
  kind, the login/checkpoint test, the blank-comment test, and which failures are thrown
  and which are returned. The browser's behaviour is a `Run` value.
- `Tally`: the `{total, successful, failed}` triples and the per-key objects that the
  controllers build with `forEach`.
- `Actions`: `controllers/actionController.js`. It covers request validation, the
  Facebook URL pattern, `validateTargetUrl`, `getActionHistory` with its pagination,
  `getActionStats` and `cancelPendingActions`.
- `Dispatch`: the session selection and per-session loop of the controller's
  `performAction`. The executor is a function of the session and the step number, and
  the per-step clock readings are a parameter.
- `Dashboard`: `controllers/dashboardController.js`. It covers `updateSettings`,
  `getDashboardOverview` and `getActionAnalytics`.

The controller's own comment at controllers/actionController.js:119 says its test looks
for an invalid session. That test only ever sees thrown errors, and the service returns
its login-page failure instead of throwing it. See "## Findings"; both behaviours are
modelled.

## Model

| member | source | states |
|---|---|---|
| Account.MaskId | models/User.js:278-281 | an id shorter than six characters (the empty one included) comes back unchanged; a longer one keeps its length, its first three and last three characters, and every character between them is `*` |
| Account.MaskIdempotent | models/User.js:278-281 | masking a masked id changes nothing |
| Account.MaskCollision | models/User.js:278-281 | two ids get the same mask exactly when they are the same short id, or long ids of equal length that agree on the first and last three characters |
| Account.ParseKind | models/User.js:53-57 | a string is accepted as an action kind only when it is that kind's stored name |
| Account.ParseKindName | models/User.js:56 | each of the ten kind names parses back to its kind, so the names are distinct |
| Account.AllKindsComplete | models/User.js:56 | the kind list holds every kind exactly once |
| Account.NewSession | models/User.js:223-231 | the pushed session carries the caller's fbId, is active, was last used now and expires exactly one day later |
| Account.CapSessions | models/User.js:233-238 | a list within the limit is untouched; otherwise the result has exactly `max` sessions, all taken from the list, stored most recently used first, and no kept session was used earlier than one dropped |
| Account.AddFacebookSession | models/User.js:216-239 | afterwards the only session with the added fbId is the new one; the count is within `maxSessions`; the sessions are drawn from the other fbIds' sessions plus the new one, keeping the most recently used; when the other fbIds' sessions are fewer than the limit the result is exactly those sessions in order followed by the new one, and otherwise it holds exactly `maxSessions`, stored most recently used first; below the limit the new one is kept; history, settings and counters are unchanged |
| Account.NewSessionSurvivesCap | models/User.js:223-238 | with a limit of at least one and every stored session last used before now, the new session survives the cap |
| Account.NewestSurvivesCap | models/User.js:234-238 | a session used strictly later than every other survives any limit of at least one |
| Account.DeactivateFacebookSession | models/User.js:242-247 | only the first session with the fbId changes, and only its `isActive`, which becomes false; an unknown fbId changes nothing |
| Account.DeactivateIdempotent | models/User.js:242-247 | deactivating twice is deactivating once |
| Account.UpdateSessionLastUsed | models/User.js:284-289 | only the first active session with the fbId changes, and only its `lastUsed`, which becomes now; inactive sessions are never touched |
| Account.CleanupExpiredSessions | models/User.js:270-275 | keeps exactly the sessions that are active and expire after now, with their multiplicities, in their original order; nothing outside the session list changes |
| Account.ActiveSessions | models/User.js:184-186 | the `activeFacebookSessions` view holds only active, unexpired sessions, in stored order |
| Account.CleanupIdempotent | models/User.js:270-275 | cleaning up twice is cleaning up once, and after a clean-up every stored session is in the `activeFacebookSessions` view |
| Account.Logged | models/User.js:261-266 | the history after an append holds a hundred records, or all of them when there are fewer; below the cap it is the old history plus the record; above it, the hundred newest are kept, newest first |
| Account.AddActionHistory | models/User.js:250-267 | `totalActions` rises by one, `successfulActions` exactly for a success, `failedActions` exactly for a failure; the history holds a hundred records (all when fewer), and once cut it holds the newest, newest first; the cap never lowers a counter; sessions and settings are unchanged |
| Common.KeepsLargestAppend | models/User.js:261-266 | two cuts to the newest in a row, a record appended in between, keep the newest of the whole, provided the second cut drops something whenever the first did |
| Account.AddActionHistoryKeepsCounters | models/User.js:253-259 | `successful + failed <= total` is preserved by every append |
| Account.RecentActions | models/User.js:189-193 | the `recentActions` view holds twenty records, or all of them when there are fewer, newest first, and leaves out no record newer than one it lists |
| Cookies.ApplyAttribute | services/fbService.js:98-116 | an attribute never changes the cookie's name, value or same-site setting |
| Cookies.ParseSegment | services/fbService.js:83-118 | a segment's cookie is named by the trimmed text before the first `=` of its first `;`-piece, its value is the trimmed text between that `=` and the next (empty without `=`), and its same-site setting is `Lax` whatever the attributes say |
| Cookies.ParseCookies | services/fbService.js:79-124 | the empty string gives no cookies; otherwise the cookies are the segments' cookies, in segment order, with exactly those lacking a name or a value dropped (every other one kept with its multiplicity); so every cookie returned has a non-empty name and value, and there are no more cookies than `;`-separated segments |
| Cookies.SegmentWithoutAttributes | services/fbService.js:83-84 | a segment of the `;` split holds no `;`, so the second split yields no attributes and its cookie is the base cookie of its first two `=`-pieces |
| Cookies.SegmentHasDefaults | services/fbService.js:84-95 | the cookie of such a segment carries domain `.facebook.com`, path `/`, secure, not HTTP-only, same-site `Lax` |
| Cookies.ParsedCookiesHaveDefaults | services/fbService.js:83-119 | every cookie the parser returns carries those defaults |
| Cookies.SegmentNameValue | services/fbService.js:85-89 | the name is the trimmed text before the first `=`; the value is the trimmed text between the first and second `=` (empty without `=`); anything after a second `=` is dropped |
| Encoding.Utf8Encode | services/fbService.js:506 | a string's UTF-8 bytes are at least as many as its characters, exactly as many for ASCII text |
| Encoding.Utf8RoundTrip | services/fbService.js:506 | decoding the UTF-8 bytes of a string gives the string back |
| Encoding.Base64Encode | services/fbService.js:506 | padded base64 has four characters per started group of three bytes, all from the alphabet or `=` |
| Encoding.Base64RoundTrip | services/fbService.js:506 | decoding the base64 text of bytes gives the bytes back |
| TargetId.MatchAt | services/fbService.js:491-495 | the capture of a pattern at a position, when it matches there, is a non-empty digit string |
| TargetId.Search | services/fbService.js:499 | finds the leftmost position where a pattern matches, and `None` exactly when it matches nowhere |
| TargetId.Match | services/fbService.js:499-501 | `url.match(pattern)` succeeds exactly when the pattern matches at some position, and its capture is a non-empty digit string |
| TargetId.FirstMatch | services/fbService.js:498-503 | the result is the capture of the first pattern in the list that matches, and `None` exactly when none does |
| TargetId.PhotosAtLastSplit | services/fbService.js:492 | `/\/photos\/.*\/(\d+)/` matches exactly when some `/` and digit follows `/photos/` on the same line, and captures the digits after the last such `/` |
| TargetId.OwnerPostsAtSplit | services/fbService.js:494 | `/\/(\d+)\/posts\/(\d+)/` matches exactly when a `/`, a digit run and `/posts/` with a digit occur, and captures the whole digit run |
| TargetId.OwnerPostsImpliesPosts | services/fbService.js:491-494 | every URL the fourth pattern matches, the first pattern matches too |
| TargetId.OwnerPostsNeverDecides | services/fbService.js:490-503 | dropping the fourth pattern from the list changes no extracted id |
| TargetId.DropNonMatching | services/fbService.js:498-503 | removing a non-matching pattern from any position of the list leaves the first match unchanged |
| TargetId.FallbackId | services/fbService.js:506 | the fallback is the first sixteen characters of the URL's base64 text (all of it when shorter), so it is a prefix of that text made of base64 characters, and it is empty only for the empty URL |
| TargetId.ExtractTargetId | services/fbService.js:487-506 | the id is the capture of the first matching pattern, and the fallback when none matches |
| TargetId.ExtractTargetIdShape | services/fbService.js:498-506 | the id is either a digit string some pattern captured, or at most sixteen characters of the URL's base64 text when no pattern matches |
| Executor.Classify | services/fbService.js:309-328 | a kind string gets a handler exactly when, lower-cased, it names one of the ten kinds other than `unfollow` and `unlike`; any other string goes to the `default` branch |
| Executor.ClassifyKind | services/fbService.js:309-328 | `like` goes to the like handler, the five reactions to the reaction handler, `follow` and `comment` to theirs, and `unfollow` and `unlike` to none |
| Executor.ClassifyIgnoresCase | services/fbService.js:309 | the dispatch does not depend on the case of the kind |
| Executor.Interact | services/fbService.js:353-482 | a comment handler given a missing or blank comment fails with "Comment text is required"; a handler succeeds exactly when its page steps do and, for a comment, the comment is not blank |
| Executor.Perform | services/fbService.js:288-348 | the call throws exactly when the browser cannot start, and then with "Browser initialization failed"; a login or checkpoint landing returns "Session expired or invalid"; the call succeeds exactly when the page opens outside the login pages, the kind has a handler and that handler succeeds |
| Executor.BlankCommentFails | services/fbService.js:440-444 | a blank comment on a page that opened fails with "Failed to post comment: Comment text is required" |
| Executor.UnsupportedKindFails | services/fbService.js:326-327 | an unsupported kind is reported as "Unsupported action type: …", not thrown |
| Executor.ThrownMessageIsBrowserFailure | services/fbService.js:35-44 | the only message the modelled service throws mentions neither "Session expired" nor "invalid"; errors raised while closing the browser (services/fbService.js:330, 339-340) are not modelled |
| Executor.SessionExpiredMentionsExpiry | services/fbService.js:303-306 | the returned login-page failure contains both "Session expired" and "invalid" |
| Actions.FacebookUrlMatchesPattern | controllers/actionController.js:404-406 | the one-pass reading accepts a URL exactly when `/^https?:\/\/(www\.)?(facebook\|fb)\.com\/.+/i` matches it |
| Actions.IsFacebookUrl | controllers/actionController.js:404-406 | the controller's pattern test succeeds exactly when some way through the pattern matches the URL |
| Actions.ParsedPrefixIsPath | controllers/actionController.js:404 | the prefix the one-pass reading finds is a way through the pattern |
| Actions.PathIsParsedPrefix | controllers/actionController.js:404 | every way through the pattern is the prefix the one-pass reading finds |
| Actions.ValidationErrors | controllers/actionController.js:436-458 | a request has no validation errors exactly when the kind is one of the ten, the URL is well formed and a Facebook URL, the comment, if any, has at most 8000 characters, and the session selection, if any, is an array; each of the five messages is collected exactly when its own check fails |
| Actions.ValidateTargetUrl | controllers/actionController.js:392-432 | a missing or empty URL is refused first, then one that is not a Facebook URL; otherwise the answer carries the extracted id |
| Actions.CeilDiv | controllers/actionController.js:242 | `Math.ceil(n / d)` is the least integer at least the quotient, for either sign of `d` |
| Actions.Matching | controllers/actionController.js:210-227 | the filtered history is sorted newest first and holds exactly the records that pass the given filters, with their multiplicities |
| Actions.FilterCountsMatching | controllers/actionController.js:210-230 | `total` is the number of records that pass the filters |
| Actions.Paginate | controllers/actionController.js:238-245 | `hasNext` holds exactly when `page * limit < total`, `hasPrev` exactly when `page > 1`; `pages` is the ceiling of `total / limit`, and missing only for a zero limit |
| Actions.GetActionHistory | controllers/actionController.js:189-246 | the page holds history records that pass the filters, newest first, at most `limit` of them; `total` counts every match; absent `page` and `limit` mean 1 and 20 |
| Actions.PageOfContents | controllers/actionController.js:231-233 | a page is the run from `(page - 1) * limit` to `page * limit` or the end, and empty past the end |
| Actions.PageOfPosition | controllers/actionController.js:231-233 | element `j` is element `j % limit` of page `j / limit + 1` |
| Actions.PageOfMatching | controllers/actionController.js:210-233 | any page of the filtered history holds only history records that pass the filters, newest first |
| Actions.RecordOnItsPage | controllers/actionController.js:229-245 | every matching record shows up on its page, at its offset, and that page comes no later than the last |
| Actions.HasNextBeforeLastPage | controllers/actionController.js:242-243 | with a positive limit, another page follows exactly when the requested page comes before the last |
| Actions.GetActionStats | controllers/actionController.js:261-338 | the totals are the stored counters; the today, week (seven days before the start of today) and month triples count exactly the records stamped at or after the window's start, and of those the successes and the failures; today's counts are consistent and no more than the week's; the per-kind object has one entry per kind present, each holding that kind's counts, and the totals add up to the history length; the ten newest records are listed newest first |
| Actions.StatsByKind | controllers/actionController.js:303-323 | the per-kind object built over the in-place sorted history describes the history itself |
| Actions.CancelPendingActions | controllers/actionController.js:360-367 | every pending record, and nothing else, becomes cancelled; the count returned is the number of pending records; afterwards none is pending, so a second call returns 0 |
| Tally.CountsWhere | controllers/actionController.js:287-291 | a count triple has `successful + failed <= total <= length` |
| Tally.WindowMonotone | controllers/actionController.js:281-300 | a window that starts later counts no more records in any column |
| Tally.TallyBy | controllers/actionController.js:309-323 | the per-key object has distinct keys, exactly the keys that occur |
| Tally.TallyCounts | controllers/actionController.js:309-323 | each entry holds the counts of exactly the records with its key |
| Tally.TallyTotalsSumToLength | controllers/actionController.js:309-317 | every record is counted under exactly one key, so the totals add up to the number of records |
| Dispatch.SelectSessions | controllers/actionController.js:49-57 | the sessions used are the active ones, restricted to the selected fbIds when the selection is not empty, in stored order |
| Dispatch.Chosen | controllers/actionController.js:45-57 | the sessions a request acts with are, in stored order and with their multiplicities, exactly the stored sessions that are active, unexpired both at the clean-up's clock reading and at the active view's, and selected when the selection is not empty |
| Dispatch.Records | controllers/actionController.js:90-138 | a run writes one record per chosen session, in order; each names its session, the request's kind and target id, carries its step's action id and stamp, is a success exactly when its step succeeded and otherwise holds the step's message |
| Dispatch.StoredComment | controllers/actionController.js:97 | `comment \|\| null` stores an empty comment as none |
| Dispatch.StepRecord | controllers/actionController.js:90-138 | a record's status is success exactly when the executor succeeded, and failed otherwise; its error message is absent exactly on success and then holds the reported message; it names the session and its masked id and carries the step's action id and stamp |
| Dispatch.StepResult | controllers/actionController.js:107-148 | a result's success flag is the executor's, its id is masked and its message is the reply's or the thrown one |
| Dispatch.StepSessions | controllers/actionController.js:77-124 | a step changes only activity and last use; inactive sessions stay inactive; a session is deactivated only when it is the first with the step's fbId and the failure calls for it; other fbIds' sessions are untouched; the first active session with the step's fbId is last used at the step's touch time, and every other session keeps its last use |
| Dispatch.HistoryAfter | controllers/actionController.js:104-105 | the history takes the run's records one by one: plain appends while under the cap, exactly a hundred records (all when fewer) once any is added, drawn from the old history and the records, with no record dropped that is newer than one kept |
| Dispatch.Step | controllers/actionController.js:77-140 | one step changes the sessions as `StepSessions` says (the first active session with the step's fbId is last used at the touch time and no other last use changes), and counts and logs its record |
| Dispatch.SessionsAfter | controllers/actionController.js:73-124 | after `n` steps each session keeps all but its activity and last use; starting from active sessions, one is inactive exactly when it is the first with its fbId and some step for that fbId called for deactivation; sessions of fbIds no step has are unchanged |
| Dispatch.RunSteps | controllers/actionController.js:73-155 | the loop gives each chosen session one result, in order; the counters move by the successes and failures; the history takes the run's records; the sessions are those after every step |
| Dispatch.SessionsAfterLastUses | controllers/actionController.js:73-79 | after `n` steps each session was last used when stored or at the touch time of a step for its fbId; one that is still active and is the first with its fbId was last used at the last of those steps |
| Dispatch.LastUsesStep | controllers/actionController.js:79 | one step keeps that account of last uses: the session it touches was last used at this step, which is now the last for its fbId |
| Dispatch.TouchTimesAreSteps | controllers/actionController.js:73-79 | a time is one of an fbId's touch times exactly when one of the first `n` steps is for that fbId and touches at that time |
| Dispatch.RunSessions | controllers/actionController.js:73-124 | the same characterisation of the stored sessions, activity and last uses alike, for the whole run of a request |
| Dispatch.PerformAction | controllers/actionController.js:15-174 | after the clean-up the run stops with the 400 answer exactly when no session is chosen, having saved only the clean-up; otherwise every chosen session gets exactly one result and one record, in order, and `successful + failed == total == number of sessions`, with the counters moved by the same amounts |
| Dispatch.AsWrittenNeverDeactivates | controllers/actionController.js:117-124 | as written, no call of the service's `performAction` ever leads to a deactivation |
| Dispatch.LoginLandingKeepsSessionAsWritten | controllers/actionController.js:117-124 | a login-page landing is reported as "Session expired or invalid", which the controller's test would accept, yet the session stays active |
| Dispatch.IntendedDeactivatesOnLogin | controllers/actionController.js:120-122 | with the test applied to returned failures, a login-page landing deactivates the session and a browser failure still does not |
| Dashboard.UpdateSettings | controllers/dashboardController.js:232-250 | `autoCleanup` changes only for a boolean, `notificationEmail` whenever present; a `maxSessions` in [1, 50] is stored and cuts the sessions to that many (or keeps all when there are fewer), keeping the most recently used and storing a cut list most recently used first; otherwise the limit and the sessions are unchanged; history and counters never change |
| Dashboard.UpdateSettingsIdempotent | controllers/dashboardController.js:232-250 | sending the same settings twice is sending them once |
| Dashboard.CapSessionsIdempotent | controllers/dashboardController.js:241-245 | cutting a list to a limit twice is cutting it once |
| Dashboard.ViewSession | controllers/dashboardController.js:41-48 | a shown session has its fbId masked and keeps its name, times and flag |
| Dashboard.ViewSessions | controllers/dashboardController.js:41-48 | the shown sessions are the views of the sessions, in order |
| Dashboard.PreviewComment | controllers/dashboardController.js:60 | an empty or missing comment shows as none; any other shows its first hundred characters followed by `...` |
| Dashboard.ShortCommentShownWhole | controllers/dashboardController.js:60 | a comment of at most a hundred characters is shown whole, with `...` appended all the same |
| Dashboard.ViewRecord | controllers/dashboardController.js:54-63 | a listed record keeps its id, kind, URL, masked id, status and times, with the comment previewed |
| Dashboard.ViewRecords | controllers/dashboardController.js:51-63 | the listed records are the views of the records, in order |
| Dashboard.GetDashboardOverview | controllers/dashboardController.js:13-109 | the clean-up is saved; the active list is the masked view of every kept session, all active and unexpired; the last-24-hours counts are those of the records at or after `now - 24h`; at most ten records are listed |
| Dashboard.OverviewByKind | controllers/dashboardController.js:65-81 | the per-kind object has one entry per kind present, each holding that kind's counts, and the totals add up to the history length |
| Dashboard.OverviewListsNewest | controllers/dashboardController.js:50-63 | the listed records are the ten newest, newest first |
| Dashboard.PeriodDays | controllers/dashboardController.js:298-313 | `24h`, `30d` and `90d` give 1, 30 and 90 days; a missing or any other period gives 7 |
| Dashboard.SuccessRate | controllers/dashboardController.js:349-350 | the rate is 0 with no records, and otherwise the percentage of successes rounded to the nearest integer, halves up |
| Dashboard.SuccessRateBounds | controllers/dashboardController.js:346-350 | with no more successes than records the rate lies in [0, 100], and is 100 exactly when the failures are at most half a percent of the records |
| Dashboard.Timeline | controllers/dashboardController.js:320-344 | one entry per day that has records, distinct days; each holds that day's counts and the totals of each kind that day |
| Dashboard.DayKindsAddUp | controllers/dashboardController.js:333-343 | the kind totals of a day add up to the day's total |
| Dashboard.RankSessions | controllers/dashboardController.js:352-387 | ten sessions, or every session when there are fewer, ordered by successes, none left out that has more successes than one listed, each with the counts of its masked id |
| Dashboard.GetActionAnalytics | controllers/dashboardController.js:275-388 | the window starts the period's days before now; the summary counts the records in the window, with everything that is not a success counted as failed; the rate is the rounded percentage of successes in the summary, lies in [0, 100] and is 0 without records; the timeline and the ranking (ten sessions, or all when fewer) are those of the records in the window |
| Dashboard.Last24HoursAgree | controllers/dashboardController.js:34-38 | the overview's last-24-hours counts and the `24h` analytics summary, read at the same time, count the same records |

## Left out

- Browser automation: Puppeteer start-up, pages, cookies handed to the browser and the DOM
  selector chains. The browser's behaviour during one call is the `Executor.Run` value. It
  says whether the browser started, where the page landed (or the navigation error), and
  whether the handler's page steps failed. Errors raised while closing the browser are
  not modelled.
- The random two-to-five-second pause between sessions: it has no effect on the results.
- `Date.now()`, `new Date()` and `uuidv4()` are parameters. `performAction` gets the
  clean-up's reading `now`, the active view's reading `viewedAt`, and per step a
  `StepClock` with the touch time, the record stamp and the two elapsed-time readings of
  the `catch`.
- Account.NewSession: the source reads the clock three times for a new session: `new Date()`
  for `lastUsed`, `Date.now()` for `expiresAt` and the schema default for `createdAt`
  (models/User.js:40-43, 229-230). The model uses one reading `now` for all three.
- Dashboard.GetDashboardOverview: the overview reads the clock for the clean-up, for the
  24-hour window and for the active view; the model uses one reading for all three.
- Persistence (`save()`, schemas, indexes), password hashing, authentication, the routes,
  the 401/404 answers and logging.
- `getSystemStatus` and `exportUserData` in controllers/dashboardController.js are not
  part of this model.
- The `isURL` check of the validator library is the `wellFormed` parameter of
  `Actions.ValidationErrors`.
- `parseInt` on the query string: `page` and `limit` arrive as already parsed integers or
  as absent. `NaN` from a malformed number is not modelled.
- Strings are sequences of characters, one per code point. JavaScript's UTF-16 code units
  matter only for characters beyond the Basic Multilingual Plane. They affect `length`,
  `substring(0, 100)` of a comment preview and the 8000-character comment limit.
- Dashboard.UpdateSettings: `maxSessions` is an integer or absent. The source's test has
  no type check. A fractional number such as 2.5 passes the range test, is stored as
  given, and `slice` then keeps two sessions. A numeric string such as `"5"` passes
  through JavaScript's coercion and then acts as 5. Neither case is representable here.
- Cookies.ParseCookies: a `null` or `undefined` cookie string is not representable. Its
  `[]` answer is the one the empty string gets.
- The `catch` in `extractTargetId` is not modelled: the body cannot throw on a string.
- Calendar days: the timeline groups by `timestamp / DayMs` (the UTC day number) in place
  of the ISO date string. The starts of today and of the month in `getActionStats` are
  parameters.
- Dashboard.SuccessRate: `Math.round` on a floating-point quotient is stated by an
  integer bound (halves round up). A quotient that floating point rounds differently
  from the exact one is not modelled.
- Dashboard.RankSessions: sessions with equal successes are not ordered by the contract.
  The model lists them in order of first record. JavaScript's `Object.entries` would put
  keys that look like integers (masked ids of at most six digits) first.
- Dashboard.Timeline: the timeline is a sequence of entries in order of each day's first
  record, not a JSON object keyed by date.

## Findings

| source | as written | input that shows it | evidently intended | confidence | as-written member | corrected member |
|---|---|---|---|---|---|---|
| controllers/actionController.js:117-124 | the controller deactivates a session only in its `catch`, for a thrown message containing "Session expired" or "invalid"; but the service's `performAction` catches the login/checkpoint failure itself and returns it (services/fbService.js:303-306, 338-347), and the only error it throws is "Browser initialization failed" (leaving aside errors raised while closing the browser, services/fbService.js:330, 339-340, which the model does not cover), so no session is deactivated | a session whose page lands on `https://www.facebook.com/login/…`: the result says "Session expired or invalid", the record is failed, and the session stays active | a session whose credentials are reported as expired or invalid is deactivated, whether the failure is thrown or returned | not executed | Dispatch.AsWrittenNeverDeactivates, Dispatch.LoginLandingKeepsSessionAsWritten | Dispatch.IntendedDeactivatesOnLogin |

=== FILE: account.dfy ===
/** The account document of the application (models/User.js): stored Facebook
    sessions, the action history with its running counters, and the settings,
    with the document methods that edit them. Times are integer milliseconds
    and every reading of the clock is a parameter. */
module Account {
  import opened Common
  import opened Text

  /** One day in milliseconds: the lifetime of a new session and the width of
      the "last 24 hours" windows. */
  const DayMs: int := 24 * 60 * 60 * 1000

  /** The action history keeps at most this many records. */
  const HistoryCap: nat := 100

  /** `settings.maxSessions` of a new account. */
  const DefaultMaxSessions: int := 10

  /** The user agent stored when a session is added without one. */
  const DefaultUserAgent: string := "Mozilla/5.0 (Windows NT 10.0; Win64; x64) AppleWebKit/537.36"

  datatype Session = Session(
    fbId: string,
    fbName: Option<string>,
    cookies: string,
    userAgent: string,
    isActive: bool,
    lastUsed: int,
    expiresAt: int,
    createdAt: int)

  /** The action kinds a history record may carry. */
  datatype ActionKind = Like | Love | Haha | Sad | Angry | Wow | Follow | Comment | Unfollow | Unlike

  datatype Status = Pending | Success | Failed | Cancelled

  datatype ActionRecord = ActionRecord(
    actionId: string,
    actionType: ActionKind,
    targetUrl: string,
    targetId: string,
    fbSessionId: string,
    maskedFbId: string,
    comment: Option<string>,
    status: Status,
    errorMessage: Option<string>,
    executionTime: Option<int>,
    timestamp: int)

  datatype Settings = Settings(autoCleanup: bool, maxSessions: int, notificationEmail: Option<string>)

  datatype Statistics = Statistics(totalActions: nat, successfulActions: nat, failedActions: nat)

  datatype Account = Account(
    sessions: seq<Session>,
    history: seq<ActionRecord>,
    settings: Settings,
    statistics: Statistics)

  /** What a caller hands to `addFacebookSession`. */
  datatype SessionData = SessionData(fbId: string, fbName: Option<string>, cookies: string, userAgent: Option<string>)

  const AllKinds: seq<ActionKind> := [Like, Love, Haha, Sad, Angry, Wow, Follow, Comment, Unfollow, Unlike]

  /** The string stored for each action kind. */
  function KindName(k: ActionKind): string
  {
    match k
    case Like => "like"
    case Love => "love"
    case Haha => "haha"
    case Sad => "sad"
    case Angry => "angry"
    case Wow => "wow"
    case Follow => "follow"
    case Comment => "comment"
    case Unfollow => "unfollow"
    case Unlike => "unlike"
  }

  /** The action kind a string names, if it names one exactly. */
  function ParseKind(s: string): (r: Option<ActionKind>)
    ensures r.Some? ==> KindName(r.value) == s
  {
    if s == "like" then Some(Like)
    else if s == "love" then Some(Love)
    else if s == "haha" then Some(Haha)
    else if s == "sad" then Some(Sad)
    else if s == "angry" then Some(Angry)
    else if s == "wow" then Some(Wow)
    else if s == "follow" then Some(Follow)
    else if s == "comment" then Some(Comment)
    else if s == "unfollow" then Some(Unfollow)
    else if s == "unlike" then Some(Unlike)
    else None
  }

  /** Every kind's name parses back to that kind, so the names are distinct
      and `ParseKind` accepts exactly the ten names. */
  lemma ParseKindName(k: ActionKind)
    ensures ParseKind(KindName(k)) == Some(k)
  {
  }

  /** `AllKinds` lists every kind exactly once. */
  lemma AllKindsComplete(k: ActionKind)
    ensures k in AllKinds
    ensures forall i, j :: 0 <= i < j < |AllKinds| ==> AllKinds[i] != AllKinds[j]
  {
  }

  function StatusName(s: Status): string
  {
    match s
    case Pending => "pending"
    case Success => "success"
    case Failed => "failed"
    case Cancelled => "cancelled"
  }

  // ---------------------------------------------------------------------
  // Keys and predicates handed to the sequence operations

  function LastUsed(s: Session): int { s.lastUsed }

  function Timestamp(a: ActionRecord): int { a.timestamp }

  /** The `activeFacebookSessions` test: active and not yet expired at `now`. */
  function Eligible(now: int): Session -> bool
  {
    (s: Session) => s.isActive && s.expiresAt > now
  }

  function HasId(fbId: string): Session -> bool
  {
    (s: Session) => s.fbId == fbId
  }

  function OtherId(fbId: string): Session -> bool
  {
    (s: Session) => s.fbId != fbId
  }

  function ActiveWithId(fbId: string): Session -> bool
  {
    (s: Session) => s.fbId == fbId && s.isActive
  }

  function Deactivated(): Session -> Session
  {
    (s: Session) => s.(isActive := false)
  }

  function TouchedAt(now: int): Session -> Session
  {
    (s: Session) => s.(lastUsed := now)
  }

  // ---------------------------------------------------------------------
  // maskFacebookId

  function Stars(n: nat): (r: string)
    ensures |r| == n && forall i :: 0 <= i < n ==> r[i] == '*'
  {
    seq(n, _ => '*')
  }

  /** `maskFacebookId`: ids shorter than six characters (the empty one
      included) come back unchanged; longer ones keep their length, their
      first three and last three characters, and everything between is `*`. */
  function MaskId(fbId: string): (r: string)
    ensures |r| == |fbId|
    ensures |fbId| < 6 ==> r == fbId
    ensures |fbId| >= 6 ==>
      && r[..3] == fbId[..3]
      && r[|r| - 3..] == fbId[|fbId| - 3..]
      && forall i :: 3 <= i < |r| - 3 ==> r[i] == '*'
  {
    if |fbId| < 6 then fbId
    else fbId[..3] + Stars(|fbId| - 6) + fbId[|fbId| - 3..]
  }

  /** Masking a masked id changes nothing. */
  lemma MaskIdempotent(fbId: string)
    ensures MaskId(MaskId(fbId)) == MaskId(fbId)
  {
    var m := MaskId(fbId);
    if |fbId| >= 6 {
      var mm := MaskId(m);
      assert forall i :: 0 <= i < |m| ==> mm[i] == m[i] by {
        forall i | 0 <= i < |m|
          ensures mm[i] == m[i]
        {
          if i < 3 {
            assert mm[..3][i] == m[..3][i];
          } else if i >= |m| - 3 {
            assert mm[|m| - 3..][i - (|m| - 3)] == m[|m| - 3..][i - (|m| - 3)];
          }
        }
      }
    }
  }

  /** Two ids get the same mask exactly when they are the same short id, or
      long ids of equal length that agree on their first and last three
      characters: the mask does not tell such sessions apart. */
  lemma MaskCollision(a: string, b: string)
    ensures MaskId(a) == MaskId(b) <==>
      (|a| < 6 && a == b)
      || (|a| >= 6 && |b| == |a| && a[..3] == b[..3] && a[|a| - 3..] == b[|b| - 3..])
  {
    var ma, mb := MaskId(a), MaskId(b);
    if |a| >= 6 && |b| == |a| && a[..3] == b[..3] && a[|a| - 3..] == b[|b| - 3..] {
      assert forall i :: 0 <= i < |ma| ==> ma[i] == mb[i] by {
        forall i | 0 <= i < |ma|
          ensures ma[i] == mb[i]
        {
          if i < 3 {
            assert ma[..3][i] == mb[..3][i];
          } else if i >= |ma| - 3 {
            assert ma[|ma| - 3..][i - (|ma| - 3)] == mb[|mb| - 3..][i - (|mb| - 3)];
          }
        }
      }
    }
    if ma == mb && |a| >= 6 {
      assert a[..3] == ma[..3];
    }
  }

  // ---------------------------------------------------------------------
  // Session bookkeeping

  /** The session `addFacebookSession` pushes. */
  function NewSession(data: SessionData, now: int): (s: Session)
    ensures s.fbId == data.fbId && s.isActive
    ensures s.lastUsed == now && s.expiresAt == now + DayMs
  {
    Session(
      data.fbId, data.fbName, data.cookies,
      if data.userAgent.Some? then data.userAgent.value else DefaultUserAgent,
      true, now, now + DayMs, now)
  }

  /** The session limit: a list longer than `max` is sorted by `lastUsed`,
      most recent first, and cut to `max`; a shorter one is left alone. */
  function CapSessions(sessions: seq<Session>, max: int): (r: seq<Session>)
    ensures |sessions| <= max ==> r == sessions
    ensures 0 <= max ==> |r| == Min(max, |sessions|)
    ensures |r| <= |sessions|
    ensures |sessions| > max ==> SortedDesc(r, LastUsed)
    ensures KeepsLargest(sessions, r, LastUsed)
  {
    if |sessions| > max then TopK(sessions, LastUsed, max)
    else
      assert KeepsLargest(sessions, sessions, LastUsed);
      sessions
  }

  /** `addFacebookSession`: drops every stored session with the same fbId,
      appends a created active session that expires a day from `now`, then
      enforces `settings.maxSessions` by keeping the most recently used. */
  function AddFacebookSession(a: Account, data: SessionData, now: int): (r: Account)
    ensures forall i :: 0 <= i < |r.sessions| && r.sessions[i].fbId == data.fbId ==>
      r.sessions[i] == NewSession(data, now)
    ensures 0 <= a.settings.maxSessions ==> |r.sessions| <= a.settings.maxSessions
    ensures multiset(r.sessions) <= multiset(Filter(a.sessions, OtherId(data.fbId))) + multiset{NewSession(data, now)}
    ensures KeepsLargest(Filter(a.sessions, OtherId(data.fbId)) + [NewSession(data, now)], r.sessions, LastUsed)
    ensures |a.sessions| < a.settings.maxSessions ==> NewSession(data, now) in r.sessions
    ensures |Filter(a.sessions, OtherId(data.fbId))| < a.settings.maxSessions ==>
      r.sessions == Filter(a.sessions, OtherId(data.fbId)) + [NewSession(data, now)]
    ensures 0 <= a.settings.maxSessions <= |Filter(a.sessions, OtherId(data.fbId))| ==>
      |r.sessions| == a.settings.maxSessions
    ensures a.settings.maxSessions <= |Filter(a.sessions, OtherId(data.fbId))| ==> SortedDesc(r.sessions, LastUsed)
    ensures r.history == a.history && r.settings == a.settings && r.statistics == a.statistics
  {
    var kept := Filter(a.sessions, OtherId(data.fbId));
    var added := kept + [NewSession(data, now)];
    var capped := CapSessions(added, a.settings.maxSessions);
    OnlyNewHasId(kept, NewSession(data, now), capped, data.fbId);
    assert |a.sessions| < a.settings.maxSessions ==> NewSession(data, now) in capped by {
      assert added[|kept|] == NewSession(data, now);
    }
    a.(sessions := capped)
  }

  /** Out of other fbIds' sessions and one more, only that one can carry its fbId. */
  lemma OnlyNewHasId(kept: seq<Session>, x: Session, capped: seq<Session>, fbId: string)
    requires forall j :: 0 <= j < |kept| ==> kept[j].fbId != fbId
    requires multiset(capped) <= multiset(kept + [x])
    ensures forall i :: 0 <= i < |capped| && capped[i].fbId == fbId ==> capped[i] == x
  {
    forall i | 0 <= i < |capped| && capped[i].fbId == fbId
      ensures capped[i] == x
    {
      assert capped[i] in multiset(kept + [x]);
      assert capped[i] !in kept;
    }
  }

  /** The new session survives the limit when the limit is at least one and
      every session already stored was last used before `now`. */
  lemma NewSessionSurvivesCap(a: Account, data: SessionData, now: int)
    requires a.settings.maxSessions >= 1
    requires forall i :: 0 <= i < |a.sessions| ==> a.sessions[i].lastUsed < now
    ensures NewSession(data, now) in AddFacebookSession(a, data, now).sessions
  {
    var kept := Filter(a.sessions, OtherId(data.fbId));
    var created := NewSession(data, now);
    var added := kept + [created];
    forall i | 0 <= i < |added| && added[i] != created
      ensures LastUsed(added[i]) < LastUsed(created)
    {
      assert added[i] == kept[i];
      assert kept[i] in multiset(a.sessions);
    }
    assert added[|kept|] == created;
    NewestSurvivesCap(added, a.settings.maxSessions, created);
  }

  /** A session used strictly later than every other one is kept by any
      limit of at least one. */
  lemma NewestSurvivesCap(sessions: seq<Session>, max: int, x: Session)
    requires max >= 1 && x in sessions
    requires forall i :: 0 <= i < |sessions| && sessions[i] != x ==> LastUsed(sessions[i]) < LastUsed(x)
    ensures x in CapSessions(sessions, max)
  {
    if |sessions| > max {
      UniqueMaximumFirst(sessions, LastUsed, x);
      assert TopK(sessions, LastUsed, max)[0] == SortDesc(sessions, LastUsed)[0];
    }
  }

  /** `deactivateFacebookSession`: the first session with this fbId becomes
      inactive; every other session, and every other field of that one, is
      unchanged, and an unknown fbId changes nothing. */
  function DeactivateFacebookSession(sessions: seq<Session>, fbId: string): (r: seq<Session>)
    ensures |r| == |sessions|
    ensures forall i :: 0 <= i < |r| ==> r[i].(isActive := sessions[i].isActive) == sessions[i]
    ensures forall i :: 0 <= i < |r| && i != FirstIndex(sessions, HasId(fbId)) ==> r[i] == sessions[i]
    ensures FirstIndex(sessions, HasId(fbId)) < |r| ==> !r[FirstIndex(sessions, HasId(fbId))].isActive
    ensures (forall i :: 0 <= i < |sessions| ==> sessions[i].fbId != fbId) ==> r == sessions
  {
    UpdateFirst(sessions, HasId(fbId), Deactivated())
  }

  /** Deactivating the same fbId twice is deactivating it once. */
  lemma DeactivateIdempotent(sessions: seq<Session>, fbId: string)
    ensures DeactivateFacebookSession(DeactivateFacebookSession(sessions, fbId), fbId)
         == DeactivateFacebookSession(sessions, fbId)
  {
    var once := DeactivateFacebookSession(sessions, fbId);
    var k := FirstIndex(sessions, HasId(fbId));
    assert forall i :: 0 <= i < |once| ==> once[i].fbId == sessions[i].fbId;
    FirstIndexSameIds(sessions, once, fbId);
  }

  /** Lists that agree on every fbId have the same first position for an fbId. */
  lemma {:induction false} FirstIndexSameIds(a: seq<Session>, b: seq<Session>, fbId: string)
    requires |a| == |b|
    requires forall i :: 0 <= i < |a| ==> a[i].fbId == b[i].fbId
    ensures FirstIndex(a, HasId(fbId)) == FirstIndex(b, HasId(fbId))
    decreases |a|
  {
    if |a| > 0 && a[0].fbId != fbId {
      FirstIndexSameIds(a[1..], b[1..], fbId);
    }
  }

  /** `updateSessionLastUsed`: the first session that has this fbId and is
      active gets `lastUsed = now`; inactive sessions and every other session
      are untouched. */
  function UpdateSessionLastUsed(sessions: seq<Session>, fbId: string, now: int): (r: seq<Session>)
    ensures |r| == |sessions|
    ensures forall i :: 0 <= i < |r| ==> r[i].(lastUsed := sessions[i].lastUsed) == sessions[i]
    ensures forall i :: 0 <= i < |r| && !sessions[i].isActive ==> r[i] == sessions[i]
    ensures forall i :: 0 <= i < |r| && i != FirstIndex(sessions, ActiveWithId(fbId)) ==> r[i] == sessions[i]
    ensures FirstIndex(sessions, ActiveWithId(fbId)) < |r| ==> r[FirstIndex(sessions, ActiveWithId(fbId))].lastUsed == now
  {
    UpdateFirst(sessions, ActiveWithId(fbId), TouchedAt(now))
  }

  /** `cleanupExpiredSessions`: keeps exactly the sessions that are active
      and expire after `now`, in their original order. */
  function CleanupExpiredSessions(a: Account, now: int): (r: Account)
    ensures forall i :: 0 <= i < |r.sessions| ==> r.sessions[i].isActive && r.sessions[i].expiresAt > now
    ensures forall x :: multiset(r.sessions)[x] == if x.isActive && x.expiresAt > now then multiset(a.sessions)[x] else 0
    ensures IsSubsequence(r.sessions, a.sessions)
    ensures r.history == a.history && r.settings == a.settings && r.statistics == a.statistics
  {
    a.(sessions := Filter(a.sessions, Eligible(now)))
  }

  /** The `activeFacebookSessions` view of an account at time `now`. */
  function ActiveSessions(a: Account, now: int): (r: seq<Session>)
    ensures forall i :: 0 <= i < |r| ==> r[i].isActive && r[i].expiresAt > now
    ensures forall x :: multiset(r)[x] == if x.isActive && x.expiresAt > now then multiset(a.sessions)[x] else 0
    ensures IsSubsequence(r, a.sessions)
  {
    Filter(a.sessions, Eligible(now))
  }

  /** Cleaning up twice is cleaning up once, and after a clean-up every
      stored session is in the `activeFacebookSessions` view. */
  lemma CleanupIdempotent(a: Account, now: int)
    ensures CleanupExpiredSessions(CleanupExpiredSessions(a, now), now) == CleanupExpiredSessions(a, now)
    ensures ActiveSessions(CleanupExpiredSessions(a, now), now) == CleanupExpiredSessions(a, now).sessions
  {
    FilterIdempotent(a.sessions, Eligible(now));
  }

  // ---------------------------------------------------------------------
  // Action history

  /** The counters keep `successful + failed <= total`. */
  predicate CountersConsistent(st: Statistics)
  {
    st.successfulActions + st.failedActions <= st.totalActions
  }

  /** The history after `addActionHistory` appends a record: when it then
      holds more than a hundred records, the hundred newest, newest first. */
  function Logged(h: seq<ActionRecord>, rec: ActionRecord): (r: seq<ActionRecord>)
    ensures |r| == Min(HistoryCap, |h| + 1)
    ensures |h| < HistoryCap ==> r == h + [rec]
    ensures |h| + 1 > HistoryCap ==> SortedDesc(r, Timestamp)
    ensures KeepsLargest(h + [rec], r, Timestamp)
  {
    var all := h + [rec];
    assert KeepsLargest(all, all, Timestamp);
    if |all| > HistoryCap as int then TopK(all, Timestamp, HistoryCap) else all
  }

  /** `addActionHistory`: appends the record, counts it, and when the history
      then holds more than a hundred records keeps the hundred newest, newest
      first. Evicting records never lowers a counter. */
  function AddActionHistory(a: Account, rec: ActionRecord): (r: Account)
    ensures r.statistics.totalActions == a.statistics.totalActions + 1
    ensures r.statistics.successfulActions == a.statistics.successfulActions + (if rec.status == Success then 1 else 0)
    ensures r.statistics.failedActions == a.statistics.failedActions + (if rec.status == Failed then 1 else 0)
    ensures |r.history| == Min(HistoryCap, |a.history| + 1)
    ensures |a.history| < HistoryCap ==> r.history == a.history + [rec]
    ensures |a.history| + 1 > HistoryCap ==> SortedDesc(r.history, Timestamp)
    ensures KeepsLargest(a.history + [rec], r.history, Timestamp)
    ensures r.sessions == a.sessions && r.settings == a.settings
  {
    var st := a.statistics;
    var st' := Statistics(
      st.totalActions + 1,
      st.successfulActions + (if rec.status == Success then 1 else 0),
      st.failedActions + (if rec.status == Failed then 1 else 0));
    a.(history := Logged(a.history, rec), statistics := st')
  }

  /** Adding a record keeps the counters consistent. */
  lemma AddActionHistoryKeepsCounters(a: Account, rec: ActionRecord)
    requires CountersConsistent(a.statistics)
    ensures CountersConsistent(AddActionHistory(a, rec).statistics)
  {
  }

  /** The `recentActions` view: the twenty newest records, newest first. */
  function RecentActions(a: Account): (r: seq<ActionRecord>)
    ensures |r| == Min(20, |a.history|)
    ensures SortedDesc(r, Timestamp)
    ensures KeepsLargest(a.history, r, Timestamp)
  {
    TopK(a.history, Timestamp, 20)
  }
}

=== FILE: actions.dfy ===
/** The query and maintenance endpoints of the action controller
    (controllers/actionController.js): the Facebook-URL test shared by the
    request validation and `validateTargetUrl`, the validation of an action
    request, `getActionHistory`, `getActionStats` and
    `cancelPendingActions`. The dispatch endpoint, `performAction`, is in
    module Dispatch. */
module Actions {
  import opened Common
  import opened Text
  import opened Account
  import opened TargetId
  import opened Tally

  // ---------------------------------------------------------------------
  // The pattern /^https?:\/\/(www\.)?(facebook|fb)\.com\/.+/i

  const Schemes: seq<string> := ["https://", "http://"]
  const Subdomains: seq<string> := ["www.", ""]
  const Hosts: seq<string> := ["facebook.com/", "fb.com/"]

  /** One way through the pattern: scheme `i`, sub-domain `j` and host `k`
      spell out a prefix of `url` (ignoring the case of ASCII letters), and
      `.+` finds at least one character other than a line terminator after
      it. The pattern matches exactly when some way through does. */
  predicate FacebookPrefixAt(url: string, i: int, j: int, k: int)
    requires 0 <= i < 2 && 0 <= j < 2 && 0 <= k < 2
  {
    var p := Schemes[i] + Subdomains[j] + Hosts[k];
    StartsWithIgnoringCase(url, p) && |p| < |url| && !IsLineTerminator(url[|p|])
  }

  predicate MatchesFacebookPattern(url: string)
  {
    exists i, j, k :: 0 <= i < 2 && 0 <= j < 2 && 0 <= k < 2 && FacebookPrefixAt(url, i, j, k)
  }

  /** The length of the scheme `url` starts with, 0 for neither. */
  function SchemeLength(url: string): (r: nat)
    ensures r <= |url| && (r == 0 || r == 7 || r == 8)
  {
    if StartsWithIgnoringCase(url, "https://") then assert Schemes[0] == "https://"; 8
    else if StartsWithIgnoringCase(url, "http://") then assert Schemes[1] == "http://"; 7
    else 0
  }

  /** The length of the optional `www.`. */
  function SubdomainLength(rest: string): (r: nat)
    ensures r <= |rest| && (r == 0 || r == 4)
  {
    if StartsWithIgnoringCase(rest, "www.") then assert Subdomains[0] == "www."; 4
    else assert StartsWithIgnoringCase(rest, Subdomains[1]); 0
  }

  /** The length of the host `rest` starts with, 0 for neither. */
  function HostLength(rest: string): (r: nat)
    ensures r <= |rest| && (r == 0 || r == 7 || r == 13)
  {
    if StartsWithIgnoringCase(rest, "facebook.com/") then assert Hosts[0] == "facebook.com/"; 13
    else if StartsWithIgnoringCase(rest, "fb.com/") then assert Hosts[1] == "fb.com/"; 7
    else 0
  }

  /** Reads the pattern's fixed part off the front of `url` in one pass,
      taking `www.` whenever it is there, and returns its length. */
  function FacebookPrefix(url: string): (r: Option<nat>)
    ensures r.Some? ==> r.value <= |url|
  {
    var s := SchemeLength(url);
    if s == 0 then None
    else
      var w := SubdomainLength(url[s..]);
      var h := HostLength(url[s + w..]);
      if h == 0 then None else Some(s + w + h)
  }

  /** The one-pass reading of `facebookUrlPattern`: scheme, optional `www.`,
      host, and at least one character that is not a line terminator (`.`
      matches none). */
  predicate AcceptsInOnePass(url: string)
  {
    var r := FacebookPrefix(url);
    r.Some? && r.value < |url| && !IsLineTerminator(url[r.value])
  }

  /** `http://` and `https://` cannot both start a string: the fifth
      character cannot be both `:` and `s`. */
  lemma SchemesExclusive(url: string)
    ensures !(StartsWithIgnoringCase(url, "https://") && StartsWithIgnoringCase(url, "http://"))
  {
    if StartsWithIgnoringCase(url, "https://") {
      assert SameCharIgnoringCase(url[4], 's');
    }
  }

  /** A string starting with `www.` starts with neither host. */
  lemma SubdomainExcludesHost(s: string)
    ensures StartsWithIgnoringCase(s, "www.") ==>
      !StartsWithIgnoringCase(s, "facebook.com/") && !StartsWithIgnoringCase(s, "fb.com/")
  {
    if StartsWithIgnoringCase(s, "www.") {
      assert SameCharIgnoringCase(s[0], 'w');
    }
  }

  /** A string cannot start with both hosts: the second character cannot be
      both `a` and `b`. */
  lemma HostsExclusive(s: string)
    ensures !(StartsWithIgnoringCase(s, "facebook.com/") && StartsWithIgnoringCase(s, "fb.com/"))
  {
    if StartsWithIgnoringCase(s, "facebook.com/") {
      assert SameCharIgnoringCase(s[1], 'a');
    }
  }

  /** Splits a way through the pattern into its three parts. */
  lemma PrefixParts(url: string, i: int, j: int, k: int)
    requires 0 <= i < 2 && 0 <= j < 2 && 0 <= k < 2
    ensures StartsWithIgnoringCase(url, Schemes[i] + Subdomains[j] + Hosts[k]) <==>
      && StartsWithIgnoringCase(url, Schemes[i])
      && StartsWithIgnoringCase(url[|Schemes[i]|..], Subdomains[j])
      && StartsWithIgnoringCase(url[|Schemes[i]| + |Subdomains[j]|..], Hosts[k])
  {
    var s, w, h := Schemes[i], Subdomains[j], Hosts[k];
    StartsWithIgnoringCaseConcat(url, s + w, h);
    StartsWithIgnoringCaseConcat(url, s, w);
    if |s| + |w| <= |url| {
      assert url[|s|..][|w|..] == url[|s| + |w|..];
      StartsWithIgnoringCaseConcat(url[|s|..], w, h);
    }
  }

  /** What the one-pass reading finds is a way through the pattern. */
  lemma ParsedPrefixIsPath(url: string)
    requires FacebookPrefix(url).Some?
    ensures exists i, j, k :: (0 <= i < 2 && 0 <= j < 2 && 0 <= k < 2
      && StartsWithIgnoringCase(url, Schemes[i] + Subdomains[j] + Hosts[k])
      && FacebookPrefix(url).value == |Schemes[i] + Subdomains[j] + Hosts[k]|)
  {
    var s := SchemeLength(url);
    var i := SchemeIndex(url);
    var w := SubdomainLength(url[s..]);
    var j := SubdomainIndex(url[s..]);
    var h := HostLength(url[s + w..]);
    var k := HostIndex(url[s + w..]);
    assert FacebookPrefix(url).value == s + w + h;
    PrefixParts(url, i, j, k);
    assert StartsWithIgnoringCase(url, Schemes[i] + Subdomains[j] + Hosts[k]);
  }

  /** The scheme the reading found. */
  lemma SchemeIndex(url: string) returns (i: nat)
    requires SchemeLength(url) != 0
    ensures i < 2 && SchemeLength(url) == |Schemes[i]| && StartsWithIgnoringCase(url, Schemes[i])
  {
    i := if StartsWithIgnoringCase(url, Schemes[0]) then 0 else 1;
  }

  /** The sub-domain the reading found. */
  lemma SubdomainIndex(rest: string) returns (j: nat)
    ensures j < 2 && SubdomainLength(rest) == |Subdomains[j]| && StartsWithIgnoringCase(rest, Subdomains[j])
  {
    j := if StartsWithIgnoringCase(rest, Subdomains[0]) then 0 else 1;
    assert StartsWithIgnoringCase(rest, Subdomains[1]);
  }

  /** The host the reading found. */
  lemma HostIndex(rest: string) returns (k: nat)
    requires HostLength(rest) != 0
    ensures k < 2 && HostLength(rest) == |Hosts[k]| && StartsWithIgnoringCase(rest, Hosts[k])
  {
    k := if StartsWithIgnoringCase(rest, Hosts[0]) then 0 else 1;
  }

  lemma SchemeLengthOf(url: string, i: int)
    requires 0 <= i < 2 && StartsWithIgnoringCase(url, Schemes[i])
    ensures SchemeLength(url) == |Schemes[i]|
  {
    SchemesExclusive(url);
  }

  lemma SubdomainLengthOf(rest: string, j: int, k: int)
    requires 0 <= j < 2 && 0 <= k < 2 && |Subdomains[j]| <= |rest|
    requires StartsWithIgnoringCase(rest, Subdomains[j])
    requires StartsWithIgnoringCase(rest[|Subdomains[j]|..], Hosts[k])
    ensures SubdomainLength(rest) == |Subdomains[j]|
  {
    if j == 1 {
      assert rest[|Subdomains[j]|..] == rest;
      SubdomainExcludesHost(rest);
    }
  }

  lemma HostLengthOf(rest: string, k: int)
    requires 0 <= k < 2 && StartsWithIgnoringCase(rest, Hosts[k])
    ensures HostLength(rest) == |Hosts[k]|
  {
    HostsExclusive(rest);
  }

  /** Every way through the pattern is the one the one-pass reading finds:
      the alternatives exclude each other, and `www.` cannot be skipped
      because no host starts with `w`. */
  lemma PathIsParsedPrefix(url: string, i: int, j: int, k: int)
    requires 0 <= i < 2 && 0 <= j < 2 && 0 <= k < 2
    requires StartsWithIgnoringCase(url, Schemes[i] + Subdomains[j] + Hosts[k])
    ensures FacebookPrefix(url) == Some(|Schemes[i] + Subdomains[j] + Hosts[k]|)
  {
    PrefixParts(url, i, j, k);
    var s := |Schemes[i]|;
    var w := |Subdomains[j]|;
    SchemeLengthOf(url, i);
    assert url[s..][w..] == url[s + w..];
    SubdomainLengthOf(url[s..], j, k);
    HostLengthOf(url[s + w..], k);
    PrefixFromParts(url, s, w, |Hosts[k]|);
  }

  /** The one-pass reading, given the length of each of its three parts. */
  lemma PrefixFromParts(url: string, s: nat, w: nat, h: nat)
    requires 0 < s <= |url| && SchemeLength(url) == s
    requires s + w <= |url| && SubdomainLength(url[s..]) == w
    requires 0 < h && HostLength(url[s + w..]) == h
    ensures FacebookPrefix(url) == Some(s + w + h)
  {
  }

  /** The one-pass reading agrees with the pattern: the test succeeds
      exactly when some way through the pattern matches. */
  lemma FacebookUrlMatchesPattern(url: string)
    ensures AcceptsInOnePass(url) <==> MatchesFacebookPattern(url)
  {
    if AcceptsInOnePass(url) {
      ParsedPrefixIsPath(url);
      var i, j, k :| 0 <= i < 2 && 0 <= j < 2 && 0 <= k < 2
        && StartsWithIgnoringCase(url, Schemes[i] + Subdomains[j] + Hosts[k])
        && FacebookPrefix(url).value == |Schemes[i] + Subdomains[j] + Hosts[k]|;
      assert FacebookPrefixAt(url, i, j, k);
    }
    if MatchesFacebookPattern(url) {
      var i, j, k :| 0 <= i < 2 && 0 <= j < 2 && 0 <= k < 2 && FacebookPrefixAt(url, i, j, k);
      PathIsParsedPrefix(url, i, j, k);
    }
  }

  /** The `facebookUrlPattern.test(url)` of the controller: it succeeds
      exactly when some way through the pattern matches. */
  function IsFacebookUrl(url: string): (b: bool)
    ensures b <==> MatchesFacebookPattern(url)
  {
    FacebookUrlMatchesPattern(url);
    AcceptsInOnePass(url)
  }

  // ---------------------------------------------------------------------
  // Request validation

  const CommentMaxLength: nat := 8000

  /** The messages `actionValidation` collects, in field order: the kind
      must be one of the ten kinds, the URL must be a well-formed http(s)
      URL (`wellFormed`, decided by the validator library) and a Facebook
      URL, a comment, when given, at most 8000 characters, and the session
      selection, when given, an array (`selectionIsArray` is true when
      `selectedSessions` is absent or an array). Every failing check adds
      its message. */
  function ValidationErrors(actionType: string, targetUrl: string, wellFormed: bool, comment: Option<string>,
                            selectionIsArray: bool): (errors: seq<string>)
    ensures errors == [] <==>
      && ParseKind(actionType).Some? && wellFormed && MatchesFacebookPattern(targetUrl)
      && (comment.None? || |comment.value| <= CommentMaxLength) && selectionIsArray
    ensures "Invalid action type" in errors <==> ParseKind(actionType).None?
    ensures "Valid target URL is required" in errors <==> !wellFormed
    ensures "Must be a Facebook URL" in errors <==> !MatchesFacebookPattern(targetUrl)
    ensures "Comment must be less than 8000 characters" in errors <==>
      comment.Some? && |comment.value| > CommentMaxLength
    ensures "Selected sessions must be an array" in errors <==> !selectionIsArray
    ensures |errors| <= 5
  {
    Collect(ParseKind(actionType).None?, !wellFormed, !IsFacebookUrl(targetUrl),
            comment.Some? && |comment.value| > CommentMaxLength, !selectionIsArray)
  }

  /** The messages of the failing checks, in field order, each once. */
  function Collect(badKind: bool, badUrl: bool, notFacebook: bool, tooLong: bool, notArray: bool): (errors: seq<string>)
    ensures errors == [] <==> !badKind && !badUrl && !notFacebook && !tooLong && !notArray
    ensures "Invalid action type" in errors <==> badKind
    ensures "Valid target URL is required" in errors <==> badUrl
    ensures "Must be a Facebook URL" in errors <==> notFacebook
    ensures "Comment must be less than 8000 characters" in errors <==> tooLong
    ensures "Selected sessions must be an array" in errors <==> notArray
    ensures |errors| <= 5
  {
    var kind := Check(badKind, "Invalid action type");
    var url := Check(badUrl, "Valid target URL is required");
    var facebook := Check(notFacebook, "Must be a Facebook URL");
    var long := Check(tooLong, "Comment must be less than 8000 characters");
    var selection := Check(notArray, "Selected sessions must be an array");
    MessagesApart(kind, url, facebook, long, selection);
    kind + url + facebook + long + selection
  }

  /** The message of one failing check, none for a passing one. */
  function Check(fails: bool, message: string): (r: seq<string>)
    ensures r == [] <==> !fails
    ensures forall m :: m in r <==> fails && m == message
  {
    if fails then [message] else []
  }

  /** The five messages start with five different letters, so each is found
      only where its own check put it. */
  lemma MessagesApart(kind: seq<string>, url: seq<string>, facebook: seq<string>, long: seq<string>,
                      selection: seq<string>)
    requires forall m :: m in kind ==> m == "Invalid action type"
    requires forall m :: m in url ==> m == "Valid target URL is required"
    requires forall m :: m in facebook ==> m == "Must be a Facebook URL"
    requires forall m :: m in long ==> m == "Comment must be less than 8000 characters"
    requires forall m :: m in selection ==> m == "Selected sessions must be an array"
    ensures "Invalid action type" !in url + facebook + long + selection
    ensures "Valid target URL is required" !in kind + facebook + long + selection
    ensures "Must be a Facebook URL" !in kind + url + long + selection
    ensures "Comment must be less than 8000 characters" !in kind + url + facebook + selection
    ensures "Selected sessions must be an array" !in kind + url + facebook + long
  {
  }


  // ---------------------------------------------------------------------
  // validateTargetUrl

  datatype UrlCheck = UrlMissing | UrlInvalid | UrlValid(targetId: string)

  /** `validateTargetUrl`: a missing or empty URL is refused first, then one
      that does not match the Facebook pattern; otherwise the answer carries
      the extracted target id. */
  function ValidateTargetUrl(targetUrl: Option<string>): (r: UrlCheck)
    ensures r.UrlMissing? <==> targetUrl.None? || targetUrl.value == ""
    ensures r.UrlValid? <==> targetUrl.Some? && targetUrl.value != "" && MatchesFacebookPattern(targetUrl.value)
    ensures r.UrlValid? ==> r.targetId == ExtractTargetId(targetUrl.value)
  {
    if targetUrl.None? || targetUrl.value == "" then UrlMissing
    else
      if !IsFacebookUrl(targetUrl.value) then UrlInvalid
      else UrlValid(ExtractTargetId(targetUrl.value))
  }

  // ---------------------------------------------------------------------
  // getActionHistory

  /** The query string: `page` and `limit` (as numbers; absent means 1 and
      20), and the `actionType` and `status` filters (empty means absent). */
  datatype HistoryQuery = HistoryQuery(page: Option<int>, limit: Option<int>, actionType: string, status: string)

  /** `pages` is `None` where JavaScript computes `Infinity` or `NaN`, which
      the JSON response carries as `null`. */
  datatype Pagination = Pagination(page: int, limit: int, total: nat, pages: Option<int>, hasNext: bool, hasPrev: bool)

  datatype HistoryPage = HistoryPage(history: seq<ActionRecord>, pagination: Pagination)

  const DefaultPage: int := 1
  const DefaultLimit: int := 20

  /** A record passes the filters that are present. */
  function MatchesQuery(actionType: string, status: string): ActionRecord -> bool
  {
    (a: ActionRecord) => (actionType == "" || KindName(a.actionType) == actionType)
                         && (status == "" || StatusName(a.status) == status)
  }

  /** `Math.ceil(n / d)`: the least integer at least the quotient. */
  function CeilDiv(n: int, d: int): (q: int)
    requires d != 0
    ensures d > 0 ==> (q - 1) * d < n <= q * d
    ensures d < 0 ==> q * d <= n < (q - 1) * d
  {
    if d > 0 then (n + d - 1) / d else -(n / -d)
  }

  /** The filtered history, newest first. */
  function Matching(h: seq<ActionRecord>, q: HistoryQuery): (r: seq<ActionRecord>)
    ensures SortedDesc(r, Timestamp)
    ensures forall x :: multiset(r)[x] == if MatchesQuery(q.actionType, q.status)(x) then multiset(h)[x] else 0
  {
    SortDesc(Filter(h, MatchesQuery(q.actionType, q.status)), Timestamp)
  }

  /** The pagination block for `total` matching records: the number of
      pages, and whether pages follow or precede the requested one. */
  function Paginate(page: int, limit: int, total: nat): (p: Pagination)
    ensures p.page == page && p.limit == limit && p.total == total
    ensures p.hasNext <==> page * limit < total
    ensures p.hasPrev <==> page > 1
    ensures p.pages.None? <==> limit == 0
    ensures limit > 0 ==> p.pages.Some? && (p.pages.value - 1) * limit < total <= p.pages.value * limit
  {
    var start := (page - 1) * limit;
    var end := start + limit;
    assert end == page * limit;
    Pagination(page, limit, total, if limit == 0 then None else Some(CeilDiv(total, limit)), end < total, page > 1)
  }

  /** Page `page` of `limit` elements: `s.slice((page - 1) * limit,
      (page - 1) * limit + limit)`. */
  function PageOf<T>(s: seq<T>, page: int, limit: int): (r: seq<T>)
    ensures limit >= 0 ==> |r| <= limit
  {
    var start := (page - 1) * limit;
    JsSlice(s, start, start + limit)
  }

  /** `getActionHistory`: the page `[(page - 1) * limit, page * limit)` of
      the filtered history sorted newest first, with the pagination block. */
  function GetActionHistory(h: seq<ActionRecord>, q: HistoryQuery): (r: HistoryPage)
    ensures SortedDesc(r.history, Timestamp)
    ensures multiset(r.history) <= multiset(h)
    ensures forall i :: 0 <= i < |r.history| ==> MatchesQuery(q.actionType, q.status)(r.history[i])
    ensures r.pagination.total == Count(h, MatchesQuery(q.actionType, q.status))
    ensures r.pagination.limit >= 0 ==> |r.history| <= r.pagination.limit
    ensures q.page.None? ==> r.pagination.page == DefaultPage
    ensures q.limit.None? ==> r.pagination.limit == DefaultLimit
  {
    var page := if q.page.Some? then q.page.value else DefaultPage;
    var limit := if q.limit.Some? then q.limit.value else DefaultLimit;
    var sorted := Matching(h, q);
    FilterCountsMatching(h, q);
    PageOfMatching(h, q, page, limit);
    HistoryPage(PageOf(sorted, page, limit), Paginate(page, limit, |sorted|))
  }

  lemma FilterCountsMatching(h: seq<ActionRecord>, q: HistoryQuery)
    ensures |Matching(h, q)| == Count(h, MatchesQuery(q.actionType, q.status))
  {
    CountIsFilterLength(h, MatchesQuery(q.actionType, q.status));
  }

  /** A page of the filtered history holds only records of the history that
      pass the filters, newest first. */
  lemma PageOfMatching(h: seq<ActionRecord>, q: HistoryQuery, pageNum: int, limit: int)
    ensures var page := PageOf(Matching(h, q), pageNum, limit);
      && SortedDesc(page, Timestamp)
      && multiset(page) <= multiset(h)
      && forall i :: 0 <= i < |page| ==> MatchesQuery(q.actionType, q.status)(page[i])
  {
    var sorted := Matching(h, q);
    PageWithin(sorted, pageNum, limit);
    MatchingWithin(h, q, PageOf(sorted, pageNum, limit));
  }

  /** A page keeps no more of any record than the list has, and keeps it
      newest first. */
  lemma PageWithin(s: seq<ActionRecord>, pageNum: int, limit: int)
    ensures multiset(PageOf(s, pageNum, limit)) <= multiset(s)
    ensures SortedDesc(s, Timestamp) ==> SortedDesc(PageOf(s, pageNum, limit), Timestamp)
  {
    var start := (pageNum - 1) * limit;
    assert PageOf(s, pageNum, limit) == JsSlice(s, start, start + limit);
    SliceWithin(s, start, start + limit, Timestamp);
  }

  /** What is taken from the filtered history passes the filters and comes
      from the history. */
  lemma MatchingWithin(h: seq<ActionRecord>, q: HistoryQuery, page: seq<ActionRecord>)
    requires multiset(page) <= multiset(Matching(h, q))
    ensures multiset(page) <= multiset(h)
    ensures forall i :: 0 <= i < |page| ==> MatchesQuery(q.actionType, q.status)(page[i])
  {
    var sorted := Matching(h, q);
    forall i | 0 <= i < |page|
      ensures MatchesQuery(q.actionType, q.status)(page[i])
    {
      assert multiset(page)[page[i]] > 0;
      assert multiset(sorted)[page[i]] > 0;
    }
    forall x
      ensures multiset(page)[x] <= multiset(h)[x]
    {
      assert multiset(page)[x] <= multiset(sorted)[x];
    }
  }

  /** `a <= b` scaled by a non-negative factor. */
  lemma MulMonotone(a: int, b: int, c: int)
    requires a <= b && 0 <= c
    ensures a * c <= b * c
  {
    assert b * c - a * c == (b - a) * c;
  }

  /** Where a position falls: `j` lies on page `j / limit + 1`, at offset
      `j % limit` from the page's start. */
  lemma PagePosition(j: nat, limit: int)
    requires limit >= 1
    ensures (j / limit) * limit + j % limit == j
    ensures (j / limit) * limit <= j < (j / limit + 1) * limit
  {
  }

  /** With a positive page number and limit, the page is the run from
      position `(page - 1) * limit` up to `page * limit` or the end, and is
      empty past the end. */
  lemma PageOfContents<T>(s: seq<T>, page: int, limit: int)
    requires page >= 1 && limit >= 1
    ensures (page - 1) * limit <= |s| ==> PageOf(s, page, limit) == s[(page - 1) * limit .. Min(page * limit, |s|)]
    ensures (page - 1) * limit >= |s| ==> PageOf(s, page, limit) == []
  {
    MulMonotone(0, page - 1, limit);
    assert (page - 1) * limit + limit == page * limit;
  }

  /** Element `j` is element `j % limit` of page `j / limit + 1`. */
  lemma PageOfPosition<T>(s: seq<T>, limit: int, j: nat)
    requires limit >= 1 && j < |s|
    ensures j % limit < |PageOf(s, j / limit + 1, limit)|
    ensures PageOf(s, j / limit + 1, limit)[j % limit] == s[j]
  {
    var page := j / limit + 1;
    PagePosition(j, limit);
    assert (page - 1) * limit == (j / limit) * limit;
    PageOfContents(s, page, limit);
  }

  /** With `pages` the ceiling of `total / limit`: page `page` is followed
      by another exactly when it comes before page `pages`. */
  lemma BeforeLastPage(page: int, limit: int, total: int, pages: int)
    requires limit >= 1
    requires (pages - 1) * limit < total <= pages * limit
    ensures page * limit < total <==> page < pages
  {
    if page < pages {
      MulMonotone(page, pages - 1, limit);
    } else {
      MulMonotone(pages, page, limit);
    }
  }

  /** The pages partition the filtered history: record `j` of it is record
      `j % limit` of page `j / limit + 1`, a page no later than the last. */
  lemma RecordOnItsPage(h: seq<ActionRecord>, q: HistoryQuery, limit: int, j: nat)
    requires q.limit == Some(limit) && limit >= 1
    requires j < Count(h, MatchesQuery(q.actionType, q.status))
    ensures var r := GetActionHistory(h, q.(page := Some(j / limit + 1)));
      && j % limit < |r.history|
      && r.history[j % limit] == Matching(h, q)[j]
      && r.pagination.pages.Some? && j / limit + 1 <= r.pagination.pages.value
  {
    FilterCountsMatching(h, q);
    var page := j / limit + 1;
    var p := q.(page := Some(page));
    var sorted := Matching(h, q);
    assert Matching(h, p) == sorted;
    HistoryPageParts(h, p);
    PageOfPosition(sorted, limit, j);
    PageNoLaterThanLast(page, limit, |sorted|, j);
  }

  /** The page and the pagination `getActionHistory` answers with. */
  lemma HistoryPageParts(h: seq<ActionRecord>, q: HistoryQuery)
    requires q.page.Some? && q.limit.Some?
    ensures GetActionHistory(h, q).history == PageOf(Matching(h, q), q.page.value, q.limit.value)
    ensures GetActionHistory(h, q).pagination == Paginate(q.page.value, q.limit.value, |Matching(h, q)|)
  {
  }

  /** The page holding position `j` comes no later than the last page. */
  lemma PageNoLaterThanLast(page: int, limit: int, total: nat, j: nat)
    requires limit >= 1 && j < total && page == j / limit + 1
    ensures Paginate(page, limit, total).pages.Some? && page <= Paginate(page, limit, total).pages.value
  {
    var pg := Paginate(page, limit, total);
    PagePosition(j, limit);
    BeforeLastPage(page - 1, limit, total, pg.pages.value);
  }

  /** Another page follows exactly when the requested one comes before the
      last. */
  lemma HasNextBeforeLastPage(h: seq<ActionRecord>, q: HistoryQuery)
    requires q.limit.None? || q.limit.value >= 1
    ensures var r := GetActionHistory(h, q);
      r.pagination.hasNext <==> r.pagination.page < r.pagination.pages.value
  {
    var page := if q.page.Some? then q.page.value else DefaultPage;
    var limit := if q.limit.Some? then q.limit.value else DefaultLimit;
    assert GetActionHistory(h, q).pagination == Paginate(page, limit, |Matching(h, q)|);
    PaginateHasNext(page, limit, |Matching(h, q)|);
  }

  lemma PaginateHasNext(page: int, limit: int, total: nat)
    requires limit >= 1
    ensures Paginate(page, limit, total).hasNext <==> page < Paginate(page, limit, total).pages.value
  {
    var pg := Paginate(page, limit, total);
    BeforeLastPage(page, limit, total, pg.pages.value);
  }

  // ---------------------------------------------------------------------
  // getActionStats

  function KindOf(a: ActionRecord): ActionKind { a.actionType }

  /** The statistics block. `today` and `thisMonth` are the starts of the
      current calendar day and month, which the controller reads off the
      clock; the week starts seven days before today. */
  datatype ActionStats = ActionStats(
    total: Statistics,
    today: Counts,
    thisWeek: Counts,
    thisMonth: Counts,
    byActionType: Table<ActionKind>,
    recentActions: seq<ActionRecord>)

  const RecentStatsCount: nat := 10

  /** Some record of `h` has kind `k`. */
  predicate KindOccurs(h: seq<ActionRecord>, k: ActionKind)
  {
    exists j :: 0 <= j < |h| && KindOf(h[j]) == k
  }

  /** The triple of a time window: the records stamped at or after `since`,
      and how many of those succeeded and failed. */
  predicate WindowCounts(h: seq<ActionRecord>, since: int, c: Counts)
  {
    && c.total == Count(h, Since(since))
    && c.successful == Count(h, Selected(Since(since), Success))
    && c.failed == Count(h, Selected(Since(since), Failed))
  }

  /** `getActionStats`. Sorting the history for `recentActions` sorts it in
      place, so the per-kind object is built over the newest-first history
      and its keys come in order of each kind's newest record. */
  function GetActionStats(a: Account, today: int, thisMonth: int): (r: ActionStats)
    ensures r.total == a.statistics
    ensures WindowCounts(a.history, today, r.today)
    ensures WindowCounts(a.history, today - 7 * DayMs, r.thisWeek)
    ensures WindowCounts(a.history, thisMonth, r.thisMonth)
    ensures r.today.successful + r.today.failed <= r.today.total
    ensures r.today.total <= r.thisWeek.total
    ensures DistinctKeys(r.byActionType)
    ensures forall k :: HasKey(r.byActionType, k) <==> KindOccurs(a.history, k)
    ensures forall i :: 0 <= i < |r.byActionType| ==>
      r.byActionType[i].1 == CountsWhere(a.history, KeyIs(KindOf, r.byActionType[i].0))
    ensures SumTotals(r.byActionType) == |a.history|
    ensures |r.recentActions| == Min(RecentStatsCount, |a.history|)
    ensures SortedDesc(r.recentActions, Timestamp) && KeepsLargest(a.history, r.recentActions, Timestamp)
  {
    var week := today - 7 * DayMs;
    WindowMonotone(a.history, week, today);
    StatsByKind(a.history);
    ActionStats(a.statistics, CountsWhere(a.history, Since(today)), CountsWhere(a.history, Since(week)),
                CountsWhere(a.history, Since(thisMonth)), TallyBy(SortDesc(a.history, Timestamp), KindOf),
                TopK(a.history, Timestamp, RecentStatsCount))
  }

  /** The per-kind object built over the sorted history describes the
      history itself. */
  lemma StatsByKind(h: seq<ActionRecord>)
    ensures var t := TallyBy(SortDesc(h, Timestamp), KindOf);
      && (forall k :: HasKey(t, k) <==> KindOccurs(h, k))
      && (forall i :: 0 <= i < |t| ==> t[i].1 == CountsWhere(h, KeyIs(KindOf, t[i].0)))
      && SumTotals(t) == |h|
  {
    var sorted := SortDesc(h, Timestamp);
    TallyTotalsSumToLength(sorted, KindOf);
    SortedKinds(h);
    SortedCounts(h);
  }

  lemma SortedKinds(h: seq<ActionRecord>)
    ensures forall k :: KindOccurs(SortDesc(h, Timestamp), k) <==> KindOccurs(h, k)
  {
    var sorted := SortDesc(h, Timestamp);
    forall k
      ensures KindOccurs(sorted, k) <==> KindOccurs(h, k)
    {
      if KindOccurs(sorted, k) {
        var j :| 0 <= j < |sorted| && KindOf(sorted[j]) == k;
        assert sorted[j] in multiset(h);
        var m :| 0 <= m < |h| && h[m] == sorted[j];
      }
      if KindOccurs(h, k) {
        var j :| 0 <= j < |h| && KindOf(h[j]) == k;
        assert h[j] in multiset(sorted);
        var m :| 0 <= m < |sorted| && sorted[m] == h[j];
      }
    }
  }

  lemma SortedCounts(h: seq<ActionRecord>)
    ensures var t := TallyBy(SortDesc(h, Timestamp), KindOf);
      forall i :: 0 <= i < |t| ==> t[i].1 == CountsWhere(h, KeyIs(KindOf, t[i].0))
  {
    var sorted := SortDesc(h, Timestamp);
    var t := TallyBy(sorted, KindOf);
    TallyCounts(sorted, KindOf);
    forall i | 0 <= i < |t|
      ensures t[i].1 == CountsWhere(h, KeyIs(KindOf, t[i].0))
    {
      var p := KeyIs(KindOf, t[i].0);
      CountPermutation(sorted, h, p);
      CountPermutation(sorted, h, Selected(p, Success));
      CountPermutation(sorted, h, Selected(p, Failed));
    }
  }

  // ---------------------------------------------------------------------
  // cancelPendingActions

  function IsPending(a: ActionRecord): bool { a.status == Pending }
  function IsCancelled(a: ActionRecord): bool { a.status == Cancelled }

  /** `cancelPendingActions`: every pending record becomes cancelled, in
      place, and the answer is how many did. Nothing else in the record or
      the history changes, so a second call finds nothing to cancel. */
  method CancelPendingActions(h: seq<ActionRecord>) returns (r: seq<ActionRecord>, cancelled: nat)
    ensures |r| == |h|
    ensures forall i :: 0 <= i < |h| ==> r[i] == if h[i].status == Pending then h[i].(status := Cancelled) else h[i]
    ensures cancelled == Count(h, IsPending)
    ensures Count(r, IsPending) == 0
    ensures Count(r, IsCancelled) == Count(h, IsCancelled) + cancelled
  {
    r := [];
    cancelled := 0;
    var i := 0;
    while i < |h|
      invariant i <= |h|
      invariant CancelledSoFar(h, i, r, cancelled)
    {
      CancelStep(h, i, r, cancelled);
      if h[i].status == Pending {
        cancelled := cancelled + 1;
      }
      r := r + [Cancel(h[i])];
      i := i + 1;
    }
    assert h[..|h|] == h;
  }

  /** One record after the cancellation. */
  function Cancel(a: ActionRecord): ActionRecord
  {
    if a.status == Pending then a.(status := Cancelled) else a
  }

  /** The first `i` records have been handled: `r` holds them with every
      pending one cancelled, and `cancelled` says how many were. */
  predicate CancelledSoFar(h: seq<ActionRecord>, i: nat, r: seq<ActionRecord>, cancelled: nat)
    requires i <= |h|
  {
    && |r| == i
    && (forall k :: 0 <= k < i ==> r[k] == Cancel(h[k]))
    && cancelled == Count(h[..i], IsPending)
    && Count(r, IsPending) == 0
    && Count(r, IsCancelled) == Count(h[..i], IsCancelled) + cancelled
  }

  lemma CancelStep(h: seq<ActionRecord>, i: nat, r: seq<ActionRecord>, cancelled: nat)
    requires i < |h| && CancelledSoFar(h, i, r, cancelled)
    ensures CancelledSoFar(h, i + 1, r + [Cancel(h[i])], cancelled + (if h[i].status == Pending then 1 else 0))
  {
    assert h[..i + 1] == h[..i] + [h[i]];
    CountAppend(h[..i], [h[i]], IsPending);
    CountAppend(h[..i], [h[i]], IsCancelled);
    CountAppend(r, [Cancel(h[i])], IsPending);
    CountAppend(r, [Cancel(h[i])], IsCancelled);
    var r' := r + [Cancel(h[i])];
    assert forall k :: 0 <= k < i + 1 ==> r'[k] == Cancel(h[k]) by {
      forall k | 0 <= k < i + 1
        ensures r'[k] == Cancel(h[k])
      {
        if k < i { assert r'[k] == r[k]; }
      }
    }
  }

}

=== FILE: common.dfy ===
/** Building blocks shared by every part of the model: optional values,
    order-preserving filters and counts, the index arithmetic of JavaScript's
    `Array.prototype.slice`, and the stable "largest key first" sort that each
    `.sort((a, b) => key(b) - key(a))` call of the application performs. */
module Common {

  datatype Option<T> = None | Some(value: T)

  datatype Result<T, E> = Ok(value: T) | Err(error: E)

  /** `r` can be obtained from `s` by deleting elements (greedy matching decides it). */
  predicate IsSubsequence<T(==)>(r: seq<T>, s: seq<T>)
    decreases |s|
  {
    if |r| == 0 then true
    else if |s| == 0 then false
    else if r[0] == s[0] then IsSubsequence(r[1..], s[1..])
    else IsSubsequence(r, s[1..])
  }

  lemma {:induction false} SubsequenceReflexive<T>(s: seq<T>)
    ensures IsSubsequence(s, s)
    decreases |s|
  {
    if |s| > 0 {
      SubsequenceReflexive(s[1..]);
    }
  }

  /** Deleting elements from what was obtained by deleting elements still
      leaves a subsequence of the original. */
  lemma {:induction false} SubsequenceTransitive<T>(r: seq<T>, s: seq<T>, t: seq<T>)
    requires IsSubsequence(r, s) && IsSubsequence(s, t)
    ensures IsSubsequence(r, t)
    decreases |t|
  {
    if |r| > 0 && |t| > 0 {
      if s[0] != t[0] {
        SubsequenceTransitive(r, s, t[1..]);
        SubsequenceSkip(r, t);
      } else if r[0] == s[0] {
        SubsequenceTransitive(r[1..], s[1..], t[1..]);
      } else {
        SubsequenceTransitive(r, s[1..], t[1..]);
        SubsequenceSkip(r, t);
      }
    }
  }

  /** The elements of `s` that satisfy `p`, in their original order
      (`Array.prototype.filter`). The three last clauses pin the result down
      completely: every kept element satisfies `p`, every occurrence of a
      satisfying value is kept, and the original order is preserved. */
  function Filter<T(==,!new)>(s: seq<T>, p: T -> bool): (r: seq<T>)
    ensures |r| <= |s|
    ensures forall i :: 0 <= i < |r| ==> p(r[i])
    ensures forall x :: multiset(r)[x] == if p(x) then multiset(s)[x] else 0
    ensures IsSubsequence(r, s)
    decreases |s|
  {
    if |s| == 0 then []
    else
      var rest := Filter(s[1..], p);
      assert s == [s[0]] + s[1..];
      if p(s[0]) then
        assert ([s[0]] + rest)[1..] == rest;
        [s[0]] + rest
      else
        assert IsSubsequence(rest, s) by { SubsequenceSkip(rest, s); }
        rest
  }

  lemma {:induction false} SubsequenceSkip<T>(r: seq<T>, s: seq<T>)
    requires |s| > 0 && IsSubsequence(r, s[1..])
    ensures IsSubsequence(r, s)
    decreases |s|, 0
  {
    if |r| > 0 && r[0] == s[0] {
      SubsequenceTail(r, s[1..]);
    }
  }

  lemma {:induction false} SubsequenceTail<T>(r: seq<T>, s: seq<T>)
    requires |r| > 0 && IsSubsequence(r, s)
    ensures IsSubsequence(r[1..], s)
    decreases |s|, 1
  {
    if |s| > 0 {
      if r[0] == s[0] {
        SubsequenceSkip(r[1..], s);
      } else {
        SubsequenceTail(r, s[1..]);
        SubsequenceSkip(r[1..], s);
      }
    }
  }

  /** Filtering twice with the same predicate changes nothing. */
  lemma {:induction false} FilterIdempotent<T(!new)>(s: seq<T>, p: T -> bool)
    ensures Filter(Filter(s, p), p) == Filter(s, p)
  {
    FilterAllKept(Filter(s, p), p);
  }

  /** A filter that every element already satisfies is the identity. */
  lemma {:induction false} FilterAllKept<T(!new)>(s: seq<T>, p: T -> bool)
    requires forall i :: 0 <= i < |s| ==> p(s[i])
    ensures Filter(s, p) == s
    decreases |s|
  {
    if |s| > 0 {
      FilterAllKept(s[1..], p);
    }
  }

  /** What holds of every element holds of every element a filter keeps. */
  lemma FilterKeeps<T(!new)>(s: seq<T>, p: T -> bool, q: T -> bool)
    requires forall i :: 0 <= i < |s| ==> q(s[i])
    ensures forall x :: x in Filter(s, p) ==> q(x)
  {
    forall x | x in Filter(s, p)
      ensures q(x)
    {
      assert x in multiset(Filter(s, p));
      assert x in multiset(s);
    }
  }

  /** Filtering distributes over concatenation. */
  lemma {:induction false} FilterAppend<T(!new)>(a: seq<T>, b: seq<T>, p: T -> bool)
    ensures Filter(a + b, p) == Filter(a, p) + Filter(b, p)
    decreases |a|
  {
    if |a| > 0 {
      assert (a + b)[1..] == a[1..] + b;
      FilterAppend(a[1..], b, p);
    } else {
      assert a + b == b;
    }
  }

  /** How many elements of `s` satisfy `p`. */
  function Count<T>(s: seq<T>, p: T -> bool): (n: nat)
    ensures n <= |s|
    decreases |s|
  {
    if |s| == 0 then 0 else (if p(s[0]) then 1 else 0) + Count(s[1..], p)
  }

  lemma {:induction false} CountAppend<T>(a: seq<T>, b: seq<T>, p: T -> bool)
    ensures Count(a + b, p) == Count(a, p) + Count(b, p)
    decreases |a|
  {
    if |a| > 0 {
      assert (a + b)[1..] == a[1..] + b;
      CountAppend(a[1..], b, p);
    } else {
      assert a + b == b;
    }
  }

  /** The count is the length of the filtered sequence. */
  lemma {:induction false} CountIsFilterLength<T(!new)>(s: seq<T>, p: T -> bool)
    ensures Count(s, p) == |Filter(s, p)|
    decreases |s|
  {
    if |s| > 0 {
      CountIsFilterLength(s[1..], p);
    }
  }

  /** Reordering a sequence does not change how many elements a predicate
      selects. */
  lemma CountPermutation<T(!new)>(a: seq<T>, b: seq<T>, p: T -> bool)
    requires multiset(a) == multiset(b)
    ensures Count(a, p) == Count(b, p)
  {
    CountIsFilterLength(a, p);
    CountIsFilterLength(b, p);
    assert multiset(Filter(a, p)) == multiset(Filter(b, p));
    assert |multiset(Filter(a, p))| == |Filter(a, p)|;
  }

  /** Two predicates that never hold together and both imply `q` count no
      more, together, than `q` does. */
  lemma {:induction false} CountDisjointBound<T>(s: seq<T>, p1: T -> bool, p2: T -> bool, q: T -> bool)
    requires forall x :: !(p1(x) && p2(x))
    requires forall x :: p1(x) || p2(x) ==> q(x)
    ensures Count(s, p1) + Count(s, p2) <= Count(s, q)
    decreases |s|
  {
    if |s| > 0 {
      CountDisjointBound(s[1..], p1, p2, q);
    }
  }

  /** Counting with a predicate that implies another counts no more. */
  lemma {:induction false} CountMonotone<T>(s: seq<T>, p: T -> bool, q: T -> bool)
    requires forall x :: p(x) ==> q(x)
    ensures Count(s, p) <= Count(s, q)
    decreases |s|
  {
    if |s| > 0 {
      CountMonotone(s[1..], p, q);
    }
  }

  /** A predicate that holds of every element counts everything. */
  lemma {:induction false} CountAll<T>(s: seq<T>, p: T -> bool)
    requires forall i :: 0 <= i < |s| ==> p(s[i])
    ensures Count(s, p) == |s|
    decreases |s|
  {
    if |s| > 0 {
      CountAll(s[1..], p);
    }
  }

  /** A predicate that holds of no element counts nothing. */
  lemma {:induction false} CountNone<T>(s: seq<T>, p: T -> bool)
    requires forall i :: 0 <= i < |s| ==> !p(s[i])
    ensures Count(s, p) == 0
    decreases |s|
  {
    if |s| > 0 {
      CountNone(s[1..], p);
    }
  }

  // ---------------------------------------------------------------------
  // Array.prototype.slice

  function Min(a: int, b: int): int
  {
    if a <= b then a else b
  }

  /** Where `slice` places a relative position in a sequence of length `len`:
      a negative position counts back from the end, and the result is clamped
      into [0, len]. */
  function RelativeIndex(k: int, len: nat): (r: nat)
    ensures r <= len
    ensures 0 <= k ==> r == if k <= len then k else len
    ensures k < 0 ==> r == if len + k < 0 then 0 else len + k
  {
    if k < 0 then (if len + k < 0 then 0 else len + k)
    else if k > len then len
    else k
  }

  /** `s.slice(start, end)` for arbitrary integer positions. */
  function JsSlice<T>(s: seq<T>, start: int, end: int): (r: seq<T>)
    ensures 0 <= start <= end ==> r == s[if start <= |s| then start else |s| .. if end <= |s| then end else |s|]
    ensures start <= end ==> |r| <= end - start
    ensures |r| <= |s|
  {
    var from := RelativeIndex(start, |s|);
    var to := RelativeIndex(end, |s|);
    if to <= from then [] else s[from..to]
  }

  /** A slice takes a run of consecutive elements: it keeps no more of any
      element than the sequence has, and keeps a descending order. */
  lemma SliceWithin<T>(s: seq<T>, start: int, end: int, key: T -> int)
    ensures multiset(JsSlice(s, start, end)) <= multiset(s)
    ensures SortedDesc(s, key) ==> SortedDesc(JsSlice(s, start, end), key)
  {
    var from := RelativeIndex(start, |s|);
    var to := RelativeIndex(end, |s|);
    if from < to {
      assert s == s[..from] + s[from..to] + s[to..];
      assert multiset(s) == multiset(s[..from]) + multiset(s[from..to]) + multiset(s[to..]);
    }
  }

  // ---------------------------------------------------------------------
  // Stable sort, largest key first

  /** Every element is at least as large, by `key`, as every later one. */
  predicate SortedDesc<T>(s: seq<T>, key: T -> int)
  {
    forall i, j :: 0 <= i < j < |s| ==> key(s[i]) >= key(s[j])
  }

  /** Places `x` in front of the first element whose key does not exceed its
      own, so that `x` precedes every element of `s` with an equal key. */
  function Insert<T>(x: T, s: seq<T>, key: T -> int): (r: seq<T>)
    requires SortedDesc(s, key)
    ensures |r| == |s| + 1
    ensures r[0] == x || (|s| > 0 && r[0] == s[0])
    ensures multiset(r) == multiset(s) + multiset{x}
    ensures SortedDesc(r, key)
    decreases |s|
  {
    if |s| == 0 || key(x) >= key(s[0]) then
      SortedCons(x, s, key);
      [x] + s
    else
      var rest := Insert(x, s[1..], key);
      assert s == [s[0]] + s[1..];
      assert key(s[0]) >= key(rest[0]) by {
        if rest[0] != x { assert rest[0] == s[1]; }
      }
      SortedCons(s[0], rest, key);
      [s[0]] + rest
  }

  /** An element at least as large as the head of a sorted sequence can go
      in front of it. */
  lemma SortedCons<T>(x: T, s: seq<T>, key: T -> int)
    requires SortedDesc(s, key)
    requires |s| > 0 ==> key(x) >= key(s[0])
    ensures SortedDesc([x] + s, key)
  {
    var r := [x] + s;
    forall i, j | 0 <= i < j < |r|
      ensures key(r[i]) >= key(r[j])
    {
      if i == 0 {
        assert r[j] == s[j - 1];
        if j > 1 { assert key(s[0]) >= key(s[j - 1]); }
      } else {
        assert r[i] == s[i - 1] && r[j] == s[j - 1];
      }
    }
  }

  /** The stable descending sort that JavaScript performs for the comparator
      `(a, b) => key(b) - key(a)`: the result is a permutation of `s`, sorted
      largest key first. Elements with equal keys keep their input order
      because each element is inserted in front of its later equals. */
  function SortDesc<T>(s: seq<T>, key: T -> int): (r: seq<T>)
    ensures multiset(r) == multiset(s)
    ensures |r| == |s|
    ensures SortedDesc(r, key)
    decreases |s|
  {
    if |s| == 0 then []
    else
      assert s == [s[0]] + s[1..];
      Insert(s[0], SortDesc(s[1..], key), key)
  }

  /** Sorting a sequence that is already sorted changes nothing. */
  lemma {:induction false} SortDescOfSorted<T>(s: seq<T>, key: T -> int)
    requires SortedDesc(s, key)
    ensures SortDesc(s, key) == s
    decreases |s|
  {
    if |s| > 0 {
      SortDescOfSorted(s[1..], key);
    }
  }

  /** Keeping the first `k` elements of the sorted sequence keeps the largest
      ones: the kept and the dropped parts split `s` exactly, and no kept key
      is below a dropped key. */
  lemma TopOfSortIsLargest<T>(s: seq<T>, key: T -> int, k: nat)
    requires k <= |s|
    ensures var r := SortDesc(s, key);
      && multiset(r[..k]) + multiset(r[k..]) == multiset(s)
      && forall i, j :: 0 <= i < k <= j < |s| ==> key(r[i]) >= key(r[j])
  {
    var r := SortDesc(s, key);
    SplitMultiset(r, k);
    SortedSplit(r, key, k);
  }

  /** Cutting a sequence in two splits its multiset. */
  lemma SplitMultiset<T>(r: seq<T>, k: nat)
    requires k <= |r|
    ensures multiset(r[..k]) + multiset(r[k..]) == multiset(r)
  {
    assert r == r[..k] + r[k..];
  }

  /** In a sorted sequence, everything before a cut is at least everything
      after it. */
  lemma SortedSplit<T>(r: seq<T>, key: T -> int, k: nat)
    requires k <= |r| && SortedDesc(r, key)
    ensures forall i, j :: 0 <= i < k <= j < |r| ==> key(r[i]) >= key(r[j])
  {
  }

  /** An element whose key strictly exceeds every other element's key comes
      first after sorting. */
  lemma UniqueMaximumFirst<T>(s: seq<T>, key: T -> int, x: T)
    requires x in s
    requires forall i :: 0 <= i < |s| && s[i] != x ==> key(s[i]) < key(x)
    ensures |SortDesc(s, key)| > 0 && SortDesc(s, key)[0] == x
  {
    var r := SortDesc(s, key);
    assert x in multiset(r);
    var k :| 0 <= k < |r| && r[k] == x;
    assert key(r[0]) >= key(x) by {
      if k > 0 { assert key(r[0]) >= key(r[k]); }
    }
    assert r[0] in multiset(s);
    var i :| 0 <= i < |s| && s[i] == r[0];
  }

  /** `r` keeps, out of `s`, elements no smaller by `key` than anything it
      leaves behind: `r` takes from `s` only what is there, and whenever some
      copy of `s[j]` is missing from `r`, every kept element is at least as
      large as `s[j]`. */
  predicate KeepsLargest<T(==)>(s: seq<T>, r: seq<T>, key: T -> int)
  {
    && multiset(r) <= multiset(s)
    && forall i, j :: 0 <= i < |r| && 0 <= j < |s| && multiset(r)[s[j]] < multiset(s)[s[j]]
         ==> key(r[i]) >= key(s[j])
  }

  /** A sub-multiset that misses a copy of something is smaller. */
  lemma SmallerWhenMissing<T>(b: multiset<T>, s: multiset<T>, t: T)
    requires b <= s && b[t] < s[t]
    ensures |b| < |s|
  {
    var d := s - b;
    assert b + d == s;
    assert t in d;
  }

  /** A smaller sub-multiset misses a copy of something. */
  lemma MissingWhenSmaller<T>(b: multiset<T>, s: multiset<T>) returns (t: T)
    requires b <= s && |b| < |s|
    ensures b[t] < s[t]
  {
    var d := s - b;
    assert b + d == s;
    assert |d| > 0;
    t :| t in d;
  }

  /** Two cuts in a row, the second after appending `x`: when the first
      cut left something out, so does the second. Then the result keeps,
      out of `s + [x]`, the largest elements. */
  lemma KeepsLargestAppend<T>(s: seq<T>, b: seq<T>, x: T, r: seq<T>, key: T -> int)
    requires KeepsLargest(s, b, key) && KeepsLargest(b + [x], r, key)
    requires |b| < |s| ==> |r| < |b| + 1
    ensures KeepsLargest(s + [x], r, key)
  {
    var sx, bx := s + [x], b + [x];
    assert multiset(sx) == multiset(s) + multiset{x};
    assert multiset(bx) == multiset(b) + multiset{x};
    forall i, j | 0 <= i < |r| && 0 <= j < |sx| && multiset(r)[sx[j]] < multiset(sx)[sx[j]]
      ensures key(r[i]) >= key(sx[j])
    {
      var t := sx[j];
      if multiset(r)[t] < multiset(bx)[t] {
        assert t in multiset(bx);
        var k :| 0 <= k < |bx| && bx[k] == t;
      } else {
        KeptBeatsDroppedEarlier(s, b, x, r, key, i, t);
      }
    }
  }

  /** The case of `KeepsLargestAppend` where the first cut dropped a copy
      of `t`: every element the second cut keeps is at least `t`. */
  lemma KeptBeatsDroppedEarlier<T>(s: seq<T>, b: seq<T>, x: T, r: seq<T>, key: T -> int, i: nat, t: T)
    requires KeepsLargest(s, b, key) && KeepsLargest(b + [x], r, key)
    requires |b| < |s| ==> |r| < |b| + 1
    requires i < |r| && multiset(b)[t] < multiset(s)[t]
    ensures key(r[i]) >= key(t)
  {
    var bx := b + [x];
    assert multiset(bx) == multiset(b) + multiset{x};
    assert t in multiset(s);
    var js :| 0 <= js < |s| && s[js] == t;
    if r[i] in multiset(b) {
      var ib :| 0 <= ib < |b| && b[ib] == r[i];
    } else {
      assert r[i] in multiset(r);
      SmallerWhenMissing(multiset(b), multiset(s), t);
      var y := MissingWhenSmaller(multiset(r), multiset(bx));
      assert y in multiset(bx);
      var k :| 0 <= k < |bx| && bx[k] == y;
      assert multiset(r)[x] >= 1;
      assert y != x;
      var ib :| 0 <= ib < |b| && b[ib] == y;
    }
  }

  /** `s.sort((a, b) => key(b) - key(a)).slice(0, k)`: the `k` largest
      elements of `s` by `key` (all of them when `s` is shorter), largest first. */
  function TopK<T(==)>(s: seq<T>, key: T -> int, k: int): (r: seq<T>)
    ensures 0 <= k ==> |r| == if k <= |s| then k else |s|
    ensures SortedDesc(r, key)
    ensures KeepsLargest(s, r, key)
  {
    var sorted := SortDesc(s, key);
    var r := JsSlice(sorted, 0, k);
    assert r == sorted[..|r|];
    PrefixOfSortKeepsLargest(s, key, |r|);
    r
  }

  lemma PrefixOfSortKeepsLargest<T>(s: seq<T>, key: T -> int, n: nat)
    requires n <= |s|
    ensures KeepsLargest(s, SortDesc(s, key)[..n], key)
  {
    var sorted := SortDesc(s, key);
    PrefixOfSortedKeepsLargest(s, sorted, key, n);
  }

  lemma PrefixOfSortedKeepsLargest<T>(s: seq<T>, t: seq<T>, key: T -> int, n: nat)
    requires multiset(t) == multiset(s) && SortedDesc(t, key)
    requires n <= |t|
    ensures KeepsLargest(s, t[..n], key)
  {
    var r := t[..n];
    var d := t[n..];
    assert t == r + d;
    assert multiset(t) == multiset(r) + multiset(d);
    forall i, j | 0 <= i < |r| && 0 <= j < |s| && multiset(r)[s[j]] < multiset(s)[s[j]]
      ensures key(r[i]) >= key(s[j])
    {
      DroppedIsInSuffix(s, t, n, s[j]);
      var m :| n <= m < |t| && t[m] == s[j];
      assert r[i] == t[i];
    }
  }

  lemma DroppedIsInSuffix<T>(s: seq<T>, t: seq<T>, n: nat, x: T)
    requires multiset(t) == multiset(s) && n <= |t|
    requires multiset(t[..n])[x] < multiset(s)[x]
    ensures exists m :: n <= m < |t| && t[m] == x
  {
    assert t == t[..n] + t[n..];
    assert multiset(t[n..])[x] > 0;
    assert x in t[n..];
    var m :| 0 <= m < |t[n..]| && t[n..][m] == x;
    assert t[n + m] == x;
  }

  // ---------------------------------------------------------------------
  // Array.prototype.find followed by an update of the element found

  /** Position of the first element satisfying `p`, or `|s|` when there is none. */
  function FirstIndex<T>(s: seq<T>, p: T -> bool): (k: nat)
    ensures k <= |s|
    ensures k < |s| ==> p(s[k])
    ensures forall i :: 0 <= i < k ==> !p(s[i])
    decreases |s|
  {
    if |s| == 0 then 0 else if p(s[0]) then 0 else 1 + FirstIndex(s[1..], p)
  }

  /** Applies `f` to the first element satisfying `p`, which is what mutating
      the object that `find(p)` returns does; every other element is left as
      it was, and nothing changes when no element satisfies `p`. */
  function UpdateFirst<T>(s: seq<T>, p: T -> bool, f: T -> T): (r: seq<T>)
    ensures |r| == |s|
    ensures forall i :: 0 <= i < |s| ==>
      r[i] == if i == FirstIndex(s, p) then f(s[i]) else s[i]
    decreases |s|
  {
    if |s| == 0 then []
    else if p(s[0]) then [f(s[0])] + s[1..]
    else [s[0]] + UpdateFirst(s[1..], p, f)
  }
}

=== FILE: cookies.dfy ===
/** The cookie-string parser of the Facebook service
    (services/fbService.js, `parseCookies`): a `name=value; name=value`
    header string becomes a list of browser cookies scoped to
    `.facebook.com`. */
module Cookies {
  import opened Common
  import opened Text

  const DefaultDomain: string := ".facebook.com"
  const DefaultPath: string := "/"

  datatype Cookie = Cookie(
    name: string,
    value: string,
    domain: string,
    path: string,
    httpOnly: bool,
    secure: bool,
    sameSite: string)

  /** The cookie every segment starts from, before its attributes. */
  function BaseCookie(name: string, value: string): Cookie
  {
    Cookie(name, value, DefaultDomain, DefaultPath, false, true, "Lax")
  }

  /** The value a `key=val` attribute carries: `undefined` (here "") when
      there is no `=`. */
  function AttributeValue(kv: seq<string>): string
    requires |kv| >= 1
  {
    if |kv| > 1 then kv[1] else ""
  }

  /** One `key=val` attribute: `domain` and `path` take the value or fall
      back to the defaults, `httponly` and `secure` switch their flags on,
      anything else, and an empty key, is ignored. */
  function ApplyAttribute(c: Cookie, attr: string): (r: Cookie)
    ensures r.name == c.name && r.value == c.value && r.sameSite == c.sameSite
  {
    var kv := Split(Trim(attr), '=');
    var key := kv[0];
    var val := AttributeValue(kv);
    if key == "" then c
    else
      var k := ToLower(key);
      if k == "domain" then c.(domain := if val != "" then val else DefaultDomain)
      else if k == "path" then c.(path := if val != "" then val else DefaultPath)
      else if k == "httponly" then c.(httpOnly := true)
      else if k == "secure" then c.(secure := true)
      else c
  }

  function ApplyAttributes(c: Cookie, attrs: seq<string>): (r: Cookie)
    ensures r.name == c.name && r.value == c.value && r.sameSite == c.sameSite
    ensures |attrs| == 0 ==> r == c
    decreases |attrs|
  {
    if |attrs| == 0 then c else ApplyAttributes(ApplyAttribute(c, attrs[0]), attrs[1..])
  }

  /** The cookie one `;`-separated segment describes: the segment is trimmed
      and split on `;` once more, the first piece is split on `=` into name
      and value, and the remaining pieces are applied as attributes. The
      name is the trimmed text before the first `=` of that first piece, the
      value the trimmed text between its first and second `=` (empty without
      `=`); attributes never touch either, nor the same-site setting. */
  function ParseSegment(segment: string): (r: Cookie)
    ensures var t := Before(Trim(segment), ';');
      var k := |Before(t, '=')|;
      && r.name == Trim(Before(t, '='))
      && r.value == (if k < |t| then Trim(Before(t[k + 1..], '=')) else "")
      && r.sameSite == "Lax"
  {
    FirstTwoPieces(Trim(segment), ';');
    FirstTwoPieces(Before(Trim(segment), ';'), '=');
    var parts := Split(Trim(segment), ';');
    var nv := Split(parts[0], '=');
    var name := Trim(nv[0]);
    var value := if |nv| > 1 then Trim(nv[1]) else "";
    ApplyAttributes(BaseCookie(name, value), parts[1..])
  }

  predicate HasNameAndValue(c: Cookie)
  {
    c.name != "" && c.value != ""
  }

  /** The cookies of the `;`-separated segments, one per segment, in order. */
  function Segments(header: string): (r: seq<Cookie>)
    ensures |r| == |Split(header, ';')|
  {
    var segments := Split(header, ';');
    seq(|segments|, i requires 0 <= i < |segments| => ParseSegment(segments[i]))
  }

  /** `parseCookies`: the empty string gives no cookies; otherwise each
      `;`-separated segment gives one cookie and exactly those without a name
      or a value are dropped, the others kept in segment order. So every
      cookie has both and there are no more cookies than segments. */
  function ParseCookies(header: string): (r: seq<Cookie>)
    ensures header == "" ==> r == []
    ensures forall i :: 0 <= i < |r| ==> r[i].name != "" && r[i].value != ""
    ensures |r| <= |Split(header, ';')|
    ensures header != "" ==> IsSubsequence(r, Segments(header))
    ensures header != "" ==>
      forall x :: multiset(r)[x] == if HasNameAndValue(x) then multiset(Segments(header))[x] else 0
  {
    if header == "" then []
    else KeepNamed(Segments(header))
  }

  /** The cookies that have both a name and a value, in their order. */
  function KeepNamed(cookies: seq<Cookie>): (r: seq<Cookie>)
    ensures |r| <= |cookies|
    ensures forall i :: 0 <= i < |r| ==> r[i].name != "" && r[i].value != ""
    ensures IsSubsequence(r, cookies)
    ensures forall x :: multiset(r)[x] == if HasNameAndValue(x) then multiset(cookies)[x] else 0
  {
    Filter(cookies, HasNameAndValue)
  }

  /** Trimming keeps only characters of the original string. */
  lemma TrimKeepsAbsent(s: string, d: char)
    requires d !in s
    ensures d !in Trim(s)
  {
    var t := Trim(s);
    var i :| CutsOnlySpace(s, t, i);
    forall k | 0 <= k < |t|
      ensures t[k] != d
    {
      assert t[k] == s[i + k];
      assert s[i + k] in s;
    }
  }

  /** A segment free of `;` has no attributes: its cookie is the base
      cookie built from the first two `=`-pieces of its trim. */
  lemma SegmentWithoutAttributes(segment: string)
    requires ';' !in segment
    ensures var nv := Split(Trim(segment), '=');
      ParseSegment(segment) == BaseCookie(Trim(nv[0]), if |nv| > 1 then Trim(nv[1]) else "")
  {
    TrimKeepsAbsent(segment, ';');
    SplitWithoutDelimiter(Trim(segment), ';');
  }

  /** A segment of a `;` split holds no `;`, so the second split on `;`
      yields no attributes and every cookie carries the defaults: domain
      `.facebook.com`, path `/`, secure, not HTTP-only, same-site `Lax`. */
  lemma SegmentHasDefaults(segment: string)
    requires ';' !in segment
    ensures var c := ParseSegment(segment);
      && c.domain == DefaultDomain && c.path == DefaultPath
      && c.secure && !c.httpOnly && c.sameSite == "Lax"
  {
    SegmentWithoutAttributes(segment);
  }

  /** The attributes `parseCookies` gives every cookie. */
  predicate HasDefaults(c: Cookie)
  {
    c.domain == DefaultDomain && c.path == DefaultPath && c.secure && !c.httpOnly && c.sameSite == "Lax"
  }

  /** Every cookie `parseCookies` returns carries the default attributes. */
  lemma ParsedCookiesHaveDefaults(header: string)
    ensures forall c :: c in ParseCookies(header) ==>
      c.domain == DefaultDomain && c.path == DefaultPath && c.secure && !c.httpOnly && c.sameSite == "Lax"
  {
    if header != "" {
      var segments := Split(header, ';');
      var cookies := Segments(header);
      forall k | 0 <= k < |cookies|
        ensures HasDefaults(cookies[k])
      {
        SegmentHasDefaults(segments[k]);
      }
      FilterKeeps(cookies, HasNameAndValue, HasDefaults);
    }
  }

  /** The first two pieces of a split: the text before the first separator
      and, when there is a separator, the text between it and the next. */
  lemma FirstTwoPieces(t: string, d: char)
    ensures Split(t, d)[0] == Before(t, d)
    ensures |Split(t, d)| > 1 <==> |Before(t, d)| < |t|
    ensures |Before(t, d)| < |t| ==> Split(t, d)[1] == Before(t[|Before(t, d)| + 1..], d)
  {
    SplitAtFirst(t, d);
    var k := |Before(t, d)|;
    if k < |t| {
      SplitAtFirst(t[k + 1..], d);
    }
  }

  /** The name of a segment's cookie is the trimmed text before its first
      `=`; the value is the trimmed text between the first and the second
      `=` (empty when there is no `=`), and whatever follows a second `=` is
      dropped. */
  lemma SegmentNameValue(segment: string)
    requires ';' !in segment
    ensures var t := Trim(segment);
      var k := |Before(t, '=')|;
      && ParseSegment(segment).name == Trim(Before(t, '='))
      && ParseSegment(segment).value == if k < |t| then Trim(Before(t[k + 1..], '=')) else ""
  {
    SegmentWithoutAttributes(segment);
    FirstTwoPieces(Trim(segment), '=');
  }
}

=== FILE: dashboard.dfy ===
/** The dashboard endpoints (controllers/dashboardController.js):
    `getDashboardOverview`, `updateSettings` and `getActionAnalytics`.
    Every reading of the clock is the parameter `now`. */
module Dashboard {
  import opened Common
  import opened Account
  import opened Tally
  import opened Actions

  // ---------------------------------------------------------------------
  // updateSettings

  /** The largest `maxSessions` the settings accept. */
  const MaxSessionsLimit: int := 50

  /** The request body: `autoCleanup` is `Some` only when it is a boolean,
      `maxSessions` is `Some` when it is an integer (a missing one, like `0`,
      fails the test below), and `notificationEmail` is
      `Some` whenever it is present, holding `None` for `null`. */
  datatype SettingsUpdate = SettingsUpdate(
    autoCleanup: Option<bool>,
    maxSessions: Option<int>,
    notificationEmail: Option<Option<string>>)

  /** `maxSessions && maxSessions >= 1 && maxSessions <= 50`. */
  predicate AcceptsMaxSessions(u: SettingsUpdate)
  {
    u.maxSessions.Some? && 1 <= u.maxSessions.value <= MaxSessionsLimit
  }

  /** `updateSettings`: a boolean `autoCleanup` replaces the stored one; a
      `maxSessions` in [1, 50] replaces the stored one and cuts the session
      list to that many, keeping the most recently used; a present
      `notificationEmail` replaces the stored one. Nothing else changes. */
  function UpdateSettings(a: Account, u: SettingsUpdate): (r: Account)
    ensures r.settings.autoCleanup == if u.autoCleanup.Some? then u.autoCleanup.value else a.settings.autoCleanup
    ensures r.settings.notificationEmail == if u.notificationEmail.Some? then u.notificationEmail.value else a.settings.notificationEmail
    ensures AcceptsMaxSessions(u) ==>
      && r.settings.maxSessions == u.maxSessions.value
      && |r.sessions| == Min(|a.sessions|, u.maxSessions.value)
      && KeepsLargest(a.sessions, r.sessions, LastUsed)
      && (|a.sessions| > u.maxSessions.value ==> SortedDesc(r.sessions, LastUsed))
    ensures !AcceptsMaxSessions(u) ==> r.settings.maxSessions == a.settings.maxSessions && r.sessions == a.sessions
    ensures |a.sessions| <= r.settings.maxSessions ==> r.sessions == a.sessions
    ensures r.history == a.history && r.statistics == a.statistics
  {
    var st := a.settings;
    var auto := if u.autoCleanup.Some? then u.autoCleanup.value else st.autoCleanup;
    var email := if u.notificationEmail.Some? then u.notificationEmail.value else st.notificationEmail;
    if AcceptsMaxSessions(u) then
      a.(settings := Settings(auto, u.maxSessions.value, email), sessions := CapSessions(a.sessions, u.maxSessions.value))
    else
      a.(settings := Settings(auto, st.maxSessions, email))
  }

  /** Sending the same settings twice is sending them once. */
  lemma UpdateSettingsIdempotent(a: Account, u: SettingsUpdate)
    ensures UpdateSettings(UpdateSettings(a, u), u) == UpdateSettings(a, u)
  {
  }

  /** A list cut to the limit is within it. */
  lemma CapSessionsIdempotent(sessions: seq<Session>, max: int)
    requires 0 <= max
    ensures CapSessions(CapSessions(sessions, max), max) == CapSessions(sessions, max)
  {
  }

  // ---------------------------------------------------------------------
  // getDashboardOverview

  /** A session as the overview shows it: its fbId masked, its cookies and
      user agent left out. */
  datatype SessionView = SessionView(fbId: string, fbName: Option<string>, lastUsed: int, expiresAt: int, isActive: bool, createdAt: int)

  function ViewSession(s: Session): (v: SessionView)
    ensures v.fbId == MaskId(s.fbId)
    ensures v.fbName == s.fbName && v.lastUsed == s.lastUsed && v.expiresAt == s.expiresAt
    ensures v.isActive == s.isActive && v.createdAt == s.createdAt
  {
    SessionView(MaskId(s.fbId), s.fbName, s.lastUsed, s.expiresAt, s.isActive, s.createdAt)
  }

  /** A record as the overview lists it. */
  datatype RecordView = RecordView(
    actionId: string, actionType: ActionKind, targetUrl: string, maskedFbId: string,
    status: Status, comment: Option<string>, timestamp: int, executionTime: Option<int>)

  /** How many characters of a comment the overview shows. */
  const CommentPreviewLength: int := 100

  /** `comment ? comment.substring(0, 100) + '...' : null`: an empty or
      missing comment shows as none; any other shows its first hundred
      characters followed by "...". */
  function PreviewComment(c: Option<string>): (r: Option<string>)
    ensures r.Some? <==> c.Some? && c.value != ""
    ensures r.Some? ==>
      && |r.value| == Min(|c.value|, CommentPreviewLength) + 3
      && r.value[..|r.value| - 3] == c.value[..|r.value| - 3]
      && r.value[|r.value| - 3..] == "..."
  {
    if c.Some? && c.value != "" then
      var shown := JsSlice(c.value, 0, CommentPreviewLength);
      var r := shown + "...";
      assert r[..|r| - 3] == shown;
      Some(r)
    else None
  }

  /** A comment of at most a hundred characters is shown whole. */
  lemma ShortCommentShownWhole(c: string)
    requires 0 < |c| <= CommentPreviewLength
    ensures PreviewComment(Some(c)) == Some(c + "...")
  {
    assert JsSlice(c, 0, CommentPreviewLength) == c[0..|c|] == c;
  }

  function ViewRecord(a: ActionRecord): (v: RecordView)
    ensures v.actionId == a.actionId && v.actionType == a.actionType && v.targetUrl == a.targetUrl
    ensures v.maskedFbId == a.maskedFbId && v.status == a.status
    ensures v.timestamp == a.timestamp && v.executionTime == a.executionTime
    ensures v.comment == PreviewComment(a.comment)
  {
    RecordView(a.actionId, a.actionType, a.targetUrl, a.maskedFbId, a.status, PreviewComment(a.comment), a.timestamp, a.executionTime)
  }

  /** The views of a sequence of records, in the same order. */
  function ViewRecords(recs: seq<ActionRecord>): (r: seq<RecordView>)
    ensures |r| == |recs|
    ensures forall i :: 0 <= i < |r| ==> r[i] == ViewRecord(recs[i])
  {
    seq(|recs|, (i: int) requires 0 <= i < |recs| => ViewRecord(recs[i]))
  }

  const OverviewRecentCount: nat := 10

  datatype Overview = Overview(
    saved: Account,
    active: seq<SessionView>,
    maxAllowed: int,
    total: Statistics,
    recent24h: Counts,
    byActionType: Table<ActionKind>,
    recentActions: seq<RecordView>,
    settings: Settings)

  /** The masked views of the sessions, in stored order. */
  function ViewSessions(sessions: seq<Session>): (r: seq<SessionView>)
    ensures |r| == |sessions|
    ensures forall i :: 0 <= i < |r| ==> r[i] == ViewSession(sessions[i])
  {
    seq(|sessions|, (i: int) requires 0 <= i < |sessions| => ViewSession(sessions[i]))
  }

  /** `getDashboardOverview` at time `now`. The clean-up is saved; the
      sorting that picks the ten newest records sorts the history in place
      after that, so it is not saved, but the per-kind object is built over
      the sorted history. */
  function GetDashboardOverview(a: Account, now: int): (r: Overview)
    ensures r.saved == CleanupExpiredSessions(a, now)
    ensures |r.active| == |r.saved.sessions|
    ensures forall i :: 0 <= i < |r.active| ==> r.active[i] == ViewSession(r.saved.sessions[i])
    ensures forall i :: 0 <= i < |r.active| ==> r.active[i].isActive && r.active[i].expiresAt > now
    ensures r.maxAllowed == a.settings.maxSessions && r.settings == a.settings && r.total == a.statistics
    ensures r.recent24h.total == Count(a.history, Since(now - DayMs))
    ensures r.recent24h.successful == Count(a.history, Selected(Since(now - DayMs), Success))
    ensures r.recent24h.failed == Count(a.history, Selected(Since(now - DayMs), Failed))
    ensures r.recent24h.successful + r.recent24h.failed <= r.recent24h.total
    ensures |r.recentActions| == Min(OverviewRecentCount, |a.history|)
  {
    var cleaned := CleanupExpiredSessions(a, now);
    CleanupIdempotent(a, now);
    Overview(
      cleaned, ViewSessions(ActiveSessions(cleaned, now)), a.settings.maxSessions, a.statistics,
      CountsWhere(a.history, Since(now - DayMs)),
      TallyBy(SortDesc(a.history, Timestamp), KindOf),
      ViewRecords(TopK(a.history, Timestamp, OverviewRecentCount)),
      a.settings)
  }

  /** The overview's per-kind object has one entry per kind in the history,
      each holding that kind's counts, and its totals add up to the length
      of the history. */
  lemma OverviewByKind(a: Account, now: int)
    ensures var t := GetDashboardOverview(a, now).byActionType;
      && DistinctKeys(t)
      && (forall k :: HasKey(t, k) <==> KindOccurs(a.history, k))
      && (forall i :: 0 <= i < |t| ==> t[i].1 == CountsWhere(a.history, KeyIs(KindOf, t[i].0)))
      && SumTotals(t) == |a.history|
  {
    StatsByKind(a.history);
  }

  /** The records the overview lists are the ten newest of the history,
      newest first: nothing older is listed while something newer is left
      out. */
  lemma OverviewListsNewest(a: Account, now: int)
    ensures var top := TopK(a.history, Timestamp, OverviewRecentCount);
      && GetDashboardOverview(a, now).recentActions == ViewRecords(top)
      && SortedDesc(top, Timestamp)
      && KeepsLargest(a.history, top, Timestamp)
  {
  }

  // ---------------------------------------------------------------------
  // getActionAnalytics

  /** The width of the analytics window, in days, for a `period`; a missing
      period is "7d", and an unknown one is seven days too. */
  function PeriodDays(period: Option<string>): (d: nat)
    ensures d in {1, 7, 30, 90}
    ensures period == Some("24h") ==> d == 1
    ensures period == Some("30d") ==> d == 30
    ensures period == Some("90d") ==> d == 90
    ensures period.None? || period.value !in {"24h", "30d", "90d"} ==> d == 7
  {
    var p := if period.Some? then period.value else "7d";
    if p == "24h" then 1
    else if p == "7d" then 7
    else if p == "30d" then 30
    else if p == "90d" then 90
    else 7
  }

  /** `Math.round(successful / total * 100)`, or 0 with no records: the
      percentage of successes to the nearest integer, halves rounded up. */
  function SuccessRate(successful: nat, total: nat): (r: int)
    ensures total == 0 ==> r == 0
    ensures total > 0 ==> 2 * total * r <= 200 * successful + total < 2 * total * (r + 1)
  {
    if total == 0 then 0 else (200 * successful + total) / (2 * total)
  }

  /** With no more successes than records, the rate is a percentage. */
  lemma SuccessRateBounds(successful: nat, total: nat)
    requires successful <= total
    ensures 0 <= SuccessRate(successful, total) <= 100
    ensures SuccessRate(successful, total) == 100 <==> total > 0 && 200 * successful + total >= 200 * total
  {
    if total > 0 {
      var r := SuccessRate(successful, total);
      var d := 2 * total;
      var x := 200 * successful + total;
      assert d * r <= x < d * (r + 1);
      if r > 100 {
        MulMonotone(101, r, d);
        assert false;
      }
      if r < 0 {
        MulMonotone(r + 1, 0, d);
        assert false;
      }
      if x >= 200 * total && r < 100 {
        MulMonotone(r + 1, 100, d);
        assert false;
      }
    }
  }

  /** The UTC calendar day of a record, as a day number: the key
      `toISOString().split('T')[0]` stands for. */
  function DayOf(a: ActionRecord): int { a.timestamp / DayMs }

  function MaskedOf(a: ActionRecord): string { a.maskedFbId }

  /** One day of the timeline: its counts and how many records of each kind. */
  datatype DayEntry = DayEntry(day: int, counts: Counts, byType: seq<(ActionKind, nat)>)

  /** The totals of a per-kind table. */
  function Totals(t: Table<ActionKind>): (r: seq<(ActionKind, nat)>)
    ensures |r| == |t|
    ensures forall i :: 0 <= i < |r| ==> r[i] == (t[i].0, t[i].1.total)
  {
    seq(|t|, (i: int) requires 0 <= i < |t| => (t[i].0, t[i].1.total))
  }

  /** Some record falls on day `d`. */
  predicate DayOccurs(h: seq<ActionRecord>, d: int)
  {
    exists j :: 0 <= j < |h| && DayOf(h[j]) == d
  }

  /** The timeline has an entry for day `d`. */
  predicate HasDay(r: seq<DayEntry>, d: int)
  {
    exists i :: 0 <= i < |r| && r[i].day == d
  }

  /** The kinds of the records of day `d`, with their totals. */
  function KindsOn(h: seq<ActionRecord>, d: int): seq<(ActionKind, nat)>
  {
    Totals(TallyBy(Filter(h, KeyIs(DayOf, d)), KindOf))
  }

  /** The timeline: one entry per day that has records, in order of the
      day's first record; each day's kinds in order of their first record
      that day. */
  function Timeline(h: seq<ActionRecord>): (r: seq<DayEntry>)
    ensures forall i, j :: 0 <= i < j < |r| ==> r[i].day != r[j].day
    ensures forall d :: HasDay(r, d) <==> DayOccurs(h, d)
    ensures forall i :: 0 <= i < |r| ==> r[i].counts == CountsWhere(h, KeyIs(DayOf, r[i].day))
    ensures forall i :: 0 <= i < |r| ==> r[i].byType == Totals(TallyBy(Filter(h, KeyIs(DayOf, r[i].day)), KindOf))
  {
    TimelineFacts(h);
    DayEntries(h, TallyBy(h, DayOf))
  }

  /** The four properties of the per-day entries built from the per-day table. */
  lemma TimelineFacts(h: seq<ActionRecord>)
    ensures var r := DayEntries(h, TallyBy(h, DayOf));
      && (forall i, j :: 0 <= i < j < |r| ==> r[i].day != r[j].day)
      && (forall d :: HasDay(r, d) <==> DayOccurs(h, d))
      && (forall i :: 0 <= i < |r| ==> r[i].counts == CountsWhere(h, KeyIs(DayOf, r[i].day)))
      && (forall i :: 0 <= i < |r| ==> r[i].byType == Totals(TallyBy(Filter(h, KeyIs(DayOf, r[i].day)), KindOf)))
  {
    var t := TallyBy(h, DayOf);
    var r := DayEntries(h, t);
    TimelineDistinct(t, r);
    TimelineDays(h, t, r);
    TallyCounts(h, DayOf);
    TimelineCounts(h, t, r);
    TimelineKinds(h, t, r);
  }

  /** The entries of the days of a per-day table, in its order. */
  function DayEntries(h: seq<ActionRecord>, t: Table<int>): (r: seq<DayEntry>)
    ensures |r| == |t|
    ensures forall i :: 0 <= i < |t| ==> r[i].day == t[i].0
    ensures forall i :: 0 <= i < |t| ==> r[i].counts == t[i].1
    ensures forall i :: 0 <= i < |t| ==> r[i].byType == KindsOn(h, t[i].0)
  {
    seq(|t|, (i: int) requires 0 <= i < |t| => DayEntry(t[i].0, t[i].1, KindsOn(h, t[i].0)))
  }

  /** Distinct table keys give distinct days. */
  lemma TimelineDistinct(t: Table<int>, r: seq<DayEntry>)
    requires DistinctKeys(t)
    requires |r| == |t| && forall i :: 0 <= i < |t| ==> r[i].day == t[i].0
    ensures forall i, j :: 0 <= i < j < |r| ==> r[i].day != r[j].day
  {
    forall i, j | 0 <= i < j < |r|
      ensures r[i].day != r[j].day
    {
      assert t[i].0 != t[j].0;
    }
  }

  /** Each entry holds its day's counts. */
  lemma TimelineCounts(h: seq<ActionRecord>, t: Table<int>, r: seq<DayEntry>)
    requires forall i :: 0 <= i < |t| ==> t[i].1 == CountsWhere(h, KeyIs(DayOf, t[i].0))
    requires |r| == |t| && forall i :: 0 <= i < |t| ==> r[i].day == t[i].0
    requires forall i :: 0 <= i < |t| ==> r[i].counts == t[i].1
    ensures forall i :: 0 <= i < |r| ==> r[i].counts == CountsWhere(h, KeyIs(DayOf, r[i].day))
  {
    forall i | 0 <= i < |r|
      ensures r[i].counts == CountsWhere(h, KeyIs(DayOf, r[i].day))
    {
      assert r[i].counts == t[i].1;
    }
  }

  /** Each entry holds its day's kinds. */
  lemma TimelineKinds(h: seq<ActionRecord>, t: Table<int>, r: seq<DayEntry>)
    requires |r| == |t| && forall i :: 0 <= i < |t| ==> r[i].day == t[i].0
    requires forall i :: 0 <= i < |t| ==> r[i].byType == KindsOn(h, t[i].0)
    ensures forall i :: 0 <= i < |r| ==> r[i].byType == Totals(TallyBy(Filter(h, KeyIs(DayOf, r[i].day)), KindOf))
  {
    forall i | 0 <= i < |r|
      ensures r[i].byType == Totals(TallyBy(Filter(h, KeyIs(DayOf, r[i].day)), KindOf))
    {
      assert r[i].byType == KindsOn(h, r[i].day);
    }
  }

  /** The timeline has an entry for exactly the days that have records. */
  lemma TimelineDays(h: seq<ActionRecord>, t: Table<int>, r: seq<DayEntry>)
    requires forall x :: HasKey(t, x) <==> exists j :: 0 <= j < |h| && DayOf(h[j]) == x
    requires |r| == |t| && forall i :: 0 <= i < |t| ==> r[i].day == t[i].0
    ensures forall d :: HasDay(r, d) <==> DayOccurs(h, d)
  {
    forall d
      ensures HasDay(r, d) <==> DayOccurs(h, d)
    {
      if HasDay(r, d) {
        var i :| 0 <= i < |r| && r[i].day == d;
        assert HasKey(t, d);
      }
      if DayOccurs(h, d) {
        assert HasKey(t, d);
        var i :| 0 <= i < |t| && t[i].0 == d;
        assert r[i].day == d;
      }
    }
  }

  /** The counts of each timeline day's kinds add up to the day's total. */
  lemma DayKindsAddUp(h: seq<ActionRecord>)
    ensures forall i :: 0 <= i < |Timeline(h)| ==>
      SumTotals(TallyBy(Filter(h, KeyIs(DayOf, Timeline(h)[i].day)), KindOf)) == Timeline(h)[i].counts.total
  {
    forall i | 0 <= i < |Timeline(h)|
      ensures SumTotals(TallyBy(Filter(h, KeyIs(DayOf, Timeline(h)[i].day)), KindOf)) == Timeline(h)[i].counts.total
    {
      var e := Timeline(h)[i];
      TallyTotalsSumToLength(Filter(h, KeyIs(DayOf, e.day)), KindOf);
      CountIsFilterLength(h, KeyIs(DayOf, e.day));
    }
  }


  function SuccessfulOf(e: (string, Counts)): int { e.1.successful }

  /** How many sessions the ranking shows. */
  const RankedSessions: nat := 10

  datatype AnalyticsSummary = AnalyticsSummary(totalActions: nat, successfulActions: nat, failedActions: int, successRate: int)

  datatype Analytics = Analytics(
    period: string,
    start: int,
    end: int,
    summary: AnalyticsSummary,
    timeline: seq<DayEntry>,
    sessionPerformance: seq<(string, Counts)>)

  /** The sessions with the most successes in `h`, at most ten, each with
      the counts of its masked fbId. */
  function RankSessions(h: seq<ActionRecord>): (r: seq<(string, Counts)>)
    ensures |r| == Min(RankedSessions, |TallyBy(h, MaskedOf)|)
    ensures SortedDesc(r, SuccessfulOf)
    ensures KeepsLargest(TallyBy(h, MaskedOf), r, SuccessfulOf)
    ensures forall i :: 0 <= i < |r| ==> r[i].1 == CountsWhere(h, KeyIs(MaskedOf, r[i].0))
  {
    var t := TallyBy(h, MaskedOf);
    var r := TopK(t, SuccessfulOf, RankedSessions);
    TallyCounts(h, MaskedOf);
    KeptEntriesCounted(h, t, r);
    r
  }

  /** `getActionAnalytics` at time `now`: the records stamped at or after
      the start of the window, summed up, spread over days, and ranked per
      masked session by successes. Every record that is not a success,
      pending and cancelled ones included, counts as failed in the summary. */
  function GetActionAnalytics(a: Account, period: Option<string>, now: int): (r: Analytics)
    ensures r.period == if period.Some? then period.value else "7d"
    ensures r.end == now && r.start == now - PeriodDays(period) * DayMs
    ensures r.summary.totalActions == Count(a.history, Since(r.start))
    ensures r.summary.successfulActions == Count(a.history, Selected(Since(r.start), Success))
    ensures r.summary.failedActions == r.summary.totalActions - r.summary.successfulActions
    ensures 0 <= r.summary.failedActions
    ensures 0 <= r.summary.successRate <= 100
    ensures r.summary.totalActions == 0 ==> r.summary.successRate == 0
    ensures r.summary.successRate == SuccessRate(r.summary.successfulActions, r.summary.totalActions)
    ensures r.timeline == Timeline(Filter(a.history, Since(r.start)))
    ensures |r.sessionPerformance| == Min(RankedSessions, |TallyBy(Filter(a.history, Since(r.start)), MaskedOf)|)
    ensures SortedDesc(r.sessionPerformance, SuccessfulOf)
    ensures KeepsLargest(TallyBy(Filter(a.history, Since(r.start)), MaskedOf), r.sessionPerformance, SuccessfulOf)
    ensures forall i :: 0 <= i < |r.sessionPerformance| ==>
      r.sessionPerformance[i].1 == CountsWhere(Filter(a.history, Since(r.start)), KeyIs(MaskedOf, r.sessionPerformance[i].0))
  {
    var start := now - PeriodDays(period) * DayMs;
    var inPeriod := Filter(a.history, Since(start));
    var c := CountsWhere(a.history, Since(start));
    CountIsFilterLength(a.history, Since(start));
    SuccessRateBounds(c.successful, c.total);
    var ranked := RankSessions(inPeriod);
    Analytics(
      if period.Some? then period.value else "7d",
      start, now,
      AnalyticsSummary(c.total, c.successful, c.total - c.successful, SuccessRate(c.successful, |inPeriod|)),
      Timeline(inPeriod),
      ranked)
  }

  /** Entries taken from a per-session table keep its counts. */
  lemma KeptEntriesCounted(h: seq<ActionRecord>, t: Table<string>, r: Table<string>)
    requires forall i :: 0 <= i < |t| ==> t[i].1 == CountsWhere(h, KeyIs(MaskedOf, t[i].0))
    requires multiset(r) <= multiset(t)
    ensures forall i :: 0 <= i < |r| ==> r[i].1 == CountsWhere(h, KeyIs(MaskedOf, r[i].0))
  {
    forall i | 0 <= i < |r|
      ensures r[i].1 == CountsWhere(h, KeyIs(MaskedOf, r[i].0))
    {
      assert r[i] in multiset(r);
      assert r[i] in multiset(t);
      var j :| 0 <= j < |t| && t[j] == r[i];
    }
  }

  /** The overview's last-24-hours counts and the analytics summary for
      "24h", read at the same time, count the same records. */
  lemma Last24HoursAgree(a: Account, now: int)
    ensures var o := GetDashboardOverview(a, now);
      var s := GetActionAnalytics(a, Some("24h"), now).summary;
      o.recent24h.total == s.totalActions && o.recent24h.successful == s.successfulActions
  {
  }
}

=== FILE: dispatch.dfy ===
/** The dispatch endpoint of the action controller
    (controllers/actionController.js, `performAction`): clean up the
    account's sessions, choose the sessions to act with, run the action once
    per session, and record one history entry and one result per session.

    The executor (`fbService.performAction` with the request's kind, URL and
    comment and the session's cookies and user agent) is the parameter
    `exec`: its `i`-th call, for session `s`, is `exec(s, i)`. The identifier
    generator and the clock readings of the `i`-th step are `clock(i)`. */
module Dispatch {
  import opened Common
  import opened Text
  import opened Account
  import opened TargetId
  import opened Executor

  /** A validated request: the kind has passed the validation, so it is one
      of the ten kinds. */
  datatype Request = Request(actionType: ActionKind, targetUrl: string, comment: Option<string>, selectedSessions: seq<string>)

  /** The readings of one step: the `uuidv4()` action id, the clock when
      the session is touched and when the record is stamped, and, when a
      thrown error is caught, the milliseconds since the step started, read
      once for the record (`elapsed`) and once more for the result entry
      (`elapsedAgain`). */
  datatype StepClock = StepClock(actionId: string, touchedAt: int, recordedAt: int, elapsed: int, elapsedAgain: int)

  /** One entry of the `results` array. */
  datatype SessionResult = SessionResult(fbId: string, fbName: Option<string>, success: bool, message: string, executionTime: int)

  datatype Summary = Summary(total: nat, successful: nat, failed: nat, actionType: ActionKind, targetUrl: string)

  /** The 400 answer when no session is left to act with (the clean-up has
      been saved by then), or the completed run. */
  datatype Response =
    | NoActiveSessions(account: Account)
    | Completed(account: Account, results: seq<SessionResult>, summary: Summary)

  /** Which failures deactivate a session. `AsWritten` is the controller's
      rule, applied to thrown errors only; `Intended` applies the same test
      to the failures the executor returns, where its login-page failure
      actually arrives. */
  datatype Policy = AsWritten | Intended

  /** The controller's test on an error message. */
  predicate MentionsInvalidSession(m: string)
  {
    Contains(m, "Session expired") || Contains(m, "invalid")
  }

  predicate Deactivates(policy: Policy, inv: Invocation)
  {
    match inv
    case Threw(m) => MentionsInvalidSession(m)
    case Returned(reply) => policy == Intended && reply.Error? && MentionsInvalidSession(reply.error)
  }

  predicate Succeeded(inv: Invocation)
  {
    inv.Returned? && inv.reply.Done?
  }

  function InSelection(selected: seq<string>): Session -> bool
  {
    (s: Session) => s.fbId in selected
  }

  /** The sessions to act with: the active ones, restricted to the selected
      fbIds when the selection is not empty, in stored order. */
  function SelectSessions(active: seq<Session>, selected: seq<string>): (r: seq<Session>)
    ensures IsSubsequence(r, active)
    ensures forall x :: multiset(r)[x] == if |selected| == 0 || x.fbId in selected then multiset(active)[x] else 0
  {
    if |selected| == 0 then SubsequenceReflexive(active); active
    else Filter(active, InSelection(selected))
  }

  /** The sessions a request acts with: the clean-up reads the clock at
      `now`, the `activeFacebookSessions` view reads it again at `viewedAt`.
      They are, in stored order, exactly the stored sessions that are active,
      unexpired at both readings and selected (when the selection is not
      empty). */
  function Chosen(a: Account, now: int, viewedAt: int, req: Request): (r: seq<Session>)
    ensures forall i :: 0 <= i < |r| ==> Picked(r[i], now, viewedAt, req.selectedSessions)
    ensures forall x :: multiset(r)[x] == (if Picked(x, now, viewedAt, req.selectedSessions) then multiset(a.sessions)[x] else 0)
    ensures IsSubsequence(r, a.sessions)
  {
    var cleaned := CleanupExpiredSessions(a, now);
    var active := ActiveSessions(cleaned, viewedAt);
    var r := SelectSessions(active, req.selectedSessions);
    ChosenCounts(a.sessions, cleaned.sessions, active, r, now, viewedAt, req.selectedSessions);
    SubsequenceTransitive(r, active, cleaned.sessions);
    SubsequenceTransitive(r, cleaned.sessions, a.sessions);
    r
  }

  /** A stored session a request may act with: active, unexpired at both
      readings of the clock, and selected when the selection is not empty. */
  predicate Picked(s: Session, now: int, viewedAt: int, selected: seq<string>)
  {
    s.isActive && s.expiresAt > now && s.expiresAt > viewedAt && (|selected| == 0 || s.fbId in selected)
  }

  /** The three filters of `Chosen` compose to the one test `Picked`. */
  lemma ChosenCounts(stored: seq<Session>, cleaned: seq<Session>, active: seq<Session>, r: seq<Session>,
                     now: int, viewedAt: int, selected: seq<string>)
    requires forall x :: multiset(cleaned)[x] == if x.isActive && x.expiresAt > now then multiset(stored)[x] else 0
    requires forall x :: multiset(active)[x] == if x.isActive && x.expiresAt > viewedAt then multiset(cleaned)[x] else 0
    requires forall x :: multiset(r)[x] == if |selected| == 0 || x.fbId in selected then multiset(active)[x] else 0
    ensures forall i :: 0 <= i < |r| ==> Picked(r[i], now, viewedAt, selected)
    ensures forall x :: multiset(r)[x] == (if Picked(x, now, viewedAt, selected) then multiset(stored)[x] else 0)
  {
    forall i | 0 <= i < |r|
      ensures Picked(r[i], now, viewedAt, selected)
    {
      assert r[i] in multiset(r);
    }
  }


  /** `comment || null`: an empty comment is stored as no comment. */
  function StoredComment(comment: Option<string>): (r: Option<string>)
    ensures r.Some? <==> comment.Some? && comment.value != ""
    ensures r.Some? ==> r == comment
  {
    if comment.Some? && comment.value != "" then comment else None
  }

  /** What the step reports: the reply's message, or the thrown one. */
  function Message(inv: Invocation): string
  {
    match inv
    case Returned(Done(_, result)) => result
    case Returned(Error(_, error)) => error
    case Threw(m) => m
  }

  /** The duration the step reports: the executor's, or the controller's
      own `reading` when the executor threw. */
  function Duration(inv: Invocation, reading: int): int
  {
    if inv.Returned? then inv.reply.executionTime else reading
  }

  /** The history record of one step. */
  function StepRecord(req: Request, targetId: string, s: Session, inv: Invocation, clock: StepClock): (r: ActionRecord)
    ensures r.status == Success <==> Succeeded(inv)
    ensures r.status != Success ==> r.status == Failed
    ensures r.errorMessage.None? <==> r.status == Success
    ensures r.errorMessage.Some? ==> r.errorMessage.value == Message(inv)
    ensures r.fbSessionId == s.fbId && r.maskedFbId == MaskId(s.fbId)
    ensures r.actionType == req.actionType && r.targetUrl == req.targetUrl && r.targetId == targetId
    ensures r.comment.Some? ==> r.comment == req.comment && r.comment.value != ""
    ensures r.actionId == clock.actionId && r.timestamp == clock.recordedAt
  {
    ActionRecord(
      clock.actionId, req.actionType, req.targetUrl, targetId, s.fbId, MaskId(s.fbId),
      StoredComment(req.comment),
      if Succeeded(inv) then Success else Failed,
      if Succeeded(inv) then None else Some(Message(inv)),
      Some(Duration(inv, clock.elapsed)),
      clock.recordedAt)
  }

  /** The result entry of one step. */
  function StepResult(s: Session, inv: Invocation, clock: StepClock): (r: SessionResult)
    ensures r.success <==> Succeeded(inv)
    ensures r.fbId == MaskId(s.fbId) && r.fbName == s.fbName
    ensures r.message == Message(inv)
  {
    SessionResult(MaskId(s.fbId), s.fbName, Succeeded(inv), Message(inv), Duration(inv, clock.elapsedAgain))
  }

  /** The records a run writes, one per chosen session, in order: each
      names its session and the request's target, carries its step's action
      id and stamp, and is a success exactly when its step succeeded, with
      the step's message otherwise. */
  function Records(req: Request, chosen: seq<Session>, exec: (Session, nat) -> Invocation, clock: nat -> StepClock): (r: seq<ActionRecord>)
    ensures |r| == |chosen|
    ensures forall i :: 0 <= i < |r| ==>
      && r[i].fbSessionId == chosen[i].fbId
      && r[i].actionType == req.actionType && r[i].targetId == ExtractTargetId(req.targetUrl)
      && r[i].actionId == clock(i).actionId && r[i].timestamp == clock(i).recordedAt
      && (r[i].status == Success <==> Succeeded(exec(chosen[i], i)))
      && (r[i].status != Success ==> r[i].errorMessage == Some(Message(exec(chosen[i], i))))
  {
    var targetId := ExtractTargetId(req.targetUrl);
    var r := seq(|chosen|, (i: int) requires 0 <= i < |chosen| => StepRecord(req, targetId, chosen[i], exec(chosen[i], i), clock(i)));
    assert forall i :: 0 <= i < |r| ==> r[i] == StepRecord(req, targetId, chosen[i], exec(chosen[i], i), clock(i));
    r
  }

  /** `x` is `y` apart from the two fields a run may change. */
  predicate SameSession(x: Session, y: Session)
  {
    x.(isActive := y.isActive, lastUsed := y.lastUsed) == y
  }

  /** The sessions after one step: the session is touched, then
      deactivated when the failure calls for it. */
  function StepSessions(sessions: seq<Session>, fbId: string, touchedAt: int, deactivate: bool): (r: seq<Session>)
    ensures |r| == |sessions|
    ensures forall j :: 0 <= j < |r| ==> SameSession(r[j], sessions[j])
    ensures forall j :: 0 <= j < |r| && !sessions[j].isActive ==> !r[j].isActive
    ensures forall j :: 0 <= j < |r| && sessions[j].isActive && !r[j].isActive ==>
      deactivate && sessions[j].fbId == fbId && j == FirstIndex(sessions, HasId(fbId))
    ensures deactivate && FirstIndex(sessions, HasId(fbId)) < |sessions| ==> !r[FirstIndex(sessions, HasId(fbId))].isActive
    ensures forall j :: 0 <= j < |r| && sessions[j].fbId != fbId ==> r[j] == sessions[j]
    ensures var k := FirstIndex(sessions, ActiveWithId(fbId));
      && (k < |r| ==> r[k].lastUsed == touchedAt)
      && (forall j :: 0 <= j < |r| && j != k ==> r[j].lastUsed == sessions[j].lastUsed)
  {
    var touched := UpdateSessionLastUsed(sessions, fbId, touchedAt);
    TouchedFacts(sessions, fbId, touchedAt);
    if deactivate then
      DeactivatedFacts(sessions, touched, fbId);
      DeactivateFacebookSession(touched, fbId)
    else
      touched
  }

  /** Touching a session changes its last use only. */
  lemma TouchedFacts(sessions: seq<Session>, fbId: string, now: int)
    ensures var t := UpdateSessionLastUsed(sessions, fbId, now);
      && |t| == |sessions|
      && (forall j :: 0 <= j < |t| ==> SameSession(t[j], sessions[j]) && t[j].isActive == sessions[j].isActive && t[j].fbId == sessions[j].fbId)
      && (forall j :: 0 <= j < |t| && sessions[j].fbId != fbId ==> t[j] == sessions[j])
      && FirstIndex(t, HasId(fbId)) == FirstIndex(sessions, HasId(fbId))
  {
    var t := UpdateSessionLastUsed(sessions, fbId, now);
    forall j | 0 <= j < |t|
      ensures SameSession(t[j], sessions[j]) && t[j].isActive == sessions[j].isActive && t[j].fbId == sessions[j].fbId
    {
      assert t[j].(lastUsed := sessions[j].lastUsed) == sessions[j];
    }
    forall j | 0 <= j < |t| && sessions[j].fbId != fbId
      ensures t[j] == sessions[j]
    {
      assert j != FirstIndex(sessions, ActiveWithId(fbId));
    }
    FirstIndexSameIds(sessions, t, fbId);
  }

  /** Deactivating the first session with an fbId, after touching, changes
      that session's activity only. */
  lemma DeactivatedFacts(sessions: seq<Session>, t: seq<Session>, fbId: string)
    requires |t| == |sessions|
    requires forall j :: 0 <= j < |t| ==> SameSession(t[j], sessions[j]) && t[j].isActive == sessions[j].isActive && t[j].fbId == sessions[j].fbId
    requires forall j :: 0 <= j < |t| && sessions[j].fbId != fbId ==> t[j] == sessions[j]
    requires FirstIndex(t, HasId(fbId)) == FirstIndex(sessions, HasId(fbId))
    ensures var r := DeactivateFacebookSession(t, fbId);
      && |r| == |sessions|
      && (forall j :: 0 <= j < |r| ==> SameSession(r[j], sessions[j]))
      && (forall j :: 0 <= j < |r| && !sessions[j].isActive ==> !r[j].isActive)
      && (forall j :: 0 <= j < |r| && sessions[j].isActive && !r[j].isActive ==>
            sessions[j].fbId == fbId && j == FirstIndex(sessions, HasId(fbId)))
      && (FirstIndex(sessions, HasId(fbId)) < |sessions| ==> !r[FirstIndex(sessions, HasId(fbId))].isActive)
      && (forall j :: 0 <= j < |r| && sessions[j].fbId != fbId ==> r[j] == sessions[j])
      && (forall j :: 0 <= j < |r| ==> r[j].lastUsed == t[j].lastUsed)
  {
    var r := DeactivateFacebookSession(t, fbId);
    var k := FirstIndex(t, HasId(fbId));
    forall j | 0 <= j < |r|
      ensures SameSession(r[j], sessions[j])
      ensures r[j].lastUsed == t[j].lastUsed
      ensures j != k ==> r[j] == t[j]
      ensures j == k ==> t[j].fbId == fbId
    {
      assert r[j].(isActive := t[j].isActive) == t[j];
      assert SameSession(t[j], sessions[j]);
      if j == k {
        assert HasId(fbId)(t[k]);
      }
    }
  }

  /** Whether the `k`-th step deactivates its session. */
  predicate DeactivatesAt(chosen: seq<Session>, exec: (Session, nat) -> Invocation, policy: Policy, k: nat)
    requires k < |chosen|
  {
    Deactivates(policy, exec(chosen[k], k))
  }

  /** Every session is active. */
  predicate AllActive(sessions: seq<Session>)
  {
    forall j :: 0 <= j < |sessions| ==> sessions[j].isActive
  }

  /** No step before `n` is for this fbId. */
  predicate NotChosenBefore(chosen: seq<Session>, n: nat, fbId: string)
    requires n <= |chosen|
  {
    forall k :: 0 <= k < n ==> chosen[k].fbId != fbId
  }

  /** Step `k` is the last of the first `n` steps to be for this fbId. */
  predicate LastStepFor(chosen: seq<Session>, n: nat, k: nat, fbId: string)
    requires n <= |chosen|
  {
    k < n && chosen[k].fbId == fbId && forall i :: k < i < n ==> chosen[i].fbId != fbId
  }

  /** The touch times of the first `n` steps that are for this fbId. */
  function TouchTimes(chosen: seq<Session>, clock: nat -> StepClock, n: nat, fbId: string): set<int>
    requires n <= |chosen|
  {
    if n == 0 then {}
    else TouchTimes(chosen, clock, n - 1, fbId) + if chosen[n - 1].fbId == fbId then {clock(n - 1).touchedAt} else {}
  }

  /** A time is a touch time exactly when one of the first `n` steps, for
      this fbId, touches at it. */
  lemma {:induction false} TouchTimesAreSteps(chosen: seq<Session>, clock: nat -> StepClock, n: nat, fbId: string, t: int)
    requires n <= |chosen|
    ensures t in TouchTimes(chosen, clock, n, fbId) <==> exists k :: 0 <= k < n && chosen[k].fbId == fbId && clock(k).touchedAt == t
    decreases n
  {
    if n > 0 {
      TouchTimesAreSteps(chosen, clock, n - 1, fbId, t);
      if t in TouchTimes(chosen, clock, n - 1, fbId) {
        var k :| 0 <= k < n - 1 && chosen[k].fbId == fbId && clock(k).touchedAt == t;
        assert 0 <= k < n && chosen[k].fbId == fbId && clock(k).touchedAt == t;
      }
    }
  }

  /** After `n` steps, each of `r` was last used when stored or when a step
      for its fbId touched it; and one that is still active and is the first
      with its fbId was last used at the last step for that fbId. */
  predicate LastUses(sessions: seq<Session>, r: seq<Session>, chosen: seq<Session>, clock: nat -> StepClock, n: nat)
    requires |r| == |sessions| && n <= |chosen|
  {
    && (forall j :: 0 <= j < |r| ==>
          r[j].lastUsed == sessions[j].lastUsed || r[j].lastUsed in TouchTimes(chosen, clock, n, sessions[j].fbId))
    && (forall j, k ::
          0 <= j < |r| && 0 <= k < n && r[j].isActive && j == FirstIndex(sessions, HasId(sessions[j].fbId)) &&
          LastStepFor(chosen, n, k, sessions[j].fbId)
          ==> r[j].lastUsed == clock(k).touchedAt)
  }

  /** The sessions after the first `n` steps of a run. Each keeps everything
      but its activity and last use. Starting from active sessions, one is
      inactive exactly when it is the first with its fbId and one of those
      steps, for that fbId, failed in a way that calls for deactivation. A
      session whose fbId none of those steps has is left exactly as it was.
      `SessionsAfterLastUses` says when each was last used. */
  function SessionsAfter(sessions: seq<Session>, chosen: seq<Session>, exec: (Session, nat) -> Invocation,
                         clock: nat -> StepClock, policy: Policy, n: nat): (r: seq<Session>)
    requires n <= |chosen|
    ensures |r| == |sessions|
    ensures forall j :: 0 <= j < |r| ==> SameSession(r[j], sessions[j])
    ensures AllActive(sessions) ==> InactiveExactly(sessions, r, chosen, exec, policy, n)
    ensures forall j :: 0 <= j < |r| && NotChosenBefore(chosen, n, sessions[j].fbId) ==> r[j] == sessions[j]
    decreases n
  {
    if n == 0 then
      NoneDeactivatedAtStart(sessions, chosen, exec, policy);
      sessions
    else
      var before := SessionsAfter(sessions, chosen, exec, clock, policy, n - 1);
      var r := StepSessions(before, chosen[n - 1].fbId, clock(n - 1).touchedAt, DeactivatesAt(chosen, exec, policy, n - 1));
      StepKeepsSame(sessions, before, r, chosen[n - 1].fbId, clock(n - 1).touchedAt, DeactivatesAt(chosen, exec, policy, n - 1));
      if AllActive(sessions) then
        InactiveExactlyStep(sessions, before, chosen, exec, policy, n - 1, clock(n - 1).touchedAt);
        r
      else
        r
  }

  /** Before any step, no session has been deactivated. */
  lemma NoneDeactivatedAtStart(sessions: seq<Session>, chosen: seq<Session>, exec: (Session, nat) -> Invocation, policy: Policy)
    ensures AllActive(sessions) ==> InactiveExactly(sessions, sessions, chosen, exec, policy, 0)
  {
    forall j | 0 <= j < |sessions|
      ensures !DeactivatedBefore(chosen, exec, policy, 0, sessions[j].fbId)
    {
    }
  }

  /** After `n` steps, the last uses are as `LastUses` says. */
  lemma {:induction false} SessionsAfterLastUses(sessions: seq<Session>, chosen: seq<Session>, exec: (Session, nat) -> Invocation,
                                                 clock: nat -> StepClock, policy: Policy, n: nat)
    requires n <= |chosen|
    ensures LastUses(sessions, SessionsAfter(sessions, chosen, exec, clock, policy, n), chosen, clock, n)
    decreases n
  {
    if n > 0 {
      var m := n - 1;
      SessionsAfterLastUses(sessions, chosen, exec, clock, policy, m);
      var before := SessionsAfter(sessions, chosen, exec, clock, policy, m);
      var d := DeactivatesAt(chosen, exec, policy, m);
      var r := SessionsAfter(sessions, chosen, exec, clock, policy, n);
      SessionsAfterUnfold(sessions, chosen, exec, clock, policy, m, n);
      LastUsesStep(sessions, before, r, chosen, clock, m, n, d);
    }
  }

  /** Step `m` takes the sessions after `m` steps to those after `n = m + 1`. */
  lemma SessionsAfterUnfold(sessions: seq<Session>, chosen: seq<Session>, exec: (Session, nat) -> Invocation,
                            clock: nat -> StepClock, policy: Policy, m: nat, n: nat)
    requires n == m + 1 <= |chosen|
    ensures SessionsAfter(sessions, chosen, exec, clock, policy, n) ==
      StepSessions(SessionsAfter(sessions, chosen, exec, clock, policy, m), chosen[m].fbId, clock(m).touchedAt,
                   DeactivatesAt(chosen, exec, policy, m))
  {
  }

  /** The first session with an fbId, when it is active, is the first
      active one with that fbId. */
  lemma FirstActiveIsFirst(s: seq<Session>, j: nat)
    requires j < |s| && s[j].isActive && j == FirstIndex(s, HasId(s[j].fbId))
    ensures FirstIndex(s, ActiveWithId(s[j].fbId)) == j
  {
    var k := FirstIndex(s, ActiveWithId(s[j].fbId));
    assert ActiveWithId(s[j].fbId)(s[j]);
    assert k < |s| ==> HasId(s[j].fbId)(s[k]);
  }

  /** One step keeps `LastUses`: the session it touches was last used at
      this step, which is now the last for its fbId. */
  lemma LastUsesStep(sessions: seq<Session>, before: seq<Session>, r: seq<Session>, chosen: seq<Session>,
                     clock: nat -> StepClock, m: nat, n: nat, deactivate: bool)
    requires n == m + 1 <= |chosen| && |before| == |sessions|
    requires forall j :: 0 <= j < |before| ==> SameSession(before[j], sessions[j])
    requires LastUses(sessions, before, chosen, clock, m)
    requires r == StepSessions(before, chosen[m].fbId, clock(m).touchedAt, deactivate)
    ensures |r| == |sessions| && LastUses(sessions, r, chosen, clock, n)
  {
    var f := chosen[m].fbId;
    var touched := FirstIndex(before, ActiveWithId(f));
    assert forall j :: 0 <= j < |before| ==> before[j].fbId == sessions[j].fbId;
    forall j | 0 <= j < |r|
      ensures r[j].lastUsed == sessions[j].lastUsed || r[j].lastUsed in TouchTimes(chosen, clock, n, sessions[j].fbId)
    {
      if j == touched {
        assert ActiveWithId(f)(before[j]);
      }
    }
    forall j, k | 0 <= j < |r| && 0 <= k < m + 1 && r[j].isActive && j == FirstIndex(sessions, HasId(sessions[j].fbId)) &&
                  LastStepFor(chosen, m + 1, k, sessions[j].fbId)
      ensures r[j].lastUsed == clock(k).touchedAt
    {
      var g := sessions[j].fbId;
      assert before[j].isActive;
      if g == f {
        assert k == m;
        FirstIndexSameIds(sessions, before, g);
        FirstActiveIsFirst(before, j);
      } else {
        assert r[j] == before[j];
        assert LastStepFor(chosen, m, k, g);
      }
    }
  }

  /** One step keeps every session the same apart from activity and last
      use, and leaves the sessions of other fbIds as they were. */
  lemma StepKeepsSame(sessions: seq<Session>, before: seq<Session>, r: seq<Session>, fbId: string, touchedAt: int, deactivate: bool)
    requires |before| == |sessions|
    requires forall j :: 0 <= j < |before| ==> SameSession(before[j], sessions[j])
    requires r == StepSessions(before, fbId, touchedAt, deactivate)
    ensures forall j :: 0 <= j < |r| ==> SameSession(r[j], sessions[j])
    ensures forall j :: 0 <= j < |r| && sessions[j].fbId != fbId ==> r[j] == before[j]
  {
    forall j | 0 <= j < |r|
      ensures SameSession(r[j], sessions[j])
    {
      assert r[j].(isActive := before[j].isActive, lastUsed := before[j].lastUsed) == before[j];
    }
  }

  lemma SessionsAfterStep(sessions: seq<Session>, chosen: seq<Session>, exec: (Session, nat) -> Invocation,
                          clock: nat -> StepClock, policy: Policy, n: nat)
    requires 0 < n <= |chosen|
    ensures SessionsAfter(sessions, chosen, exec, clock, policy, n)
      == StepSessions(SessionsAfter(sessions, chosen, exec, clock, policy, n - 1), chosen[n - 1].fbId,
                      clock(n - 1).touchedAt, DeactivatesAt(chosen, exec, policy, n - 1))
  {
  }

  /** Some step before `n` deactivates a session with this fbId. */
  predicate DeactivatedBefore(chosen: seq<Session>, exec: (Session, nat) -> Invocation, policy: Policy, n: nat, fbId: string)
    requires n <= |chosen|
  {
    exists k :: 0 <= k < n && chosen[k].fbId == fbId && DeactivatesAt(chosen, exec, policy, k)
  }

  /** After `n` steps, each of `r` is inactive exactly when it is the first
      session with its fbId and one of those steps, for that fbId, failed in
      a way that calls for deactivation. */
  predicate InactiveExactly(sessions: seq<Session>, r: seq<Session>, chosen: seq<Session>,
                            exec: (Session, nat) -> Invocation, policy: Policy, n: nat)
    requires |r| == |sessions| && n <= |chosen|
  {
    forall j :: 0 <= j < |sessions| ==>
      (!r[j].isActive <==>
        j == FirstIndex(sessions, HasId(sessions[j].fbId)) && DeactivatedBefore(chosen, exec, policy, n, sessions[j].fbId))
  }

  /** Step `m` keeps the sessions inactive exactly as above. */
  lemma InactiveExactlyStep(sessions: seq<Session>, before: seq<Session>, chosen: seq<Session>,
                            exec: (Session, nat) -> Invocation, policy: Policy, m: nat, touchedAt: int)
    requires m < |chosen| && |before| == |sessions|
    requires forall j :: 0 <= j < |before| ==> SameSession(before[j], sessions[j])
    requires InactiveExactly(sessions, before, chosen, exec, policy, m)
    ensures InactiveExactly(sessions, StepSessions(before, chosen[m].fbId, touchedAt, DeactivatesAt(chosen, exec, policy, m)),
                            chosen, exec, policy, m + 1)
  {
    var id := chosen[m].fbId;
    var d := DeactivatesAt(chosen, exec, policy, m);
    var r := StepSessions(before, id, touchedAt, d);
    assert forall j :: 0 <= j < |sessions| ==> before[j].fbId == sessions[j].fbId;
    forall j | 0 <= j < |sessions|
      ensures !r[j].isActive <==>
        j == FirstIndex(sessions, HasId(sessions[j].fbId)) && DeactivatedBefore(chosen, exec, policy, m + 1, sessions[j].fbId)
    {
      DeactivatedBeforeStep(chosen, exec, policy, m + 1, sessions[j].fbId);
      var earlier := DeactivatedBefore(chosen, exec, policy, m, sessions[j].fbId);
      assert !before[j].isActive <==> j == FirstIndex(sessions, HasId(sessions[j].fbId)) && earlier;
      InactiveAfterStep(sessions, before, id, touchedAt, d, j, earlier);
    }
  }

  /** One more step adds its own failure to those before it. */
  lemma DeactivatedBeforeStep(chosen: seq<Session>, exec: (Session, nat) -> Invocation, policy: Policy, n: nat, fbId: string)
    requires 0 < n <= |chosen|
    ensures DeactivatedBefore(chosen, exec, policy, n, fbId) <==>
      DeactivatedBefore(chosen, exec, policy, n - 1, fbId) || (chosen[n - 1].fbId == fbId && DeactivatesAt(chosen, exec, policy, n - 1))
  {
    if DeactivatedBefore(chosen, exec, policy, n, fbId) {
      var k :| 0 <= k < n && chosen[k].fbId == fbId && DeactivatesAt(chosen, exec, policy, k);
      if k < n - 1 {
        assert DeactivatedBefore(chosen, exec, policy, n - 1, fbId);
      }
    }
  }

  /** One step keeps "inactive exactly when first with its fbId and some
      failure for that fbId called for deactivation", the step's own failure
      joining the earlier ones. */
  lemma InactiveAfterStep(sessions: seq<Session>, before: seq<Session>, fbId: string, touchedAt: int,
                          deactivate: bool, j: nat, earlier: bool)
    requires |before| == |sessions| && j < |sessions|
    requires forall i :: 0 <= i < |sessions| ==> before[i].fbId == sessions[i].fbId
    requires !before[j].isActive <==> j == FirstIndex(sessions, HasId(sessions[j].fbId)) && earlier
    ensures var r := StepSessions(before, fbId, touchedAt, deactivate);
      !r[j].isActive <==>
        j == FirstIndex(sessions, HasId(sessions[j].fbId)) && (earlier || (fbId == sessions[j].fbId && deactivate))
  {
    FirstIndexSameIds(sessions, before, sessions[j].fbId);
    FirstIndexSameIds(sessions, before, fbId);
  }

  /** The history after the run's records are added one by one. */
  function HistoryAfter(h: seq<ActionRecord>, records: seq<ActionRecord>): (r: seq<ActionRecord>)
    ensures |h| + |records| <= HistoryCap ==> r == h + records
    ensures |records| > 0 ==> |r| == Min(HistoryCap, |h| + |records|)
    ensures |records| == 0 ==> r == h
    ensures multiset(r) <= multiset(h + records)
    ensures KeepsLargest(h + records, r, Timestamp)
    decreases |records|
  {
    if |records| == 0 then
      assert h + records == h;
      assert KeepsLargest(h, h, Timestamp);
      h
    else
      var init := records[..|records| - 1];
      var last := records[|records| - 1];
      assert records == init + [last];
      assert h + records == (h + init) + [last];
      var before := HistoryAfter(h, init);
      var r := Logged(before, last);
      assert multiset(before + [last]) <= multiset(h + records);
      KeepsLargestAppend(h + init, before, last, r, Timestamp);
      r
  }

  /** One step on the account: the sessions as above, then the record. */
  function Step(a: Account, s: Session, rec: ActionRecord, touchedAt: int, deactivate: bool): (r: Account)
    ensures r.sessions == StepSessions(a.sessions, s.fbId, touchedAt, deactivate)
    ensures var k := FirstIndex(a.sessions, ActiveWithId(s.fbId));
      && (k < |r.sessions| ==> r.sessions[k].lastUsed == touchedAt)
      && (forall j :: 0 <= j < |r.sessions| && j != k ==> r.sessions[j].lastUsed == a.sessions[j].lastUsed)
    ensures r.statistics.totalActions == a.statistics.totalActions + 1
    ensures r.statistics.successfulActions == a.statistics.successfulActions + (if rec.status == Success then 1 else 0)
    ensures r.statistics.failedActions == a.statistics.failedActions + (if rec.status == Failed then 1 else 0)
    ensures r.history == Logged(a.history, rec)
    ensures r.settings == a.settings
  {
    AddActionHistory(a.(sessions := StepSessions(a.sessions, s.fbId, touchedAt, deactivate)), rec)
  }

  function IsSuccess(r: SessionResult): bool { r.success }

  /** The results of the first `n` steps. */
  predicate ResultsSoFar(results: seq<SessionResult>, chosen: seq<Session>, exec: (Session, nat) -> Invocation,
                         clock: nat -> StepClock, n: nat)
    requires n <= |chosen|
  {
    |results| == n && forall j :: 0 <= j < n ==> results[j] == StepResult(chosen[j], exec(chosen[j], j), clock(j))
  }

  lemma ResultsSoFarStep(results: seq<SessionResult>, chosen: seq<Session>, exec: (Session, nat) -> Invocation,
                         clock: nat -> StepClock, n: nat)
    requires n < |chosen| && ResultsSoFar(results, chosen, exec, clock, n)
    ensures ResultsSoFar(results + [StepResult(chosen[n], exec(chosen[n], n), clock(n))], chosen, exec, clock, n + 1)
  {
  }

  /** The records of the first `n` steps, for a request whose target id is
      `targetId`. */
  predicate RecordsSoFar(records: seq<ActionRecord>, req: Request, targetId: string, chosen: seq<Session>,
                         exec: (Session, nat) -> Invocation, clock: nat -> StepClock, n: nat)
    requires n <= |chosen|
  {
    |records| == n && forall j :: 0 <= j < n ==>
      records[j] == StepRecord(req, targetId, chosen[j], exec(chosen[j], j), clock(j))
  }

  lemma RecordsSoFarStep(records: seq<ActionRecord>, req: Request, targetId: string, chosen: seq<Session>,
                         exec: (Session, nat) -> Invocation, clock: nat -> StepClock, n: nat)
    requires n < |chosen| && RecordsSoFar(records, req, targetId, chosen, exec, clock, n)
    ensures RecordsSoFar(records + [StepRecord(req, targetId, chosen[n], exec(chosen[n], n), clock(n))],
                         req, targetId, chosen, exec, clock, n + 1)
  {
    var rec := StepRecord(req, targetId, chosen[n], exec(chosen[n], n), clock(n));
    var f := (j: nat) => if j < |chosen| then StepRecord(req, targetId, chosen[j], exec(chosen[j], j), clock(j)) else rec;
    AppendPointwise(records, rec, f, n);
  }

  /** Appending the `n`-th element of `f` to its first `n` elements gives
      its first `n + 1`. */
  lemma AppendPointwise<T>(s: seq<T>, x: T, f: nat -> T, n: nat)
    requires |s| == n && forall j :: 0 <= j < n ==> s[j] == f(j)
    requires x == f(n)
    ensures forall j :: 0 <= j < n + 1 ==> (s + [x])[j] == f(j)
  {
  }

  /** `performAction` after validation. Expired sessions are removed and
      saved first; with no session to act with, nothing else happens.
      Otherwise every chosen session, in order, gets exactly one result and
      one record: the counters move by the run's successes and failures, the
      history takes the run's records one by one, and the sessions go
      through the run's steps. */
  method PerformAction(a: Account, now: int, viewedAt: int, req: Request, exec: (Session, nat) -> Invocation,
                       clock: nat -> StepClock, policy: Policy) returns (resp: Response)
    ensures resp.NoActiveSessions? <==> |Chosen(a, now, viewedAt, req)| == 0
    ensures resp.NoActiveSessions? ==> resp.account == CleanupExpiredSessions(a, now)
    ensures resp.Completed? ==>
      var chosen := Chosen(a, now, viewedAt, req);
      && |resp.results| == |chosen|
      && (forall i :: 0 <= i < |chosen| ==> resp.results[i] == StepResult(chosen[i], exec(chosen[i], i), clock(i)))
      && resp.summary.total == |chosen|
      && resp.summary.successful + resp.summary.failed == resp.summary.total
      && resp.summary.successful == Count(resp.results, IsSuccess)
    ensures resp.Completed? ==>
      var st := a.statistics;
      && resp.account.statistics.totalActions == st.totalActions + resp.summary.total
      && resp.account.statistics.successfulActions == st.successfulActions + resp.summary.successful
      && resp.account.statistics.failedActions == st.failedActions + resp.summary.failed
    ensures resp.Completed? ==>
      && resp.account.history == HistoryAfter(a.history, Records(req, Chosen(a, now, viewedAt, req), exec, clock))
      && resp.account.sessions == SessionsAfter(CleanupExpiredSessions(a, now).sessions, Chosen(a, now, viewedAt, req), exec, clock, policy, |Chosen(a, now, viewedAt, req)|)
      && resp.account.settings == a.settings
  {
    var cleaned := CleanupExpiredSessions(a, now);
    var chosen := SelectSessions(ActiveSessions(cleaned, viewedAt), req.selectedSessions);
    if |chosen| == 0 {
      return NoActiveSessions(cleaned);
    }
    var acc, results, successes := RunSteps(cleaned, req, chosen, exec, clock, policy);
    resp := Completed(acc, results, Summary(|results|, successes, |results| - successes, req.actionType, req.targetUrl));
  }

  /** The state of the loop of `performAction` after `i` steps: the
      results and records of those steps, the successes among them counted,
      and the account's counters, history and sessions moved by them. */
  predicate RunSoFar(start: Account, req: Request, targetId: string, chosen: seq<Session>, exec: (Session, nat) -> Invocation,
                     clock: nat -> StepClock, policy: Policy, i: nat,
                     acc: Account, results: seq<SessionResult>, records: seq<ActionRecord>, successes: nat)
    requires i <= |chosen|
  {
    && successes <= i
    && ResultsSoFar(results, chosen, exec, clock, i)
    && RecordsSoFar(records, req, targetId, chosen, exec, clock, i)
    && successes == Count(results, IsSuccess)
    && acc.statistics.totalActions == start.statistics.totalActions + i
    && acc.statistics.successfulActions == start.statistics.successfulActions + successes
    && acc.statistics.failedActions == start.statistics.failedActions + (i - successes)
    && acc.history == HistoryAfter(start.history, records)
    && acc.sessions == SessionsAfter(start.sessions, chosen, exec, clock, policy, i)
    && acc.settings == start.settings
  }

  /** The result of the `i`-th step. */
  function ResultAt(chosen: seq<Session>, exec: (Session, nat) -> Invocation, clock: nat -> StepClock, i: nat): SessionResult
    requires i < |chosen|
  {
    StepResult(chosen[i], exec(chosen[i], i), clock(i))
  }

  /** The record of the `i`-th step. */
  function RecordAt(req: Request, targetId: string, chosen: seq<Session>, exec: (Session, nat) -> Invocation,
                    clock: nat -> StepClock, i: nat): ActionRecord
    requires i < |chosen|
  {
    StepRecord(req, targetId, chosen[i], exec(chosen[i], i), clock(i))
  }

  /** A step of the loop takes the sessions from `i` steps to `i + 1` and
      adds its record to the history. */
  lemma StepFollowsRun(acc: Account, start: Account, chosen: seq<Session>, exec: (Session, nat) -> Invocation,
                       clock: nat -> StepClock, policy: Policy, i: nat, records: seq<ActionRecord>, rec: ActionRecord)
    requires i < |chosen| && acc.sessions == SessionsAfter(start.sessions, chosen, exec, clock, policy, i)
    requires acc.history == HistoryAfter(start.history, records)
    ensures var r := Step(acc, chosen[i], rec, clock(i).touchedAt, DeactivatesAt(chosen, exec, policy, i));
      && r.sessions == SessionsAfter(start.sessions, chosen, exec, clock, policy, i + 1)
      && r.history == HistoryAfter(start.history, records + [rec])
  {
    SessionsAfterStep(start.sessions, chosen, exec, clock, policy, i + 1);
    assert (records + [rec])[..|records|] == records;
  }

  /** One step keeps the loop state. */
  lemma RunSoFarStep(start: Account, req: Request, targetId: string, chosen: seq<Session>, exec: (Session, nat) -> Invocation,
                     clock: nat -> StepClock, policy: Policy, i: nat,
                     acc: Account, results: seq<SessionResult>, records: seq<ActionRecord>, successes: nat)
    requires i < |chosen|
    requires RunSoFar(start, req, targetId, chosen, exec, clock, policy, i, acc, results, records, successes)
    ensures var rec := RecordAt(req, targetId, chosen, exec, clock, i);
      var res := ResultAt(chosen, exec, clock, i);
      RunSoFar(start, req, targetId, chosen, exec, clock, policy, i + 1,
               Step(acc, chosen[i], rec, clock(i).touchedAt, DeactivatesAt(chosen, exec, policy, i)),
               results + [res], records + [rec], successes + (if res.success then 1 else 0))
  {
    var rec := RecordAt(req, targetId, chosen, exec, clock, i);
    var res := ResultAt(chosen, exec, clock, i);
    StepFollowsRun(acc, start, chosen, exec, clock, policy, i, records, rec);
    CountAppend(results, [res], IsSuccess);
    ResultsSoFarStep(results, chosen, exec, clock, i);
    RecordsSoFarStep(records, req, targetId, chosen, exec, clock, i);
  }

  /** The loop of `performAction`: one step per chosen session, in order. */
  method RunSteps(start: Account, req: Request, chosen: seq<Session>, exec: (Session, nat) -> Invocation,
                  clock: nat -> StepClock, policy: Policy)
    returns (acc: Account, results: seq<SessionResult>, successes: nat)
    ensures ResultsSoFar(results, chosen, exec, clock, |chosen|)
    ensures successes == Count(results, IsSuccess)
    ensures acc.statistics.totalActions == start.statistics.totalActions + |chosen|
    ensures acc.statistics.successfulActions == start.statistics.successfulActions + successes
    ensures acc.statistics.failedActions == start.statistics.failedActions + (|chosen| - successes)
    ensures acc.history == HistoryAfter(start.history, Records(req, chosen, exec, clock))
    ensures acc.sessions == SessionsAfter(start.sessions, chosen, exec, clock, policy, |chosen|)
    ensures acc.settings == start.settings
  {
    acc := start;
    results := [];
    successes := 0;
    var records: seq<ActionRecord> := [];
    var targetId := ExtractTargetId(req.targetUrl);
    var i := 0;
    while i < |chosen|
      invariant i <= |chosen|
      invariant RunSoFar(start, req, targetId, chosen, exec, clock, policy, i, acc, results, records, successes)
    {
      var rec := RecordAt(req, targetId, chosen, exec, clock, i);
      var res := ResultAt(chosen, exec, clock, i);
      RunSoFarStep(start, req, targetId, chosen, exec, clock, policy, i, acc, results, records, successes);
      acc := Step(acc, chosen[i], rec, clock(i).touchedAt, DeactivatesAt(chosen, exec, policy, i));
      if res.success {
        successes := successes + 1;
      }
      results := results + [res];
      records := records + [rec];
      i := i + 1;
    }
    assert records == Records(req, chosen, exec, clock);
  }

  /** What a completed run leaves of the sessions: each keeps everything
      but its activity and last use; one is inactive exactly when it is the
      first stored session with its fbId and a step for that fbId failed in a
      way that calls for deactivation; one whose fbId no step has is left
      exactly as it was; and the last uses are as `LastUses` says. */
  lemma RunSessions(a: Account, now: int, viewedAt: int, req: Request, exec: (Session, nat) -> Invocation,
                    clock: nat -> StepClock, policy: Policy)
    ensures var cleaned := CleanupExpiredSessions(a, now).sessions;
      var chosen := Chosen(a, now, viewedAt, req);
      var r := SessionsAfter(cleaned, chosen, exec, clock, policy, |chosen|);
      && |r| == |cleaned|
      && (forall j :: 0 <= j < |cleaned| ==> SameSession(r[j], cleaned[j]))
      && InactiveExactly(cleaned, r, chosen, exec, policy, |chosen|)
      && (forall j :: 0 <= j < |cleaned| && NotChosenBefore(chosen, |chosen|, cleaned[j].fbId) ==> r[j] == cleaned[j])
      && LastUses(cleaned, r, chosen, clock, |chosen|)
  {
    var cleaned := CleanupExpiredSessions(a, now).sessions;
    assert AllActive(cleaned);
    SessionsAfterLastUses(cleaned, Chosen(a, now, viewedAt, req), exec, clock, policy, |Chosen(a, now, viewedAt, req)|);
  }

  // ---------------------------------------------------------------------
  // Which failures deactivate a session

  /** As written, no call of the executor ever deactivates a session: the
      only error it throws is the browser failure, which mentions neither
      an expired session nor an invalid one, and everything else, the login
      page included, comes back as a returned failure. */
  lemma AsWrittenNeverDeactivates(actionType: string, comment: Option<string>, run: Run)
    ensures !Deactivates(AsWritten, Perform(actionType, comment, run))
  {
    ThrownMessageIsBrowserFailure(actionType, comment, run);
  }

  /** The input that shows it: a session whose page lands on the login page
      is reported as "Session expired or invalid", yet stays active. */
  lemma LoginLandingKeepsSessionAsWritten(actionType: string, comment: Option<string>, run: Run)
    requires run.launched && run.landing.Ok? && SentToLogin(run.landing.value)
    ensures Perform(actionType, comment, run) == Returned(Error(run.elapsed, SessionExpired))
    ensures MentionsInvalidSession(Message(Perform(actionType, comment, run)))
    ensures !Deactivates(AsWritten, Perform(actionType, comment, run))
  {
    SessionExpiredMentionsExpiry();
    AsWrittenNeverDeactivates(actionType, comment, run);
  }

  /** With the test applied to returned failures, a landing on the login or
      checkpoint page deactivates the session, and the browser failure
      still does not. */
  lemma IntendedDeactivatesOnLogin(actionType: string, comment: Option<string>, run: Run)
    ensures run.launched && run.landing.Ok? && SentToLogin(run.landing.value) ==>
      Deactivates(Intended, Perform(actionType, comment, run))
    ensures !run.launched ==> !Deactivates(Intended, Perform(actionType, comment, run))
  {
    SessionExpiredMentionsExpiry();
    ThrownMessageIsBrowserFailure(actionType, comment, run);
  }
}

=== FILE: encoding.dfy ===
/** The byte encodings behind `Buffer.from(url).toString('base64')`: the
    UTF-8 encoding of a string (RFC 3629) and the base64 encoding of a byte
    sequence with the standard alphabet and `=` padding (section 4 of
    RFC 4648), each with its decoder. */
module Encoding {
  import opened Common

  type byte = x: int | 0 <= x < 256

  /** A Unicode scalar value: what a `char` holds. */
  predicate IsScalar(v: int)
  {
    0 <= v < 0xD800 || 0xE000 <= v < 0x11_0000
  }

  /** A UTF-8 continuation byte `10xxxxxx`. */
  predicate IsContinuation(b: byte)
  {
    0x80 <= b < 0xC0
  }

  /** The UTF-8 encoding of one character: one to four bytes, the number
      fixed by the size of the code point. */
  function Utf8Char(c: char): (r: seq<byte>)
    ensures 1 <= |r| <= 4
    ensures |r| == 1 <==> (c as int) < 0x80
    ensures forall k :: 1 <= k < |r| ==> IsContinuation(r[k])
  {
    var n := c as int;
    if n < 0x80 then [n]
    else if n < 0x800 then [0xC0 + n / 64, 0x80 + n % 64]
    else if n < 0x1_0000 then [0xE0 + n / 4096, 0x80 + (n / 64) % 64, 0x80 + n % 64]
    else [0xF0 + n / 262144, 0x80 + (n / 4096) % 64, 0x80 + (n / 64) % 64, 0x80 + n % 64]
  }

  /** The UTF-8 encoding of a string: at least one byte per character, and
      exactly one per character for ASCII text. */
  function Utf8Encode(s: string): (r: seq<byte>)
    ensures |r| >= |s|
    ensures (forall i :: 0 <= i < |s| ==> (s[i] as int) < 0x80) ==> |r| == |s|
    decreases |s|
  {
    if |s| == 0 then [] else Utf8Char(s[0]) + Utf8Encode(s[1..])
  }

  /** The character at the front of `b` and the number of bytes it takes,
      or `None` when `b` does not start with a well-formed, shortest-form
      UTF-8 sequence for a scalar value. */
  function DecodeFirst(b: seq<byte>): (r: Option<(char, nat)>)
    ensures r.Some? ==> 1 <= r.value.1 <= |b| && r.value.1 <= 4
  {
    if |b| == 0 then None
    else if b[0] < 0x80 then Some((b[0] as char, 1))
    else if 0xC0 <= b[0] < 0xE0 then
      if |b| >= 2 && IsContinuation(b[1]) then
        var v := (b[0] as int - 0xC0) * 64 + (b[1] as int - 0x80);
        if 0x80 <= v then Some((v as char, 2)) else None
      else None
    else if 0xE0 <= b[0] < 0xF0 then
      if |b| >= 3 && IsContinuation(b[1]) && IsContinuation(b[2]) then
        var v := (b[0] as int - 0xE0) * 4096 + (b[1] as int - 0x80) * 64 + (b[2] as int - 0x80);
        if 0x800 <= v && IsScalar(v) then Some((v as char, 3)) else None
      else None
    else if 0xF0 <= b[0] < 0xF8 then
      if |b| >= 4 && IsContinuation(b[1]) && IsContinuation(b[2]) && IsContinuation(b[3]) then
        var v := (b[0] as int - 0xF0) * 262144 + (b[1] as int - 0x80) * 4096 + (b[2] as int - 0x80) * 64
          + (b[3] as int - 0x80);
        if 0x1_0000 <= v && IsScalar(v) then Some((v as char, 4)) else None
      else None
    else None
  }

  /** UTF-8 decoding of a whole byte sequence. */
  function Utf8Decode(b: seq<byte>): (r: Option<string>)
    ensures r.Some? ==> |r.value| <= |b|
    decreases |b|
  {
    if |b| == 0 then Some("")
    else match DecodeFirst(b)
      case None => None
      case Some((c, n)) =>
        match Utf8Decode(b[n..])
        case None => None
        case Some(rest) => Some([c] + rest)
  }

  /** The encoding of a character decodes to that character, whatever
      follows it. */
  lemma DecodeFirstOfChar(c: char, rest: seq<byte>)
    ensures DecodeFirst(Utf8Char(c) + rest) == Some((c, |Utf8Char(c)|))
  {
    var n := c as int;
    if n < 0x80 {
    } else if n < 0x800 {
      DecodeTwo(c, rest);
    } else if n < 0x1_0000 {
      DecodeThree(c, rest);
    } else {
      DecodeFour(c, rest);
    }
  }

  lemma DecodeTwo(c: char, rest: seq<byte>)
    requires 0x80 <= c as int < 0x800
    ensures DecodeFirst(Utf8Char(c) + rest) == Some((c, 2))
  {
    var n := c as int;
    var b := Utf8Char(c) + rest;
    assert b[0] == 0xC0 + n / 64 && b[1] == 0x80 + n % 64;
    assert (b[0] as int - 0xC0) * 64 + (b[1] as int - 0x80) == n;
  }

  lemma DecodeThree(c: char, rest: seq<byte>)
    requires 0x800 <= c as int < 0x1_0000
    ensures DecodeFirst(Utf8Char(c) + rest) == Some((c, 3))
  {
    var n := c as int;
    var b := Utf8Char(c) + rest;
    assert b[0] == 0xE0 + n / 4096 && b[1] == 0x80 + (n / 64) % 64 && b[2] == 0x80 + n % 64;
    assert n % 4096 == ((n / 64) % 64) * 64 + n % 64;
    assert (b[0] as int - 0xE0) * 4096 + (b[1] as int - 0x80) * 64 + (b[2] as int - 0x80) == n;
  }

  lemma DecodeFour(c: char, rest: seq<byte>)
    requires 0x1_0000 <= c as int
    ensures DecodeFirst(Utf8Char(c) + rest) == Some((c, 4))
  {
    var n := c as int;
    var b := Utf8Char(c) + rest;
    assert b[0] == 0xF0 + n / 262144 && b[1] == 0x80 + (n / 4096) % 64;
    assert b[2] == 0x80 + (n / 64) % 64 && b[3] == 0x80 + n % 64;
    FourDigits(n);
  }

  /** A natural number split into its three lowest base-64 digits and the rest. */
  lemma FourDigits(n: int)
    requires 0 <= n
    ensures (n / 262144) * 262144 + ((n / 4096) % 64) * 4096 + ((n / 64) % 64) * 64 + n % 64 == n
  {
    var a := n / 64;
    var b := a / 64;
    var c := b / 64;
    assert n == 64 * a + n % 64;
    assert a == 64 * b + a % 64;
    assert b == 64 * c + b % 64;
    assert n == 4096 * b + 64 * (a % 64) + n % 64;
    assert n / 4096 == b;
    assert n == 262144 * c + 4096 * (b % 64) + 64 * (a % 64) + n % 64;
    assert n / 262144 == c;
  }

  /** Decoding undoes encoding. */
  lemma {:induction false} Utf8RoundTrip(s: string)
    ensures Utf8Decode(Utf8Encode(s)) == Some(s)
    decreases |s|
  {
    if |s| > 0 {
      var b := Utf8Encode(s);
      DecodeFirstOfChar(s[0], Utf8Encode(s[1..]));
      assert b[|Utf8Char(s[0])|..] == Utf8Encode(s[1..]);
      Utf8RoundTrip(s[1..]);
      assert [s[0]] + s[1..] == s;
    }
  }

  /** The character of the base64 alphabet for a 6-bit value: `A`-`Z`,
      `a`-`z`, `0`-`9`, `+`, `/`. */
  function Base64Digit(v: int): (c: char)
    requires 0 <= v < 64
  {
    if v < 26 then ('A' as int + v) as char
    else if v < 52 then ('a' as int + (v - 26)) as char
    else if v < 62 then ('0' as int + (v - 52)) as char
    else if v == 62 then '+'
    else '/'
  }

  /** The 6-bit value of a base64 alphabet character. */
  function Base64Value(c: char): (r: Option<int>)
    ensures r.Some? ==> 0 <= r.value < 64 && Base64Digit(r.value) == c
  {
    if 'A' <= c <= 'Z' then Some(c as int - 'A' as int)
    else if 'a' <= c <= 'z' then Some(c as int - 'a' as int + 26)
    else if '0' <= c <= '9' then Some(c as int - '0' as int + 52)
    else if c == '+' then Some(62)
    else if c == '/' then Some(63)
    else None
  }

  /** The value of an alphabet character's digit is the value it stands for. */
  lemma DigitValue(v: int)
    requires 0 <= v < 64
    ensures Base64Value(Base64Digit(v)) == Some(v)
  {
  }

  predicate IsBase64Char(c: char)
  {
    Base64Value(c).Some? || c == '='
  }

  /** The four characters for three bytes. */
  function Group3(x: byte, y: byte, z: byte): (r: string)
    ensures |r| == 4 && forall i :: 0 <= i < 4 ==> Base64Value(r[i]).Some?
  {
    DigitValue(x / 4);
    DigitValue((x % 4) * 16 + y / 16);
    DigitValue((y % 16) * 4 + z / 64);
    DigitValue(z % 64);
    [Base64Digit(x / 4), Base64Digit((x % 4) * 16 + y / 16), Base64Digit((y % 16) * 4 + z / 64), Base64Digit(z % 64)]
  }

  /** The four characters for a final two bytes: three digits and `=`. */
  function Group2(x: byte, y: byte): (r: string)
    ensures |r| == 4 && r[3] == '=' && forall i :: 0 <= i < 3 ==> Base64Value(r[i]).Some?
  {
    DigitValue(x / 4);
    DigitValue((x % 4) * 16 + y / 16);
    DigitValue((y % 16) * 4);
    [Base64Digit(x / 4), Base64Digit((x % 4) * 16 + y / 16), Base64Digit((y % 16) * 4), '=']
  }

  /** The four characters for a final byte: two digits and `==`. */
  function Group1(x: byte): (r: string)
    ensures |r| == 4 && r[2] == '=' && r[3] == '=' && forall i :: 0 <= i < 2 ==> Base64Value(r[i]).Some?
  {
    DigitValue(x / 4);
    DigitValue((x % 4) * 16);
    [Base64Digit(x / 4), Base64Digit((x % 4) * 16), '=', '=']
  }

  /** Base64 with padding: every three bytes become four characters, and a
      final group of one or two bytes is padded to four characters with
      `=`. */
  function Base64Encode(b: seq<byte>): (r: string)
    ensures |r| == 4 * ((|b| + 2) / 3)
    ensures forall i :: 0 <= i < |r| ==> IsBase64Char(r[i])
    decreases |b|
  {
    if |b| == 0 then ""
    else if |b| == 1 then Group1(b[0])
    else if |b| == 2 then Group2(b[0], b[1])
    else
      var head := Group3(b[0], b[1], b[2]);
      var rest := Base64Encode(b[3..]);
      assert (|b| + 2) / 3 == (|b[3..]| + 2) / 3 + 1;
      assert forall i :: 0 <= i < |head| + |rest| ==> IsBase64Char((head + rest)[i]) by {
        forall i | 0 <= i < |head| + |rest|
          ensures IsBase64Char((head + rest)[i])
        {
          if i < |head| { assert (head + rest)[i] == head[i]; } else { assert (head + rest)[i] == rest[i - |head|]; }
        }
      }
      head + rest
  }

  /** The three bytes four 6-bit values stand for. */
  function Sextets3(v0: int, v1: int, v2: int, v3: int): seq<byte>
    requires 0 <= v0 < 64 && 0 <= v1 < 64 && 0 <= v2 < 64 && 0 <= v3 < 64
  {
    [v0 * 4 + v1 / 16, (v1 % 16) * 16 + v2 / 4, (v2 % 4) * 64 + v3]
  }

  /** Base64 decoding: groups of four alphabet characters, of which only the
      last may end in one or two `=`; the bits a padded group leaves over
      must be zero. */
  function Base64Decode(s: string): (r: Option<seq<byte>>)
    decreases |s|
  {
    if |s| == 0 then Some([])
    else if |s| < 4 then None
    else
      var v0, v1, v2, v3 := Base64Value(s[0]), Base64Value(s[1]), Base64Value(s[2]), Base64Value(s[3]);
      if |s| == 4 && s[2] == '=' && s[3] == '=' then
        if v0.Some? && v1.Some? && v1.value % 16 == 0 then Some([v0.value * 4 + v1.value / 16])
        else None
      else if |s| == 4 && s[3] == '=' then
        if v0.Some? && v1.Some? && v2.Some? && v2.value % 4 == 0 then
          Some([v0.value * 4 + v1.value / 16, (v1.value % 16) * 16 + v2.value / 4])
        else None
      else if v0.Some? && v1.Some? && v2.Some? && v3.Some? then
        var head := Sextets3(v0.value, v1.value, v2.value, v3.value);
        match Base64Decode(s[4..])
        case None => None
        case Some(rest) => Some(head + rest)
      else None
  }

  lemma DecodeGroup1(x: byte)
    ensures Base64Decode(Group1(x)) == Some([x])
  {
    DigitValue(x / 4);
    DigitValue((x % 4) * 16);
  }

  lemma DecodeGroup2(x: byte, y: byte)
    ensures Base64Decode(Group2(x, y)) == Some([x, y])
  {
    DigitValue(x / 4);
    DigitValue((x % 4) * 16 + y / 16);
    DigitValue((y % 16) * 4);
    assert ((x % 4) * 16 + y / 16) / 16 == x % 4;
    assert ((x % 4) * 16 + y / 16) % 16 == y / 16;
  }

  lemma DecodeGroup3(x: byte, y: byte, z: byte, rest: string)
    requires |rest| > 0 ==> |rest| >= 4
    ensures Base64Decode(rest).Some? ==> Base64Decode(Group3(x, y, z) + rest) == Some([x, y, z] + Base64Decode(rest).value)
  {
    var v0, v1, v2, v3 := x / 4, (x % 4) * 16 + y / 16, (y % 16) * 4 + z / 64, z % 64;
    Group3Values(x, y, z);
    ThreeBytes(x, y, z);
    DecodeFullGroup(Group3(x, y, z), rest, v0, v1, v2, v3);
  }

  /** The values of the four characters for three bytes. */
  lemma Group3Values(x: byte, y: byte, z: byte)
    ensures var g, v0, v1, v2, v3 := Group3(x, y, z), x / 4, (x % 4) * 16 + y / 16, (y % 16) * 4 + z / 64, z % 64;
      && Base64Value(g[0]) == Some(v0) && Base64Value(g[1]) == Some(v1)
      && Base64Value(g[2]) == Some(v2) && Base64Value(g[3]) == Some(v3)
  {
    DigitValue(x / 4);
    DigitValue((x % 4) * 16 + y / 16);
    DigitValue((y % 16) * 4 + z / 64);
    DigitValue(z % 64);
  }

  /** A leading group of four alphabet characters decodes to three bytes
      followed by the decoding of the rest. */
  lemma DecodeFullGroup(g: string, rest: string, v0: int, v1: int, v2: int, v3: int)
    requires |g| == 4
    requires Base64Value(g[0]) == Some(v0) && Base64Value(g[1]) == Some(v1)
    requires Base64Value(g[2]) == Some(v2) && Base64Value(g[3]) == Some(v3)
    ensures Base64Decode(rest).Some? ==>
      Base64Decode(g + rest) == Some(Sextets3(v0, v1, v2, v3) + Base64Decode(rest).value)
  {
    var s := g + rest;
    assert s[0] == g[0] && s[1] == g[1] && s[2] == g[2] && s[3] == g[3];
    assert s[4..] == rest;
  }

  /** Three bytes regrouped as four 6-bit values and back. */
  lemma ThreeBytes(x: byte, y: byte, z: byte)
    ensures var v0, v1, v2, v3 := x / 4, (x % 4) * 16 + y / 16, (y % 16) * 4 + z / 64, z % 64;
      Sextets3(v0, v1, v2, v3) == [x, y, z]
  {
    assert ((x % 4) * 16 + y / 16) / 16 == x % 4;
    assert ((x % 4) * 16 + y / 16) % 16 == y / 16;
    assert ((y % 16) * 4 + z / 64) / 4 == y % 16;
    assert ((y % 16) * 4 + z / 64) % 4 == z / 64;
  }

  /** Decoding undoes encoding. */
  lemma {:induction false} Base64RoundTrip(b: seq<byte>)
    ensures Base64Decode(Base64Encode(b)) == Some(b)
    decreases |b|
  {
    if |b| == 1 {
      DecodeGroup1(b[0]);
      assert [b[0]] == b;
    } else if |b| == 2 {
      DecodeGroup2(b[0], b[1]);
      assert [b[0], b[1]] == b;
    } else if |b| >= 3 {
      Base64RoundTrip(b[3..]);
      RoundTripStep(b);
    }
  }

  /** The round trip of the bytes after the first three carries over to
      the whole. */
  lemma RoundTripStep(b: seq<byte>)
    requires |b| >= 3
    requires Base64Decode(Base64Encode(b[3..])) == Some(b[3..])
    ensures Base64Decode(Base64Encode(b)) == Some(b)
  {
    var rest := Base64Encode(b[3..]);
    EncodeFirstGroup(b);
    assert |rest| > 0 ==> |rest| >= 4;
    DecodeGroup3(b[0], b[1], b[2], rest);
    FirstThreeAndRest(b);
  }

  /** Encoding three or more bytes starts with the group of the first three. */
  lemma EncodeFirstGroup(b: seq<byte>)
    requires |b| >= 3
    ensures Base64Encode(b) == Group3(b[0], b[1], b[2]) + Base64Encode(b[3..])
  {
  }

  lemma FirstThreeAndRest(b: seq<byte>)
    requires |b| >= 3
    ensures [b[0], b[1], b[2]] + b[3..] == b
  {
  }
}

=== FILE: executor.dfy ===
/** The action executor of the Facebook service
    (services/fbService.js, `performAction` and the handlers it dispatches
    to). The browser itself is not modelled: what it does is a `Run`, the
    outcome of each step the service takes, and the service's bookkeeping
    around those steps is what is modelled here. */
module Executor {
  import opened Common
  import opened Text
  import opened Account

  /** The handler an action kind is dispatched to. */
  datatype Handler = LikeHandler | ReactionHandler | FollowHandler | CommentHandler

  /** What the browser does during one call:
      - `launched`: whether the browser could be started;
      - `landing`: the address the page ends up at after navigation, or the
        message of the error that opening the page or navigating raised;
      - `interaction`: `None` when every page step of the handler succeeds,
        `Some(m)` when one fails with message `m`;
      - `elapsed`: milliseconds between the start and the reply. */
  datatype Run = Run(launched: bool, landing: Result<string, string>, interaction: Option<string>, elapsed: int)

  /** The `{success, executionTime, result | error}` object the service returns. */
  datatype Reply = Done(executionTime: int, result: string) | Error(executionTime: int, error: string)

  /** A call either returns a reply or throws an error with a message. */
  datatype Invocation = Returned(reply: Reply) | Threw(message: string)

  const BrowserFailure: string := "Browser initialization failed"
  const SessionExpired: string := "Session expired or invalid"
  const CommentRequired: string := "Failed to post comment: Comment text is required"

  /** The switch on `actionType.toLowerCase()`: a handler exactly when the
      lower-cased string names one of the ten kinds other than `unfollow`
      and `unlike`; every other string falls to the `default` branch. */
  function Classify(actionType: string): (r: Option<Handler>)
    ensures var k := ParseKind(ToLower(actionType));
      r.Some? <==> k.Some? && k.value != Unfollow && k.value != Unlike
  {
    var k := ToLower(actionType);
    if k == "like" then Some(LikeHandler)
    else if k == "love" || k == "haha" || k == "sad" || k == "angry" || k == "wow" then Some(ReactionHandler)
    else if k == "follow" then Some(FollowHandler)
    else if k == "comment" then Some(CommentHandler)
    else None
  }

  /** Lower-casing a lower-cased string changes nothing. */
  lemma ToLowerIdempotent(s: string)
    ensures ToLower(ToLower(s)) == ToLower(s)
  {
  }

  /** The dispatch does not depend on the case of the kind. */
  lemma ClassifyIgnoresCase(s: string)
    ensures Classify(ToLower(s)) == Classify(s)
  {
    ToLowerIdempotent(s);
  }

  /** A word of lower-case ASCII letters is its own lower case. */
  lemma LowerOfLowerWord(s: string)
    requires forall i :: 0 <= i < |s| ==> 'a' <= s[i] <= 'z'
    ensures ToLower(s) == s
  {
  }

  /** How each action kind a request may carry is dispatched: `like` to the
      like handler, the five reactions to the reaction handler, `follow` and
      `comment` to theirs, and `unfollow` and `unlike`, which the request
      validation admits, to no handler at all. */
  lemma ClassifyKind(k: ActionKind)
    ensures Classify(KindName(k)) == match k
      case Like => Some(LikeHandler)
      case Love | Haha | Sad | Angry | Wow => Some(ReactionHandler)
      case Follow => Some(FollowHandler)
      case Comment => Some(CommentHandler)
      case Unfollow | Unlike => None
  {
    LowerOfLowerWord(KindName(k));
  }

  /** A comment `performComment` refuses: missing, empty or all white space. */
  predicate BlankComment(comment: Option<string>)
  {
    comment.None? || Trim(comment.value) == ""
  }

  /** The handlers: the result message on success, the error message of
      what they throw otherwise. The like and follow handlers swallow the
      error of each selector they try, so their only failure is the button
      not being found. The comment handler refuses a blank comment before it
      touches the page and echoes the first fifty characters of the comment. */
  function Interact(h: Handler, actionType: string, comment: Option<string>, dom: Option<string>): (r: Result<string, string>)
    ensures h == CommentHandler && BlankComment(comment) ==> r == Err(CommentRequired)
    ensures r.Ok? <==> dom.None? && (h == CommentHandler ==> !BlankComment(comment))
  {
    match h
    case LikeHandler =>
      if dom.None? then Ok("Like action completed") else Err("Failed to perform like: Like button not found")
    case ReactionHandler =>
      if dom.None? then Ok(actionType + " reaction completed")
      else Err("Failed to perform " + actionType + " reaction: " + dom.value)
    case FollowHandler =>
      if dom.None? then Ok("Follow action completed") else Err("Failed to perform follow: Follow button not found")
    case CommentHandler =>
      if BlankComment(comment) then Err(CommentRequired)
      else if dom.Some? then Err("Failed to post comment: " + dom.value)
      else Ok("Comment posted: " + JsSlice(comment.value, 0, 50) + "...")
  }

  /** The landing page is the login or checkpoint page. */
  predicate SentToLogin(url: string)
  {
    Contains(url, "login") || Contains(url, "checkpoint")
  }

  /** `performAction`: only a browser that cannot be started makes the call
      throw; every later failure, including a landing on the login or
      checkpoint page and an unsupported kind, is returned as a failed
      reply. The call succeeds exactly when the page opens somewhere other
      than the login pages, the kind has a handler, and the handler's page
      steps succeed (with a non-blank comment for a comment). */
  function Perform(actionType: string, comment: Option<string>, run: Run): (r: Invocation)
    ensures r.Threw? <==> !run.launched
    ensures r.Threw? ==> r.message == BrowserFailure
    ensures r.Returned? ==> r.reply.executionTime == run.elapsed
    ensures run.launched && run.landing.Ok? && SentToLogin(run.landing.value) ==> r == Returned(Error(run.elapsed, SessionExpired))
    ensures r.Returned? && r.reply.Done? <==>
      && run.launched && run.landing.Ok? && !SentToLogin(run.landing.value)
      && Classify(actionType).Some? && run.interaction.None?
      && (Classify(actionType) == Some(CommentHandler) ==> !BlankComment(comment))
  {
    if !run.launched then Threw(BrowserFailure)
    else match run.landing
      case Err(m) => Returned(Error(run.elapsed, m))
      case Ok(url) =>
        if SentToLogin(url) then Returned(Error(run.elapsed, SessionExpired))
        else match Classify(actionType)
          case None => Returned(Error(run.elapsed, "Unsupported action type: " + actionType))
          case Some(h) =>
            match Interact(h, actionType, comment, run.interaction)
            case Ok(msg) => Returned(Done(run.elapsed, msg))
            case Err(e) => Returned(Error(run.elapsed, e))
  }

  /** A comment action with a blank comment fails with the "Comment text is
      required" error once the page has opened outside the login pages. */
  lemma BlankCommentFails(actionType: string, comment: Option<string>, run: Run)
    requires run.launched && run.landing.Ok? && !SentToLogin(run.landing.value)
    requires Classify(actionType) == Some(CommentHandler) && BlankComment(comment)
    ensures Perform(actionType, comment, run) == Returned(Error(run.elapsed, CommentRequired))
  {
  }

  /** Unsupported kinds are reported, not thrown. */
  lemma UnsupportedKindFails(actionType: string, comment: Option<string>, run: Run)
    requires run.launched && run.landing.Ok? && !SentToLogin(run.landing.value)
    requires Classify(actionType).None?
    ensures Perform(actionType, comment, run) == Returned(Error(run.elapsed, "Unsupported action type: " + actionType))
  {
  }

  /** The only message the service ever throws mentions neither "Session
      expired" nor "invalid": the login-page failure is returned, not
      thrown. */
  lemma ThrownMessageIsBrowserFailure(actionType: string, comment: Option<string>, run: Run)
    ensures Perform(actionType, comment, run).Threw? ==>
      !Contains(Perform(actionType, comment, run).message, "Session expired")
      && !Contains(Perform(actionType, comment, run).message, "invalid")
  {
    BrowserFailureMentionsNeither();
  }

  /** The browser failure has no capital S, so no "Session expired", and no
      v, so no "invalid". */
  lemma BrowserFailureMentionsNeither()
    ensures !Contains(BrowserFailure, "Session expired")
    ensures !Contains(BrowserFailure, "invalid")
  {
    assert !Contains(BrowserFailure, "Session expired") by {
      MissingCharacter(BrowserFailure, "Session expired", 'S');
    }
    assert !Contains(BrowserFailure, "invalid") by {
      MissingCharacter(BrowserFailure, "invalid", 'v');
    }
  }

  /** The returned login-page failure does mention an expired session. */
  lemma SessionExpiredMentionsExpiry()
    ensures Contains(SessionExpired, "Session expired") && Contains(SessionExpired, "invalid")
  {
    assert OccursAt(SessionExpired, "Session expired", 0);
    assert OccursAt(SessionExpired, "invalid", 19);
  }
}

=== FILE: tally.dfy ===
/** The counting both controllers do over an action history: `{total,
    successful, failed}` for the records a predicate selects, and the same
    triple per key in an object built by one pass over the history
    (controllers/actionController.js, `getActionStats`;
    controllers/dashboardController.js, `getDashboardOverview` and
    `getActionAnalytics`). */
module Tally {
  import opened Common
  import opened Account

  datatype Counts = Counts(total: nat, successful: nat, failed: nat)

  function Selected(p: ActionRecord -> bool, st: Status): ActionRecord -> bool
  {
    (a: ActionRecord) => p(a) && a.status == st
  }

  /** The triple for the records `p` selects: how many there are, and how
      many of them succeeded and failed. Pending and cancelled records count
      only toward the total. */
  function CountsWhere(h: seq<ActionRecord>, p: ActionRecord -> bool): (c: Counts)
    ensures c.successful + c.failed <= c.total <= |h|
  {
    CountDisjointBound(h, Selected(p, Success), Selected(p, Failed), p);
    Counts(Count(h, p), Count(h, Selected(p, Success)), Count(h, Selected(p, Failed)))
  }

  /** Records at or after time `since`. */
  function Since(since: int): ActionRecord -> bool
  {
    (a: ActionRecord) => a.timestamp >= since
  }

  /** A window that starts later counts no more records in any column. */
  lemma WindowMonotone(h: seq<ActionRecord>, early: int, late: int)
    requires early <= late
    ensures CountsWhere(h, Since(late)).total <= CountsWhere(h, Since(early)).total
    ensures CountsWhere(h, Since(late)).successful <= CountsWhere(h, Since(early)).successful
    ensures CountsWhere(h, Since(late)).failed <= CountsWhere(h, Since(early)).failed
  {
    CountMonotone(h, Since(late), Since(early));
    CountMonotone(h, Selected(Since(late), Success), Selected(Since(early), Success));
    CountMonotone(h, Selected(Since(late), Failed), Selected(Since(early), Failed));
  }

  function KeyIs<K(==,!new)>(key: ActionRecord -> K, k: K): ActionRecord -> bool
  {
    (a: ActionRecord) => key(a) == k
  }

  /** The per-key object, as a list of entries in the order the keys were
      inserted. */
  type Table<K> = seq<(K, Counts)>

  predicate HasKey<K(==,!new)>(t: Table<K>, k: K)
  {
    exists i :: 0 <= i < |t| && t[i].0 == k
  }

  predicate DistinctKeys<K(==,!new)>(t: Table<K>)
  {
    forall i, j :: 0 <= i < j < |t| ==> t[i].0 != t[j].0
  }

  /** `c` after one more record with status `st`, when `hit`. */
  function Counted(c: Counts, hit: bool, st: Status): Counts
  {
    if hit then Counts(c.total + 1, c.successful + (if st == Success then 1 else 0), c.failed + (if st == Failed then 1 else 0))
    else c
  }

  /** Counting one more record: its entry is created when missing, then its
      total and its success or failure column go up by one. */
  function Bump<K(==,!new)>(t: Table<K>, k: K, st: Status): (r: Table<K>)
    requires DistinctKeys(t)
    ensures DistinctKeys(r)
    ensures HasKey(r, k)
    ensures forall x :: HasKey(r, x) <==> HasKey(t, x) || x == k
    ensures |r| == |t| + (if HasKey(t, k) then 0 else 1)
    ensures forall i :: 0 <= i < |t| ==> r[i].0 == t[i].0
    ensures forall i :: 0 <= i < |r| ==> r[i].1 == Counted(if i < |t| then t[i].1 else Counts(0, 0, 0), r[i].0 == k, st)
  {
    var i := FirstIndex(t, (e: (K, Counts)) => e.0 == k);
    if i < |t| then
      var r := t[i := (k, Counted(t[i].1, true, st))];
      assert r[i].0 == k && t[i].0 == k;
      assert forall j :: 0 <= j < |t| ==> r[j].0 == t[j].0;
      assert forall x :: HasKey(r, x) <==> HasKey(t, x) by {
        forall x
          ensures HasKey(r, x) <==> HasKey(t, x)
        {
          if HasKey(t, x) {
            var j :| 0 <= j < |t| && t[j].0 == x;
            assert r[j].0 == x;
          }
          if HasKey(r, x) {
            var j :| 0 <= j < |r| && r[j].0 == x;
            assert t[j].0 == x;
          }
        }
      }
      r
    else
      assert forall j :: 0 <= j < |t| ==> t[j].0 != k;
      var r := t + [(k, Counted(Counts(0, 0, 0), true, st))];
      assert r[|t|].0 == k;
      assert forall x :: HasKey(t, x) ==> HasKey(r, x) by {
        forall x | HasKey(t, x)
          ensures HasKey(r, x)
        {
          var j :| 0 <= j < |t| && t[j].0 == x;
          assert r[j].0 == x;
        }
      }
      r
  }

  /** `history.forEach(a => { table[key(a)] ??= {0, 0, 0}; count a })`:
      one entry per key that occurs, in order of first occurrence (the
      counts each entry holds are the subject of `TallyCounts`). */
  function TallyBy<K(==,!new)>(h: seq<ActionRecord>, key: ActionRecord -> K): (t: Table<K>)
    ensures DistinctKeys(t)
    ensures forall x :: HasKey(t, x) <==> exists j :: 0 <= j < |h| && key(h[j]) == x
    decreases |h|
  {
    if |h| == 0 then []
    else
      var init := h[..|h| - 1];
      var last := h[|h| - 1];
      var t0 := TallyBy(init, key);
      assert h == init + [last];
      BumpKeepsKeys(init, last, key, t0);
      Bump(t0, key(last), last.status)
  }

  /** Every entry of the table holds the counts of the records with its key. */
  lemma {:induction false} TallyCounts<K(!new)>(h: seq<ActionRecord>, key: ActionRecord -> K)
    ensures forall i :: 0 <= i < |TallyBy(h, key)| ==> TallyBy(h, key)[i].1 == CountsWhere(h, KeyIs(key, TallyBy(h, key)[i].0))
    decreases |h|
  {
    if |h| > 0 {
      var init := h[..|h| - 1];
      var last := h[|h| - 1];
      var t0 := TallyBy(init, key);
      TallyCounts(init, key);
      assert forall i :: 0 <= i < |t0| ==> t0[i].1 == CountsWhere(init, KeyIs(key, t0[i].0));
      assert h == init + [last];
      BumpKeepsCounts(init, last, key, t0);
      assert TallyBy(h, key) == Bump(t0, key(last), last.status);
    }
  }

  /** Counting one more record keeps the keys those of the records seen. */
  lemma BumpKeepsKeys<K(!new)>(init: seq<ActionRecord>, last: ActionRecord, key: ActionRecord -> K, t0: Table<K>)
    requires DistinctKeys(t0)
    requires forall x :: HasKey(t0, x) <==> exists j :: 0 <= j < |init| && key(init[j]) == x
    ensures forall x :: HasKey(Bump(t0, key(last), last.status), x) <==>
      exists j :: 0 <= j < |init + [last]| && key((init + [last])[j]) == x
  {
    var h := init + [last];
    forall x
      ensures HasKey(t0, x) || x == key(last) <==> exists j :: 0 <= j < |h| && key(h[j]) == x
    {
      if HasKey(t0, x) {
        var j :| 0 <= j < |init| && key(init[j]) == x;
        assert key(h[j]) == x;
      }
      if x == key(last) {
        assert key(h[|init|]) == x;
      }
      if exists j :: 0 <= j < |h| && key(h[j]) == x {
        var j :| 0 <= j < |h| && key(h[j]) == x;
        if j < |init| {
          assert key(init[j]) == x;
        }
      }
    }
  }

  /** The counts of the records `p` selects, after one more record. */
  lemma CountsWhereSnoc(init: seq<ActionRecord>, last: ActionRecord, p: ActionRecord -> bool)
    ensures CountsWhere(init + [last], p) == Counted(CountsWhere(init, p), p(last), last.status)
  {
    CountAppend(init, [last], p);
    CountAppend(init, [last], Selected(p, Success));
    CountAppend(init, [last], Selected(p, Failed));
  }

  /** Counting one more record keeps every entry equal to the counts of its
      key over the records seen. */
  lemma BumpKeepsCounts<K(!new)>(init: seq<ActionRecord>, last: ActionRecord, key: ActionRecord -> K, t0: Table<K>)
    requires DistinctKeys(t0)
    requires forall x :: HasKey(t0, x) <==> exists j :: 0 <= j < |init| && key(init[j]) == x
    requires forall i :: 0 <= i < |t0| ==> t0[i].1 == CountsWhere(init, KeyIs(key, t0[i].0))
    ensures var t := Bump(t0, key(last), last.status);
      forall i :: 0 <= i < |t| ==> t[i].1 == CountsWhere(init + [last], KeyIs(key, t[i].0))
  {
    var t := Bump(t0, key(last), last.status);
    forall i | 0 <= i < |t|
      ensures t[i].1 == CountsWhere(init + [last], KeyIs(key, t[i].0))
    {
      var p := KeyIs(key, t[i].0);
      CountsWhereSnoc(init, last, p);
      if i >= |t0| {
        assert t[i].0 == key(last);
        assert forall j :: 0 <= j < |init| ==> !p(init[j]);
        CountNone(init, p);
        CountNone(init, Selected(p, Success));
        CountNone(init, Selected(p, Failed));
      }
    }
  }

  /** The sum of the totals of a table. */
  function SumTotals<K>(t: Table<K>): nat
    decreases |t|
  {
    if |t| == 0 then 0 else SumTotals(t[..|t| - 1]) + t[|t| - 1].1.total
  }

  /** Every record is counted under exactly one key: the totals add up to
      the length of the history. */
  lemma {:induction false} TallyTotalsSumToLength<K(!new)>(h: seq<ActionRecord>, key: ActionRecord -> K)
    ensures SumTotals(TallyBy(h, key)) == |h|
    decreases |h|
  {
    if |h| > 0 {
      var init := h[..|h| - 1];
      var last := h[|h| - 1];
      TallyTotalsSumToLength(init, key);
      BumpAddsOne(TallyBy(init, key), key(last), last.status);
    }
  }

  /** Counting a record raises the sum of totals by one. */
  lemma BumpAddsOne<K(!new)>(t: Table<K>, k: K, st: Status)
    requires DistinctKeys(t)
    ensures SumTotals(Bump(t, k, st)) == SumTotals(t) + 1
  {
    var r := Bump(t, k, st);
    if HasKey(t, k) {
      var i :| 0 <= i < |t| && t[i].0 == k;
      SumTotalsUpdate(t, r, i);
    } else {
      assert r[..|r| - 1] == t;
    }
  }

  /** Raising one entry's total by one raises the sum by one. */
  lemma {:induction false} SumTotalsUpdate<K>(t: Table<K>, r: Table<K>, i: nat)
    requires |r| == |t| && i < |t|
    requires forall j :: 0 <= j < |t| && j != i ==> r[j].1.total == t[j].1.total
    requires r[i].1.total == t[i].1.total + 1
    ensures SumTotals(r) == SumTotals(t) + 1
    decreases |t|
  {
    if i < |t| - 1 {
      SumTotalsUpdate(t[..|t| - 1], r[..|r| - 1], i);
    } else {
      SumTotalsSame(t[..|t| - 1], r[..|r| - 1]);
    }
  }

  lemma {:induction false} SumTotalsSame<K>(t: Table<K>, r: Table<K>)
    requires |r| == |t|
    requires forall j :: 0 <= j < |t| ==> r[j].1.total == t[j].1.total
    ensures SumTotals(r) == SumTotals(t)
    decreases |t|
  {
    if |t| > 0 {
      SumTotalsSame(t[..|t| - 1], r[..|r| - 1]);
    }
  }
}

=== FILE: targetid.dfy ===
/** The target-id extractor of the Facebook service
    (services/fbService.js, `extractTargetId`): five URL patterns are tried
    in order and the first one that matches gives its captured digits; when
    none matches, the id is the first 16 characters of the base64 encoding
    of the URL's UTF-8 bytes.

    Each regular expression is written out as the search the JavaScript
    engine performs for it: start positions are tried from left to right,
    and at each start the greedy quantifiers give back characters one at a
    time until the rest of the pattern matches. */
module TargetId {
  import opened Common
  import opened Text
  import opened Encoding

  /** The patterns, in the order they are tried:
      `/\/posts\/(\d+)/`, `/\/photos\/.*\/(\d+)/`, `/story_fbid=(\d+)/`,
      `/\/(\d+)\/posts\/(\d+)/` and `/profile\.php\?id=(\d+)/`. */
  datatype Pattern = Posts | Photos | StoryFbid | OwnerPosts | ProfileId

  const Patterns: seq<Pattern> := [Posts, Photos, StoryFbid, OwnerPosts, ProfileId]

  const FallbackLength: nat := 16

  /** The literal `lit` occurs at `i` and a digit follows it: where a
      pattern `lit(\d+)` matches. */
  predicate LiteralThenDigit(url: string, lit: string, i: int)
  {
    OccursAt(url, lit, i) && i + |lit| < |url| && IsDigit(url[i + |lit|])
  }

  /** First position at or after `i` where a line terminator stands (the
      end of what `.*` can cover), or the length of `url`. */
  function LineEnd(url: string, i: nat): (e: nat)
    requires i <= |url|
    ensures i <= e <= |url|
    ensures forall k :: i <= k < e ==> !IsLineTerminator(url[k])
    ensures e < |url| ==> IsLineTerminator(url[e])
    decreases |url| - i
  {
    if i == |url| || IsLineTerminator(url[i]) then i else LineEnd(url, i + 1)
  }

  /** A `/` followed by a digit at `p`. */
  predicate SlashThenDigit(url: string, p: int)
  {
    0 <= p && p + 1 < |url| && url[p] == '/' && IsDigit(url[p + 1])
  }

  /** The last position in `[lo, hi)` holding a `/` followed by a digit. */
  function LastSlashThenDigit(url: string, lo: nat, hi: nat): (r: Option<nat>)
    requires lo <= hi <= |url|
    ensures r.Some? ==> (lo <= r.value < hi && SlashThenDigit(url, r.value)
                         && forall q :: r.value < q < hi ==> !SlashThenDigit(url, q))
    ensures r.None? ==> forall q :: lo <= q < hi ==> !SlashThenDigit(url, q)
    decreases hi - lo
  {
    if lo == hi then None
    else if SlashThenDigit(url, hi - 1) then Some(hi - 1)
    else LastSlashThenDigit(url, lo, hi - 1)
  }

  /** How `/\/photos\/.*\/(\d+)/` can split once it has matched `/photos/`
      at `i`: `.*` covers `url[i + 8..p]`, which holds no line terminator,
      and a `/` and at least one digit follow at `p`. */
  predicate PhotoSplit(url: string, i: int, p: int)
  {
    && OccursAt(url, "/photos/", i)
    && i + 8 <= p
    && SlashThenDigit(url, p)
    && forall k :: i + 8 <= k < p ==> !IsLineTerminator(url[k])
  }

  /** The capture of `pattern` when the match starts at position `i`, or
      `None` when the pattern does not match there. */
  function MatchAt(pattern: Pattern, url: string, i: nat): (r: Option<string>)
    ensures r.Some? ==> |r.value| >= 1 && AllDigits(r.value)
  {
    match pattern
    case Posts => if LiteralThenDigit(url, "/posts/", i) then Some(DigitsAt(url, i + 7)) else None
    case StoryFbid => if LiteralThenDigit(url, "story_fbid=", i) then Some(DigitsAt(url, i + 11)) else None
    case ProfileId => if LiteralThenDigit(url, "profile.php?id=", i) then Some(DigitsAt(url, i + 15)) else None
    case Photos =>
      if OccursAt(url, "/photos/", i) then
        match LastSlashThenDigit(url, i + 8, LineEnd(url, i + 8))
        case Some(p) => Some(DigitsAt(url, p + 1))
        case None => None
      else None
    case OwnerPosts =>
      if i < |url| && url[i] == '/' then
        var n := DigitRun(url, i + 1);
        if n >= 1 && LiteralThenDigit(url, "/posts/", i + 1 + n) then Some(DigitsAt(url, i + 1)) else None
      else None
  }

  /** The leftmost start at or after `from` where `pattern` matches. */
  function Search(pattern: Pattern, url: string, from: nat): (r: Option<nat>)
    ensures r.Some? ==> (from <= r.value <= |url| && MatchAt(pattern, url, r.value).Some?
                         && forall j :: from <= j < r.value ==> MatchAt(pattern, url, j).None?)
    ensures r.None? ==> forall j :: from <= j <= |url| ==> MatchAt(pattern, url, j).None?
    decreases |url| + 1 - from
  {
    if from > |url| then None
    else if MatchAt(pattern, url, from).Some? then Some(from)
    else Search(pattern, url, from + 1)
  }

  /** `url.match(pattern)` reduced to its first capture group: the capture
      of the leftmost match. (For every pattern here group 1 is a non-empty
      digit string, so `match[1] || match[2]` is group 1.) */
  function Match(pattern: Pattern, url: string): (r: Option<string>)
    ensures r.Some? ==> |r.value| >= 1 && AllDigits(r.value)
    ensures r.None? <==> forall j :: 0 <= j <= |url| ==> MatchAt(pattern, url, j).None?
  {
    match Search(pattern, url, 0)
    case Some(i) => MatchAt(pattern, url, i)
    case None => None
  }

  /** The capture of the first pattern in `patterns` that matches. */
  function FirstMatch(patterns: seq<Pattern>, url: string): (r: Option<string>)
    ensures r.None? <==> forall k :: 0 <= k < |patterns| ==> Match(patterns[k], url).None?
    ensures r.Some? ==> exists k :: (0 <= k < |patterns| && Match(patterns[k], url) == r
                                    && forall j :: 0 <= j < k ==> Match(patterns[j], url).None?)
    decreases |patterns|
  {
    if |patterns| == 0 then None
    else if Match(patterns[0], url).Some? then
      assert Match(patterns[0], url) == Match(patterns[0], url);
      Match(patterns[0], url)
    else
      var r := FirstMatch(patterns[1..], url);
      assert forall k :: 1 <= k < |patterns| ==> patterns[k] == patterns[1..][k - 1];
      r
  }

  /** The id made up when no pattern matches: the first sixteen characters
      of the base64 text of the URL's UTF-8 bytes. */
  function FallbackId(url: string): (r: string)
    ensures |r| == Min(FallbackLength, 4 * ((|Utf8Encode(url)| + 2) / 3))
    ensures StartsWith(Base64Encode(Utf8Encode(url)), r)
    ensures forall i :: 0 <= i < |r| ==> IsBase64Char(r[i])
    ensures |r| == 0 <==> url == ""
  {
    var e := Base64Encode(Utf8Encode(url));
    Utf8EmptyOnlyForEmpty(url);
    LeadingSlice(e, FallbackLength);
    JsSlice(e, 0, FallbackLength)
  }

  /** Only the empty text has no base64 characters. */
  lemma Utf8EmptyOnlyForEmpty(url: string)
    ensures |Base64Encode(Utf8Encode(url))| == 0 <==> url == ""
  {
    if url == "" {
      assert Utf8Encode(url) == [];
    }
  }

  /** The first `n` characters of a base64 text, as `slice(0, n)` takes them. */
  lemma LeadingSlice(e: string, n: nat)
    requires forall i :: 0 <= i < |e| ==> IsBase64Char(e[i])
    ensures var r := JsSlice(e, 0, n);
      && |r| == Min(n, |e|) && StartsWith(e, r)
      && forall i :: 0 <= i < |r| ==> IsBase64Char(r[i])
  {
    var r := JsSlice(e, 0, n);
    assert r == e[..Min(n, |e|)];
  }

  /** `extractTargetId`: the digits the first matching pattern captures,
      else the fallback id. */
  function ExtractTargetId(url: string): (r: string)
    ensures forall k :: (0 <= k < |Patterns| && Match(Patterns[k], url).Some?
                         && (forall j :: 0 <= j < k ==> Match(Patterns[j], url).None?)
                         ==> r == Match(Patterns[k], url).value)
    ensures (forall k :: 0 <= k < |Patterns| ==> Match(Patterns[k], url).None?) ==> r == FallbackId(url)
  {
    match FirstMatch(Patterns, url)
    case Some(id) => id
    case None => FallbackId(url)
  }

  /** The id is either a digit string some pattern captured or a prefix of
      at most sixteen characters of the URL's base64 text. */
  lemma ExtractTargetIdShape(url: string)
    ensures var r := ExtractTargetId(url);
      || (|r| >= 1 && AllDigits(r) && exists k :: 0 <= k < |Patterns| && Match(Patterns[k], url) == Some(r))
      || (|r| <= FallbackLength && StartsWith(Base64Encode(Utf8Encode(url)), r)
          && forall k :: 0 <= k < |Patterns| ==> Match(Patterns[k], url).None?)
  {
    var m := FirstMatch(Patterns, url);
    if m.Some? {
      var k :| 0 <= k < |Patterns| && Match(Patterns[k], url) == m
        && forall j :: 0 <= j < k ==> Match(Patterns[j], url).None?;
      assert ExtractTargetId(url) == m.value;
    }
  }

  /** A split of `/\/photos\/.*\/(\d+)/` lies before the line end. */
  lemma PhotoSplitBeforeLineEnd(url: string, i: nat, p: int)
    requires PhotoSplit(url, i, p)
    ensures p < LineEnd(url, i + 8)
  {
  }

  /** Every `/`-and-digit between the literal and the line end is a split. */
  lemma SlashBeforeLineEndIsSplit(url: string, i: nat, p: int)
    requires OccursAt(url, "/photos/", i) && i + 8 <= p < LineEnd(url, i + 8) && SlashThenDigit(url, p)
    ensures PhotoSplit(url, i, p)
  {
  }

  /** The capture of `/\/photos\/.*\/(\d+)/` at `i` is the digit run after
      the last `/`-and-digit `.*` can reach, and the pattern matches at `i`
      exactly when some split exists. */
  lemma PhotosAtLastSplit(url: string, i: nat)
    ensures MatchAt(Photos, url, i).Some? <==> exists p :: PhotoSplit(url, i, p)
    ensures forall p :: (PhotoSplit(url, i, p) && (forall q :: p < q ==> !PhotoSplit(url, i, q))
                         ==> MatchAt(Photos, url, i) == Some(DigitsAt(url, p + 1)))
  {
    if OccursAt(url, "/photos/", i) {
      var e := LineEnd(url, i + 8);
      var last := LastSlashThenDigit(url, i + 8, e);
      forall p | PhotoSplit(url, i, p)
        ensures last.Some? && p <= last.value
      {
        PhotoSplitBeforeLineEnd(url, i, p);
      }
      if last.Some? {
        SlashBeforeLineEndIsSplit(url, i, last.value);
      }
    }
  }

  /** How `/\/(\d+)\/posts\/(\d+)/` can split at `i`: a `/`, a non-empty
      run of `m` digits, then `/posts/` and a digit. */
  predicate OwnerPostsSplit(url: string, i: int, m: int)
  {
    && 0 <= i && 1 <= m && i + 1 + m <= |url|
    && url[i] == '/'
    && AllDigits(url[i + 1..i + 1 + m])
    && LiteralThenDigit(url, "/posts/", i + 1 + m)
  }

  /** A split of the fourth pattern takes the whole digit run. */
  lemma OwnerPostsSplitIsRun(url: string, i: nat, m: int)
    requires OwnerPostsSplit(url, i, m)
    ensures m == DigitRun(url, i + 1)
  {
    assert url[i + 1 + m] == url[i + 1 + m..i + 1 + m + 7][0];
  }

  /** The first group of `/\/(\d+)\/posts\/(\d+)/` cannot give back digits:
      the only split is the whole digit run, and it is what is captured. */
  lemma OwnerPostsAtSplit(url: string, i: nat)
    ensures MatchAt(OwnerPosts, url, i).Some? <==> exists m :: OwnerPostsSplit(url, i, m)
    ensures forall m :: OwnerPostsSplit(url, i, m) ==> MatchAt(OwnerPosts, url, i) == Some(url[i + 1..i + 1 + m])
  {
    forall m | OwnerPostsSplit(url, i, m)
      ensures MatchAt(OwnerPosts, url, i) == Some(url[i + 1..i + 1 + m])
    {
      OwnerPostsSplitIsRun(url, i, m);
    }
    if MatchAt(OwnerPosts, url, i).Some? {
      assert OwnerPostsSplit(url, i, DigitRun(url, i + 1));
    }
  }

  /** The fourth pattern never decides: whenever it matches, the first
      pattern, `/\/posts\/(\d+)/`, matches too and is tried before it. */
  lemma OwnerPostsImpliesPosts(url: string)
    ensures Match(OwnerPosts, url).Some? ==> Match(Posts, url).Some?
  {
    if Match(OwnerPosts, url).Some? {
      var i := Search(OwnerPosts, url, 0).value;
      var n := DigitRun(url, i + 1);
      assert MatchAt(Posts, url, i + 1 + n).Some?;
    }
  }

  /** Hence dropping the fourth pattern from the list changes no id. */
  lemma OwnerPostsNeverDecides(url: string)
    ensures FirstMatch(Patterns, url) == FirstMatch([Posts, Photos, StoryFbid, ProfileId], url)
  {
    OwnerPostsImpliesPosts(url);
    var front := [Posts, Photos, StoryFbid];
    if Match(Posts, url).None? {
      assert Patterns == front + ([OwnerPosts] + [ProfileId]);
      assert [Posts, Photos, StoryFbid, ProfileId] == front + [ProfileId];
      DropNonMatching(front, OwnerPosts, [ProfileId], url);
    }
  }

  /** A pattern that does not match can be removed from the list without
      changing the first match. */
  lemma {:induction false} DropNonMatching(front: seq<Pattern>, p: Pattern, back: seq<Pattern>, url: string)
    requires Match(p, url).None?
    ensures FirstMatch(front + ([p] + back), url) == FirstMatch(front + back, url)
    decreases |front|
  {
    if |front| == 0 {
      EmptyFront(front, [p] + back);
      EmptyFront(front, back);
      FirstMatchCons([p] + back, url);
      assert ([p] + back)[1..] == back;
    } else {
      DropNonMatching(front[1..], p, back, url);
      ConsFront(front, [p] + back);
      ConsFront(front, back);
      FirstMatchCons(front + ([p] + back), url);
      FirstMatchCons(front + back, url);
    }
  }

  /** One step of the search for the first match. */
  lemma FirstMatchCons(patterns: seq<Pattern>, url: string)
    requires |patterns| > 0
    ensures FirstMatch(patterns, url) == if Match(patterns[0], url).Some? then Match(patterns[0], url) else FirstMatch(patterns[1..], url)
  {
  }

  lemma EmptyFront<T>(a: seq<T>, b: seq<T>)
    requires |a| == 0
    ensures a + b == b
  {
  }

  lemma ConsFront<T>(a: seq<T>, b: seq<T>)
    requires |a| > 0
    ensures (a + b)[0] == a[0] && (a + b)[1..] == a[1..] + b
  {
  }
}

=== FILE: text.dfy ===
/** The JavaScript string operations the application relies on, over
    `string = seq<char>`: `trim`, `split` on one character, `includes`,
    `startsWith`, `toLowerCase` as far as comparisons against ASCII words
    can observe it, and the character classes `\d` and `.` of regular
    expressions. */
module Text {
  import opened Common

  /** The characters `String.prototype.trim` removes: the WhiteSpace and
      LineTerminator productions of ECMAScript. */
  predicate IsWhiteSpace(c: char)
  {
    c == '\t' || c == '\n' || c == '\U{B}' || c == '\U{C}' || c == '\r' || c == ' '
    || c == '\U{A0}' || c == '\U{1680}' || ('\U{2000}' <= c <= '\U{200A}')
    || c == '\U{2028}' || c == '\U{2029}' || c == '\U{202F}' || c == '\U{205F}'
    || c == '\U{3000}' || c == '\U{FEFF}'
  }

  /** The characters a regular-expression `.` does not match. */
  predicate IsLineTerminator(c: char)
  {
    c == '\n' || c == '\r' || c == '\U{2028}' || c == '\U{2029}'
  }

  /** The regular-expression class `\d`. */
  predicate IsDigit(c: char)
  {
    '0' <= c <= '9'
  }

  predicate AllDigits(s: string)
  {
    forall i :: 0 <= i < |s| ==> IsDigit(s[i])
  }

  /** `s` with its leading white space removed. */
  function TrimStart(s: string): (r: string)
    ensures |r| <= |s| && r == s[|s| - |r|..]
    ensures forall k :: 0 <= k < |s| - |r| ==> IsWhiteSpace(s[k])
    ensures |r| > 0 ==> !IsWhiteSpace(r[0])
    decreases |s|
  {
    if |s| > 0 && IsWhiteSpace(s[0]) then TrimStart(s[1..]) else s
  }

  /** `s` with its trailing white space removed. */
  function TrimEnd(s: string): (r: string)
    ensures |r| <= |s| && r == s[..|r|]
    ensures forall k :: |r| <= k < |s| ==> IsWhiteSpace(s[k])
    ensures |r| > 0 ==> !IsWhiteSpace(r[|r| - 1])
    decreases |s|
  {
    if |s| > 0 && IsWhiteSpace(s[|s| - 1]) then TrimEnd(s[..|s| - 1]) else s
  }

  /** `r` is the part of `s` from position `i` on, and everything of `s`
      before and after that part is white space. */
  predicate CutsOnlySpace(s: string, r: string, i: int)
  {
    && 0 <= i <= |s| - |r|
    && r == s[i..i + |r|]
    && (forall k :: 0 <= k < i ==> IsWhiteSpace(s[k]))
    && (forall k :: i + |r| <= k < |s| ==> IsWhiteSpace(s[k]))
  }

  /** `String.prototype.trim`: the result is a contiguous part of `s` that
      neither starts nor ends with white space, and everything cut off on
      either side is white space. */
  function Trim(s: string): (r: string)
    ensures |r| <= |s|
    ensures |r| > 0 ==> !IsWhiteSpace(r[0]) && !IsWhiteSpace(r[|r| - 1])
    ensures exists i :: CutsOnlySpace(s, r, i)
  {
    var t := TrimStart(s);
    var r := TrimEnd(t);
    assert CutsOnlySpace(s, r, |s| - |t|);
    r
  }

  /** A string that neither starts nor ends with white space is its own trim. */
  lemma TrimOfTrimmed(s: string)
    requires |s| > 0 ==> !IsWhiteSpace(s[0]) && !IsWhiteSpace(s[|s| - 1])
    ensures Trim(s) == s
  {
  }

  /** Trimming twice is trimming once. */
  lemma TrimIdempotent(s: string)
    ensures Trim(Trim(s)) == Trim(s)
  {
    TrimOfTrimmed(Trim(s));
  }

  /** `parts.join(d)` for a single separator character. */
  function Join(parts: seq<string>, d: char): string
    requires |parts| >= 1
    decreases |parts|
  {
    if |parts| == 1 then parts[0] else parts[0] + [d] + Join(parts[1..], d)
  }

  /** `s.split(d)` for a single separator character: at least one piece, no
      piece contains the separator, the first piece is the longest prefix of
      `s` free of it, and joining the pieces with the separator gives `s`
      back. */
  function Split(s: string, d: char): (r: seq<string>)
    ensures |r| >= 1
    ensures forall i :: 0 <= i < |r| ==> d !in r[i]
    ensures |r[0]| <= |s| && r[0] == s[..|r[0]|]
    ensures |r[0]| < |s| ==> s[|r[0]|] == d
    ensures Join(r, d) == s
    decreases |s|
  {
    if |s| == 0 then [""]
    else
      var rest := Split(s[1..], d);
      if s[0] == d then
        assert [""] + rest == [""] + rest;
        assert ([""] + rest)[1..] == rest;
        [""] + rest
      else
        var r := [[s[0]] + rest[0]] + rest[1..];
        assert r[1..] == rest[1..];
        assert forall i :: 1 <= i < |r| ==> r[i] == rest[i];
        assert s == [s[0]] + s[1..];
        JoinHead(rest, d, [s[0]]);
        r
  }

  /** Prepending text to the first piece prepends it to the joined string. */
  lemma JoinHead(parts: seq<string>, d: char, x: string)
    requires |parts| >= 1
    ensures Join([x + parts[0]] + parts[1..], d) == x + Join(parts, d)
  {
    var q := [x + parts[0]] + parts[1..];
    assert q[1..] == parts[1..];
  }

  /** The longest prefix of `s` in which `d` does not occur. */
  function Before(s: string, d: char): (r: string)
    ensures |r| <= |s| && r == s[..|r|] && d !in r
    ensures |r| < |s| ==> s[|r|] == d
    decreases |s|
  {
    if |s| == 0 || s[0] == d then "" else [s[0]] + Before(s[1..], d)
  }

  /** The first piece of a split is the text before the first separator,
      and the remaining pieces are the split of the text after it. */
  lemma {:induction false} SplitAtFirst(s: string, d: char)
    ensures Split(s, d)[0] == Before(s, d)
    ensures |Before(s, d)| < |s| ==> Split(s, d)[1..] == Split(s[|Before(s, d)| + 1..], d)
    decreases |s|
  {
    if |s| > 0 && s[0] != d {
      SplitAtFirst(s[1..], d);
      if |Before(s, d)| < |s| {
        assert s[1..][|Before(s[1..], d)| + 1..] == s[|Before(s, d)| + 1..];
      }
    }
  }

  /** Splitting on a character that does not occur gives one piece. */
  lemma {:induction false} SplitWithoutDelimiter(s: string, d: char)
    requires d !in s
    ensures Split(s, d) == [s]
    decreases |s|
  {
    if |s| > 0 {
      assert s[0] in s;
      assert d !in s[1..] by {
        forall k | 0 <= k < |s[1..]|
          ensures s[1..][k] != d
        {
          assert s[1..][k] == s[k + 1];
          assert s[k + 1] in s;
        }
      }
      SplitWithoutDelimiter(s[1..], d);
      assert [s[0]] + s[1..] == s;
    }
  }

  /** `s.startsWith(p)`. */
  predicate StartsWith(s: string, p: string)
  {
    |p| <= |s| && s[..|p|] == p
  }

  /** `sub` occurs in `s` at position `i`. */
  predicate OccursAt(s: string, sub: string, i: int)
  {
    0 <= i <= |s| - |sub| && s[i..i + |sub|] == sub
  }

  /** `s.includes(sub)`. */
  predicate Contains(s: string, sub: string)
  {
    exists i | 0 <= i <= |s| - |sub| :: OccursAt(s, sub, i)
  }

  /** A string lacking one of the characters of `sub` does not contain `sub`. */
  lemma MissingCharacter(s: string, sub: string, c: char)
    requires c in sub && c !in s
    ensures !Contains(s, sub)
  {
    var k :| 0 <= k < |sub| && sub[k] == c;
    forall i | 0 <= i <= |s| - |sub|
      ensures !OccursAt(s, sub, i)
    {
      assert s[i + k] in s;
      assert s[i..i + |sub|][k] == s[i + k];
    }
  }

  /** `toLowerCase` for one character, exact for every comparison against a
      lower-case ASCII word: ASCII capitals and the Kelvin sign (U+212A, the
      only other character whose lower case is an ASCII letter) are mapped,
      every other character is kept. */
  function LowerChar(c: char): (r: char)
    ensures 'a' <= r <= 'z' ==> ('a' <= c <= 'z' || 'A' <= c <= 'Z' || c == '\U{212A}')
  {
    if 'A' <= c <= 'Z' then (c as int + 32) as char
    else if c == '\U{212A}' then 'k'
    else c
  }

  function ToLower(s: string): (r: string)
    ensures |r| == |s|
    ensures forall i :: 0 <= i < |s| ==> r[i] == LowerChar(s[i])
  {
    seq(|s|, i requires 0 <= i < |s| => LowerChar(s[i]))
  }

  /** Case-insensitive equality of one character with a lower-case ASCII
      letter or another ASCII character, as a regular expression with the
      `i` flag and without the `u` flag compares them: only ASCII letters
      are folded. */
  predicate SameCharIgnoringCase(c: char, lit: char)
  {
    c == lit || ('a' <= lit <= 'z' && c as int == lit as int - 32)
  }

  /** `s` starts with `lit`, ignoring the case of ASCII letters. */
  predicate StartsWithIgnoringCase(s: string, lit: string)
  {
    |lit| <= |s| && forall k :: 0 <= k < |lit| ==> SameCharIgnoringCase(s[k], lit[k])
  }

  /** Matching a concatenation ignoring case is matching its first part and
      then, after it, its second part. */
  lemma StartsWithIgnoringCaseConcat(s: string, a: string, b: string)
    ensures StartsWithIgnoringCase(s, a + b) <==>
      StartsWithIgnoringCase(s, a) && StartsWithIgnoringCase(s[|a|..], b)
  {
    if StartsWithIgnoringCase(s, a) && StartsWithIgnoringCase(s[|a|..], b) {
      forall k | 0 <= k < |a + b|
        ensures SameCharIgnoringCase(s[k], (a + b)[k])
      {
        if k >= |a| {
          assert s[|a|..][k - |a|] == s[k];
        }
      }
    }
    if StartsWithIgnoringCase(s, a + b) {
      forall k | 0 <= k < |b|
        ensures SameCharIgnoringCase(s[|a|..][k], b[k])
      {
        assert (a + b)[|a| + k] == b[k];
      }
    }
  }

  /** Length of the run of digits of `s` starting at position `i`. */
  function DigitRun(s: string, i: nat): (n: nat)
    requires i <= |s|
    ensures i + n <= |s|
    ensures AllDigits(s[i..i + n])
    ensures i + n < |s| ==> !IsDigit(s[i + n])
    decreases |s| - i
  {
    if i < |s| && IsDigit(s[i]) then
      var m := DigitRun(s, i + 1);
      assert s[i..i + 1 + m] == [s[i]] + s[i + 1..i + 1 + m];
      1 + m
    else 0
  }

  /** The digits `\d+` captures greedily at position `i`. */
  function DigitsAt(s: string, i: nat): (r: string)
    requires i <= |s|
    ensures AllDigits(r)
    ensures i < |s| && IsDigit(s[i]) ==> |r| >= 1
  {
    s[i..i + DigitRun(s, i)]
  }
}
